=== FILE: README.md ===
# EMS core in Dafny

A model of the student and employee management system (EMS): its backend REST
handlers, its two data models and the client code that drives them. The model
covers:

- the Express/Mongoose student routes (`backend/routes/students.js`): filtered
  and paginated listing, lookup with the average grade, create, patch, delete
  and per-class statistics;
- the Sequelize employee routes (`backend/routes/employees.js`): filtered,
  ordered and paginated listing, lookup, create with its duplicate
  `employeeId` pre-check, update and delete;
- the `Student` schema and the `Employee` table definition
  (`backend/models/`): required fields, ranges, enums, defaults, the unique
  index and `calculateAverageGrade`;
- the two React forms (`AddStudentForm.jsx`, `AddEmployeeForm.jsx`): subject
  list editing, ordered validation and what a submission does to the form;
- the employee reducers of `App.jsx`: fetch, update, add, delete, log in and
  log out, with the browser's CORS preflight against the server's method list
  (`server.js`);
- the grade guard of `StudentCard.jsx`, which passes a grade on only when
  `parseInt` reads a whole number from 0 to 100.

The model has no I/O. A database collection is a `map` from key to record, or
a `seq` in the order the store's sort returns. A request body is a map of
JSON values. `Number(...)` is a parameter of type `string -> Number`. Each
server response the client reacts to is an explicit `Response` value.

Modules, one file each:

| module | models |
|---|---|
| `Base` | `Option`/`Result` wrappers and small helpers |
| `JsString` | `trim`, `split`/`join` on one character, ASCII case mapping, substring search |
| `JsNumber` | the JavaScript `Number` value, `parseInt` with radix 10, `Math.round`/`Math.ceil` on the quotients used |
| `Listing` | the shared list-endpoint logic: query destructuring, skip, page count, `hasNext`/`hasPrev`, filter and order |
| `Body` | how a JSON body value is cast to a schema field |
| `StudentModel`, `EmployeeModel` | the two schemas |
| `StudentRoutes`, `ClassStats` | the student handlers and the `$match`/`$group` statistics pipeline |
| `EmployeeRoutes` | the employee handlers |
| `FormChecks`, `StudentForm`, `EmployeeForm` | the two forms |
| `EmployeeApp` | the `App.jsx` employee state and reducers |
| `GradeInput` | the `StudentCard.jsx` grade input |

## Model

| member | source | states |
|---|---|---|
| JsString.Trim | studentprogress/src/components/AddStudentForm.jsx:26-28 | the result is no longer than the input and has no white space at either end |
| JsString.Utf16Length | studentprogress/src/components/AddStudentForm.jsx:58 | JavaScript `length` counts UTF-16 code units: at least one and at most two per character, and exactly one each when every character is in the Basic Multilingual Plane |
| JsString.AstralCharHasLengthTwo | studentprogress/src/components/AddEmployeeForm.jsx:21 | a single character outside the Basic Multilingual Plane has `length` 2, so it passes a two-character minimum |
| JsString.TrimIsInfix | studentprogress/src/components/AddStudentForm.jsx:28 | the trim is a contiguous piece of the input, and everything cut off on either side is white space |
| JsString.TrimEmptyIffBlank | studentprogress/src/components/AddStudentForm.jsx:26 | `!subjectInput.trim()` holds exactly when the input is all white space |
| JsString.TrimIdempotent | studentprogress/src/components/AddStudentForm.jsx:28 | trimming twice is the same as trimming once |
| JsString.TrimKeepsAbsent | studentprogress/src/components/AddStudentForm.jsx:28 | trimming never introduces a character, in particular never a comma |
| JsString.Split | studentprogress/src/components/AddStudentForm.jsx:28 | at least one piece, and no piece contains the separator |
| JsString.JoinSplit | studentprogress/src/components/AddStudentForm.jsx:28 | joining the pieces with the separator gives back the input, so splitting loses nothing |
| JsString.SplitJoin | studentprogress/src/components/AddStudentForm.jsx:28 | splitting the join of separator-free pieces gives back those pieces |
| JsString.ToUpperNormalises | backend/routes/employees.js:40 | upper-casing leaves no lower-case ASCII letter and is idempotent |
| JsNumber.RoundedMean | backend/models/Student.js:59 | `Math.round(sum / n)` is the integer nearest the mean, with halves rounded up |
| JsNumber.RoundedMeanWithin | backend/models/Student.js:58-59 | the rounded mean of `n` values between `lo` and `hi` lies between `lo` and `hi` |
| JsNumber.CeilDiv | backend/routes/students.js:64 | `Math.ceil(total / limit)` is the least multiple count covering `total`, for either sign of `limit` |
| JsNumber.ParseIntOfLiteral | studentprogress/src/StudentCard.jsx:5 | `parseInt` reads the leading digit run and ignores whatever non-digit follows |
| JsNumber.ParseIntOfNegatedRun | studentprogress/src/StudentCard.jsx:5 | a `-` before a digit run negates its value |
| JsNumber.ParseIntRoundTrip | studentprogress/src/StudentCard.jsx:5 | `parseInt` of the decimal text of any integer gives that integer back |
| JsNumber.ParseWhole | backend/models/Employee.js:17-20 | text accepted as a whole-number column value means what `parseInt` reads from it |
| JsNumber.ParseWholeRoundTrip | backend/models/Employee.js:17-20 | the decimal text of any integer is accepted and read back as that integer |
| Listing.SplitListQuery | backend/routes/students.js:41-47 | `page`, `limit`, `sortBy`, `sortOrder` take their defaults 1, 10, `name`, `asc` when absent; every other key, and only those, goes to the filter with its value |
| Listing.TotalPages | backend/routes/students.js:64 | for a positive limit, `totalPages` pages of `limit` cover `total` and one fewer does not; a zero limit gives Infinity or NaN; a negative one a non-positive count |
| Listing.Paginate | backend/routes/students.js:64-66 | `hasPrev` iff page > 1; for a positive limit `hasNext` iff records exist past this page |
| Listing.Skip | backend/routes/students.js:52 | the skip is non-negative and ends exactly where page `page` ends |
| Listing.Filter | backend/routes/students.js:55 | a record is kept exactly when it is in the input and matches |
| Listing.FilterCounts | backend/routes/students.js:55 | each record occurs in the result as often as in the input when it matches, and not at all otherwise |
| Listing.FilterStricter | backend/routes/employees.js:44-49 | a stricter predicate never matches more records |
| Listing.FilterKeepsOrder | backend/routes/students.js:55-56 | filtering a sorted sequence leaves it sorted |
| Listing.Window | backend/routes/students.js:57-58 | `.skip(n).limit(k)` yields at most `k` records, the ones from position `n` on, in order |
| Listing.RecordOnItsPage | backend/routes/students.js:52-58 | record `i` appears on page `i / limit + 1` at position `i % limit` |
| Listing.HasNextIffNextPageNonEmpty | backend/routes/students.js:65 | `hasNext` is true exactly when the next page is non-empty |
| Listing.AdjacentWindows | backend/routes/students.js:57-58 | consecutive windows concatenate to one larger window, so pages neither overlap nor leave gaps |
| Listing.KeyOrderIsTotalPreorder | backend/routes/students.js:50 | the sort key order is total and transitive, so a sort by any field is well defined |
| Listing.ListPage | backend/routes/students.js:55-66 | the items are exactly the window of at most `limit` matches starting at the skip of page `page`, in the input order; the pagination is that of all matches |
| Listing.ListPageKeepsOrder | backend/routes/students.js:55-58 | the page of a sorted collection is sorted the same way |
| Body.CastString | backend/models/Student.js:4-9 | null and only null casts to absent, exactly a subject list fails to cast, text on an untrimmed path is kept as is |
| Body.CastNumber | backend/models/Student.js:10-15 | a number is kept, null casts to absent, a subject list fails to cast |
| Body.CastNumberOfDecimalText | backend/models/Student.js:10-15 | the decimal text of a whole number casts to that number |
| Body.CastSubjects | backend/models/Student.js:29-32 | the `subjects` path casts exactly when the value is a subject list, which is kept as given, or null, which is stored as null; every other value fails the cast |
| StudentModel.ParseStatus | backend/models/Student.js:39-43 | a text is a status exactly when it is one of the enum spellings, and then names that status |
| StudentModel.ParseStatusName | backend/models/Student.js:39-43 | every status's spelling parses back to that status |
| StudentModel.Validate | backend/models/Student.js:3-43 | a draft becomes a student exactly when it violates no schema rule; the errors are exactly the violations, among them a null `status`, which the enumeration refuses (a draft's `status` is never undefined, the default filling it); the student is valid and reads back as the draft |
| StudentModel.ValidateToDraft | backend/models/Student.js:3-43 | every valid student validates back to itself |
| StudentModel.AverageGrade | backend/models/Student.js:54-60 | with a null or empty subject list the overall grade; otherwise NaN exactly when some entry has no grade, and else the rounded mean of the entries' grades (a null grade adding 0), within half a point of the exact mean |
| StudentModel.AverageWithinSubjectGrades | backend/models/Student.js:54-60 | for a student with subjects, the average is a number and lies within any bounds that hold for every subject's grade (a null grade counting as 0) |
| StudentModel.SubjectGradeGaps | backend/models/Student.js:29-32 | subjects graded 90 and null average 45, since null adds as 0; subjects graded 90 and missing a grade average NaN |
| StudentModel.SeededAverage | backend/scripts/seedData.js:7-19 | the seeded student with subject grades 90, 85, 80 averages 85 |
| StudentModel.StorePreserved | backend/models/Student.js:16-20 | storing a student whose roll number no other student holds keeps the unique index |
| StudentRoutes.BuildStudentFilter | backend/routes/students.js:6-36 | each recognised non-empty parameter becomes its constraint; `minGrade`/`maxGrade` give a range with exactly the bounds given; `minAttendance` a lower bound |
| StudentRoutes.FilterIgnoresOtherKeys | backend/routes/students.js:6-36 | parameters outside the recognised ones do not affect the filter |
| StudentRoutes.EmptyParamIsAbsent | backend/routes/students.js:9-33 | an empty parameter value acts as if the parameter were absent |
| StudentRoutes.NoFilterMatchesAll | backend/routes/students.js:6-36 | with no recognised non-empty parameter every student matches |
| StudentRoutes.AddingParamNarrows | backend/routes/students.js:6-36 | one more recognised parameter never admits a student the smaller query excluded |
| StudentRoutes.PaddedValueMatchesTrimmed | backend/models/Student.js:4-9 | the schema's `trim` setters cast the query: a padded `name`, `class` or `section` value selects exactly the students its trimmed form selects |
| StudentRoutes.StatusFilterSelectsStatus | backend/routes/students.js:27-29 | filtering on a status's spelling selects exactly the students with that status |
| StudentRoutes.SortSign | backend/routes/students.js:50 | the sort sign is -1 exactly for `desc` and 1 for anything else |
| StudentRoutes.ListStudents | backend/routes/students.js:39-80 | a NaN `minGrade` or `maxGrade` fails the cast on `grade`, and otherwise a NaN `minAttendance` fails it on `attendance` (answered 500); every other query yields exactly the window of the students matching the filter (its `name`, `class` and `section` values trimmed by the schema) for `page` and `limit`, the pagination of all matches and the requested page number |
| StudentRoutes.ListStudentsSorted | backend/routes/students.js:50-58 | if the store sorts as asked, the page is sorted the same way |
| StudentRoutes.GetStudent | backend/routes/students.js:84-102 | 404 exactly for a missing id; otherwise the student with its `calculateAverageGrade` value |
| StudentRoutes.GetStudentAverageInRange | backend/routes/students.js:92-96 | for a stored valid student whose subject grades all lie in 0..100 (the schema does not bound them), the reported average is null (NaN) exactly when an entry lacks its grade, and otherwise lies in 0..100 |
| StudentRoutes.AverageCanLeaveRange | backend/models/Student.js:29-32 | a subject grade is unbounded: a valid store holds a student with subject grade 150 whose reported average is 150 |
| StudentRoutes.Save | backend/routes/students.js:118-119 | a save succeeds exactly when the casts succeed, the schema holds and no other document holds the same roll-number index entry (an explicit null is an entry, an unset path is not); the store gains exactly that student, which reads back as the draft, and stays valid |
| StudentRoutes.RollValue | backend/models/Student.js:16-20 | a null body value stores null, text stores that text, and only a subject list fails the cast |
| StudentRoutes.CreateStudent | backend/routes/students.js:105-123 | a create succeeds exactly when every cast succeeds, the schema holds and the roll-number index entry is free; the saved student is then the document the body describes, with the defaults for `subjects`, `status` and `attendance`; an absent roll number stays unset and a null one is stored as null; every refusal is a 400 and the store gains exactly that student and stays valid |
| StudentRoutes.CreateDuplicateRollNumber | backend/routes/students.js:118-122 | a body reusing a stored roll number is refused |
| StudentRoutes.CreateSecondNullRollNumber | backend/models/Student.js:16-20 | the sparse index covers an explicit null: while one document holds a null roll number, a create with a null one is refused |
| StudentRoutes.CreateWithoutRollNumberNeverClashes | backend/models/Student.js:16-20 | a body without `rollNumber` is never refused by the index: it is created exactly when its casts and schema pass |
| StudentRoutes.StudentBody | backend/routes/students.js:106-115 | every document has a request body that describes it and holds only schema paths |
| StudentRoutes.CreateOfDescribedStudent | backend/routes/students.js:105-123 | posting a body that describes a valid document creates exactly that document (a null or absent status becoming `active`) under the new id, unless its roll-number index entry is taken, which is refused |
| StudentRoutes.PatchStudent | backend/routes/students.js:126-146 | 404 for a missing id; a body with a `save` key overwrites the document method and is refused with 400; otherwise the patch succeeds exactly when the patched document passes the casts, the schema and the roll-number index; the saved student is the stored one with each assigned path overwritten, that student alone is replaced, and every path the body does not assign keeps its value; a null `subjects` value is saved as null, a null `status` is refused |
| StudentRoutes.PatchNullSubjects | backend/routes/students.js:135-141 | a PATCH assigning null to `subjects` is saved, that student alone changes, and reading it back gives the overall grade as its average (backend/models/Student.js:54-56) |
| StudentRoutes.PatchNullStatusRefused | backend/routes/students.js:135-145 | a PATCH assigning null to `status` is refused with 400, the only violation being the enumeration on `status` (backend/models/Student.js:39-43) |
| StudentRoutes.PatchToDescribedStudent | backend/routes/students.js:126-146 | patching with a body that describes a valid document (one with a status) turns the stored one into exactly that document, keeping its roll number when the body has none, unless the roll-number index entry is taken |
| StudentRoutes.PatchIgnoresIdAndVersion | backend/routes/students.js:134-139 | `_id` and `__v` in the body have no effect |
| StudentRoutes.PatchIgnoresUnknownKeys | backend/routes/students.js:134-139 | a key that is neither a schema path nor `save` has no effect |
| StudentRoutes.EmptyPatchChangesNothing | backend/routes/students.js:126-146 | an empty body saves the student unchanged |
| StudentRoutes.DeleteStudent | backend/routes/students.js:149-161 | 404 exactly for a missing id; otherwise that student alone is removed and the store stays valid |
| StudentRoutes.DeleteTwiceNotFound | backend/routes/students.js:149-161 | deleting the same id twice answers 404 the second time |
| ClassStats.Matching | backend/routes/students.js:168 | a student is matched exactly when it is in the collection, in the class and active, and each matched student occurs as often as in the collection |
| ClassStats.GroupBySectionFaithful | backend/routes/students.js:170-177 | a group exists for exactly the sections with a member, and each group's count, sums and extremes are those of its members |
| ClassStats.GroupCountsCoverAll | backend/routes/students.js:170-177 | the group counts add up to the number of grouped students |
| ClassStats.ClassStatistics | backend/routes/students.js:164-185 | one row per section with an active member of the class; each row's count, mean grade and mean attendance are taken over exactly those members, and every member's grade lies between the row's min and max |
| ClassStats.ExtremesAttained | backend/routes/students.js:173-174 | a row's max and min grade are each the grade of some active member of that section, so they are the section's extremes |
| ClassStats.AverageBetweenExtremes | backend/routes/students.js:172-174 | each row's mean grade lies between its minimum and maximum |
| ClassStats.SectionGradeSumBounds | backend/routes/students.js:172 | a section's grade sum lies between count times the lowest and count times the highest bound |
| ClassStats.RowCountsCoverMatches | backend/routes/students.js:175 | the rows' student counts add up to the number of matched students |
| ClassStats.ExampleClass10A | backend/routes/students.js:164-185 | two active and one inactive student of 10A section A give one row with mean 88.5, max 92, min 85, count 2 |
| EmployeeModel.ParseStatus | backend/models/Employee.js:26-29 | a text is a status exactly when it is one of the ENUM values, and then names that status |
| EmployeeModel.ParseStatusName | backend/models/Employee.js:26-29 | every status's spelling parses back to that status |
| EmployeeModel.Validate | backend/models/Employee.js:4-30 | a draft becomes a row exactly when no required column is NULL and the status is in the ENUM; the errors are exactly the violations |
| EmployeeModel.ValidateToDraft | backend/models/Employee.js:4-30 | every row validates back to itself |
| EmployeeModel.StringColumn | backend/models/Employee.js:5-16 | text is stored as is, null as NULL, a list is refused |
| EmployeeModel.DecimalColumn | backend/models/Employee.js:17-20 | a number is stored, null as NULL, text only when it is a whole number, a list is refused |
| EmployeeModel.UniquePreserved | backend/models/Employee.js:21-25 | storing a row whose `employeeId` no other row holds keeps the unique index |
| EmployeeRoutes.BuildEmployeeFilter | backend/routes/employees.js:6-26 | each recognised parameter is constrained exactly when given non-empty, and with exactly its value |
| EmployeeRoutes.FilterIgnoresOtherKeys | backend/routes/employees.js:6-26 | parameters outside the recognised ones do not affect the WHERE clause |
| EmployeeRoutes.EmptyParamIsAbsent | backend/routes/employees.js:6-26 | an empty parameter value acts as if the parameter were absent |
| EmployeeRoutes.NoFilterMatchesAll | backend/routes/employees.js:6-26 | with no recognised non-empty parameter every row matches |
| EmployeeRoutes.AddingParamNarrows | backend/routes/employees.js:6-26 | one more recognised parameter never admits a row the smaller query excluded |
| EmployeeRoutes.AddingParamNeverGrowsCount | backend/routes/employees.js:44-51 | a narrower query never counts more rows |
| EmployeeRoutes.OrderDirection | backend/routes/employees.js:40 | the direction is ascending exactly for `asc` and descending exactly for `desc`, in any letter case |
| EmployeeRoutes.OrderDirectionIgnoresCase | backend/routes/employees.js:40 | upper-casing the direction first changes nothing |
| EmployeeRoutes.ListEmployees | backend/routes/employees.js:29-68 | refused exactly for an unknown column or direction, with the `name` parameter read as substring search (see Left out: the table may refuse it); otherwise exactly the window of matching rows for `page` and `limit`, the pagination of all matches and the requested page number |
| EmployeeRoutes.DefaultOrderIsAscendingByName | backend/routes/employees.js:34-35 | with no sort parameters the listing is ascending by `name` |
| EmployeeRoutes.ListEmployeesSorted | backend/routes/employees.js:40-49 | if the table is ordered as asked, the page is ordered the same way |
| EmployeeRoutes.GetEmployee | backend/routes/employees.js:71-81 | 404 exactly for a missing id; otherwise that row |
| EmployeeRoutes.CreateEmployee | backend/routes/employees.js:84-106 | a create succeeds exactly when `employeeId` is given, every column casts, the constraints hold and no row holds that `employeeId`; a missing `employeeId` is refused, a taken one as a duplicate; a success is the row the body describes under the fresh key with the default status; every refusal is a 400 |
| EmployeeRoutes.EmployeeBody | backend/routes/employees.js:85 | every row has a request body that describes it and writes no `id` |
| EmployeeRoutes.CreateOfDescribedEmployee | backend/routes/employees.js:84-106 | posting a body that describes a row creates exactly that row under the fresh key, unless its `employeeId` is taken, which is refused with the duplicate message |
| EmployeeRoutes.CreateAddsOneRow | backend/routes/employees.js:93-100 | a create adds exactly one row, changes no other and keeps `employeeId` unique |
| EmployeeRoutes.InsertFresh | backend/routes/employees.js:93-100 | inserting a row under a fresh key with a free `employeeId` adds that row only and keeps `employeeId` unique |
| EmployeeRoutes.CreateDuplicateRefused | backend/routes/employees.js:88-91 | a body reusing a stored `employeeId` is refused with the duplicate message |
| EmployeeRoutes.UpdateEmployee | backend/routes/employees.js:109-124 | invalid written columns are refused with 400 first; then 404 exactly for a missing id or a body that writes no column; otherwise the update succeeds exactly when the row passes the casts and constraints and its `id` and `employeeId` clash with no other row; the table then holds the patched row under its new `id`, and no other row changes |
| EmployeeRoutes.WriteRow | backend/routes/employees.js:111-120 | once the query runs on a stored row it succeeds exactly when the row is accepted; only that row changes, under its new `id`, and the response is the row re-read under the path id |
| EmployeeRoutes.UpdateWritingNothingNotFound | backend/routes/employees.js:111-117 | a body that writes no column answers 404 even for a stored row |
| EmployeeRoutes.UpdateToDescribedEmployee | backend/routes/employees.js:109-124 | updating with a body that describes a row, without writing `id`, turns the stored row into exactly that row, unless another row holds its `employeeId` |
| EmployeeRoutes.UpdateKeepsUnwrittenColumns | backend/routes/employees.js:111-113 | every column the body does not write keeps its value |
| EmployeeRoutes.UpdateDepartmentOnly | backend/routes/employees.js:109-124 | an update of `department` alone changes only that column |
| EmployeeRoutes.DeleteEmployee | backend/routes/employees.js:127-141 | 404 exactly for a missing id; otherwise that row alone is removed |
| EmployeeRoutes.DeleteTwiceNotFound | backend/routes/employees.js:127-141 | deleting the same id twice answers 404 the second time |
| FormChecks.FirstFailure | studentprogress/src/components/AddStudentForm.jsx:57-83 | no message exactly when every check passes; otherwise the message of a failing check with none failing before it |
| FormChecks.FirstFailureAt | studentprogress/src/components/AddEmployeeForm.jsx:20-38 | the message shown is that of the first failing check |
| FormChecks.FailureMessage | studentprogress/src/components/AddStudentForm.jsx:110-127 | the error shown after a failed POST: the server's message, else the refusal text, else the thrown message, else the fallback; never empty |
| StudentForm.NonEmptyTrimmed | studentprogress/src/components/AddStudentForm.jsx:28 | no more names than pieces, and every name is non-empty and trimmed |
| StudentForm.NonEmptyTrimmedMembers | studentprogress/src/components/AddStudentForm.jsx:28 | a name is kept exactly when it is non-empty and the trim of some piece |
| StudentForm.NonEmptyTrimmedSnoc | studentprogress/src/components/AddStudentForm.jsx:28 | one more piece appends its trim when that is non-empty and nothing otherwise |
| StudentForm.AddSubjects | studentprogress/src/components/AddStudentForm.jsx:25-39 | blank input changes nothing; otherwise the new subjects are exactly the old ones followed by the non-empty trimmed comma-separated names, each with grade 0, and the input is cleared |
| StudentForm.AddSubjectsOfJoinedNames | studentprogress/src/components/AddStudentForm.jsx:25-39 | typing clean names joined by commas appends exactly those names |
| StudentForm.RemoveSubject | studentprogress/src/components/AddStudentForm.jsx:41-46 | an index in range removes exactly that subject; any other index changes nothing |
| StudentForm.ChangeSubjectGrade | studentprogress/src/components/AddStudentForm.jsx:48-55 | only the indexed subject's grade changes; names and other subjects stay |
| StudentForm.ChangeSubjectGradeUndo | studentprogress/src/components/AddStudentForm.jsx:48-55 | setting the old grade back restores the list |
| StudentForm.ValidateStudentForm | studentprogress/src/components/AddStudentForm.jsx:57-83 | the first failing check's message; no error exactly when the name has at least 2 UTF-16 code units and roll number, class, section, a grade in 0..100 and at least one subject are all present |
| StudentForm.Submit | studentprogress/src/components/AddStudentForm.jsx:85-132 | an invalid form shows its error and posts nothing; a valid one posts exactly the form's name, roll number, class, section and subjects with the grade read as a number; success resets the form, failure keeps it and shows a non-empty error |
| StudentForm.ResetFormFailsValidation | studentprogress/src/components/AddStudentForm.jsx:116-125 | the reset form fails its first check |
| EmployeeForm.ValidateEmployeeForm | studentprogress/src/components/AddEmployeeForm.jsx:20-38 | the first failing check's message; no error exactly when the name has at least 2 UTF-16 code units, position and department are set and salary is a positive number |
| EmployeeForm.EmployeeIdNeverChecked | studentprogress/src/components/AddEmployeeForm.jsx:20-38 | the `employeeId` input plays no part in validation |
| EmployeeForm.Submit | studentprogress/src/components/AddEmployeeForm.jsx:40-83 | an invalid form posts nothing; a valid one posts the form with a numeric salary; success clears all five inputs, failure keeps them and shows a non-empty error |
| EmployeeForm.ResetFormFailsValidation | studentprogress/src/components/AddEmployeeForm.jsx:70-76 | the cleared form fails its first check |
| EmployeeApp.LogOut | studentprogress/src/App.jsx:156-163 | user, token, list and error are all cleared |
| EmployeeApp.LogIn | studentprogress/src/App.jsx:148-154 | user and token are set, the error cleared, the list kept |
| EmployeeApp.LogOutForgetsSession | studentprogress/src/App.jsx:156-163 | the state after logging out does not depend on the state before |
| EmployeeApp.ReplaceWhere | studentprogress/src/App.jsx:81-85 | same length; each element whose key equals the id is replaced, every other element kept |
| EmployeeApp.RemoveWhere | studentprogress/src/App.jsx:138-140 | an element stays exactly when it was there and its key differs from the id, as often as it occurred |
| EmployeeApp.RemoveWhereKeepsOrder | studentprogress/src/App.jsx:138-140 | removing elements keeps the list's order |
| EmployeeApp.Fetch | studentprogress/src/App.jsx:30-59 | 401 logs out; success takes the `employees` array or an empty list; any other failure empties the list and shows the error |
| EmployeeApp.Update | studentprogress/src/App.jsx:61-91 | 401 logs out; success replaces the matching elements and keeps the rest; other failures keep the list and show the error |
| EmployeeApp.Add | studentprogress/src/App.jsx:93-119 | 401 logs out; success appends the added employee; other failures keep the list and show the error |
| EmployeeApp.Delete | studentprogress/src/App.jsx:121-146 | 401 logs out; success removes the matching elements only; other failures keep the list and show the error |
| EmployeeApp.UnauthorizedLogsOut | studentprogress/src/App.jsx:38-42 | a 401 answer to any of the four requests logs the user out |
| EmployeeApp.DeleteRequest | backend/routes/employees.js:127-141 | the DELETE succeeds exactly when the path names a stored row |
| EmployeeApp.CardDeleteNeverRemovesRow | studentprogress/src/App.jsx:121-146 | as written, deleting from a card for a row the server sent removes nothing and shows the delete error |
| EmployeeApp.UnderscoreFilterDropsAllSentRows | studentprogress/src/App.jsx:138-140 | as written, a successful `_id` filter would drop every row the server sent |
| EmployeeApp.CardDeleteRemovesOnlyThatRow | studentprogress/src/App.jsx:121-146 | keyed by `id`, deleting a stored row removes exactly the elements with that id and keeps the others |
| EmployeeApp.UpdateRequest | backend/routes/employees.js:109-124 | the PATCH succeeds exactly when the path names a row the update accepts, and then answers the re-read row |
| EmployeeApp.CrossOrigin | backend/server.js:12-17 | a request whose method the CORS list neither lists nor safelists ends in the browser's `TypeError` and never reaches the handler; any other request gets the server's answer |
| EmployeeApp.PatchOnlyMethodRefused | backend/server.js:12-17 | with the server's list, GET, POST and DELETE pass the preflight and PATCH never does; adding PATCH lets it through |
| EmployeeApp.CardUpdateNeverChangesRow | studentprogress/src/components/EmployeeCard.jsx:7-9 | as written, saving an edit from any card changes nothing and shows the browser's `TypeError` message, not the handler's update error |
| EmployeeApp.IdKeyAloneStillRefused | backend/server.js:12-17 | keying the card by `id` alone still loses the edit while `PATCH` is not listed |
| EmployeeApp.UnderscorePathNamesNoRow | studentprogress/src/components/EmployeeCard.jsx:7-9 | past the preflight, the `_id` path of a row the server sent is answered 404 and the update error shows |
| EmployeeApp.UnderscoreMatchReplacesAllSentRows | studentprogress/src/App.jsx:81-85 | as written, a successful `_id` match would replace every row the server sent by the response |
| EmployeeApp.CardUpdateReplacesOnlyThatRow | studentprogress/src/App.jsx:81-85 | keyed by `id` and with `PATCH` in the CORS list, an accepted edit replaces exactly the elements with that id by the re-read row and keeps the others in place |
| EmployeeApp.SecondPostRefused | studentprogress/src/App.jsx:93-113 | as written, the employee the form just created is posted again, refused as a duplicate, and never joins the list |
| EmployeeApp.AddCreated | studentprogress/src/App.jsx:113 | the created row is appended after the existing list and the error is cleared |
| EmployeeApp.FormPostThenAppend | studentprogress/src/components/AddEmployeeForm.jsx:63-69 | with the created row appended as it is, the new employee is listed once, after the others, with its stored id |
| GradeInput.GradeChange | studentprogress/src/StudentCard.jsx:4-9 | a grade is passed on exactly when `parseInt` reads a number from 0 to 100, and then it is that number for that student |
| GradeInput.GradeChangeKeepsStudentValid | studentprogress/src/StudentCard.jsx:6 | every grade passed on keeps a valid student valid |
| GradeInput.GradeChangeOfDecimal | studentprogress/src/StudentCard.jsx:4-9 | typing a grade's decimal text passes that grade on exactly when it lies in 0..100 |
| GradeInput.LettersIgnored | studentprogress/src/StudentCard.jsx:5-6 | text with no leading digit passes nothing on |
| GradeInput.DigitPrefixPassed | studentprogress/src/StudentCard.jsx:5-6 | text starting with digits passes on the value of those digits, whatever follows, when at most 100 |
| GradeInput.GradeChangeOfParsed | studentprogress/src/StudentCard.jsx:5-6 | text that `parseInt` reads as `g` passes `g` on exactly when it lies in 0..100 |

## Left out

- StudentRoutes.BuildStudentFilter: the `name` filter is a `$regex` with option `i`, modelled as case-insensitive substring search. Regular-expression metacharacters are not interpreted, and a pattern that is not a valid regular expression (a 500 from the store) is not modelled.
- EmployeeRoutes.ListEmployees: `backend/routes/employees.js:10` hands Sequelize the Mongo-style `{ $regex, $options }` object as the `where` value for `name`. Sequelize interprets neither key (version 5 and later reject such an object value, so the listing fails with 500 whenever `name` is given). The model instead reads the parameter as the student route does, as case-insensitive substring search, and does not model that refusal.
- EmployeeRoutes.OrderDirection: Sequelize accepts further directions such as `ASC NULLS LAST` and `DESC NULLS FIRST`, and the timestamp columns `createdAt` and `updatedAt` as sort columns. The model accepts only `ASC` and `DESC` and the declared columns, and refuses the rest.
- Unicode: only the white space listed in `JsString.IsSpace` and ASCII letter case are modelled. Full Unicode case mapping and other white space are out of scope.
- `Number(...)` coercion of query and form text is a parameter (`numberOf`), because its full grammar (hex, exponents, `Infinity`) is not part of these files. `parseInt` is modelled for the grade input. Text in numeric paths and columns is read by the stricter `JsNumber.ParseWhole`, which accepts an optional `-` and decimal digits only.
- Body.CastNumber: accepts a number, null, or text that is an optional `-` followed by decimal digits. Mongoose's Number cast also accepts text such as " 85", "+85", "85.0" and "1e2", which the model refuses as a cast failure.
- EmployeeModel.DecimalColumn: the same restriction: a `DECIMAL` column also stores " 85", "+85", "85.0" and "1e2", which the model refuses.
- StudentRoutes.ListStudents: requires `page` and `limit` to be positive whole numbers; NaN, zero, negative or fractional paging values are left out of the list handlers. `Listing.TotalPages` and `Listing.Paginate` do cover the zero and negative limits.
- EmployeeRoutes.ListEmployees: same paging precondition as the student listing.
- Numbers in documents and rows are integers. Fractional grades, attendance and salaries (the `DECIMAL(10,2)` column) are not modelled; salary is kept in whole units.
- The statistics averages are exact rationals (`real`), not IEEE doubles.
- Mongoose casting beyond text, number, null and subject lists is not modelled. Of a subject entry's paths, `grade` is a number, null or missing and `name` is a string; an entry whose `name` is missing, or whose `grade` is text that Mongoose would cast to a number, is not modelled.
- Timestamps (`createdAt`, `updatedAt`), the `__v` version key and ObjectId generation are not modelled. A new document's or row's key is a parameter.
- The store's sort is a parameter: the handlers receive the collection already in the order the database returns. SQL collation (for ordering as for equality, see the lines above) and the order of ties are not modelled; the lemmas only say the page keeps whatever order is given.
- Every 500 path (database unavailable, a cast error on a path id) is left out. The path id is a natural-number key. A client DELETE to `/employees/undefined` is modelled as naming no row (404); a stricter database would answer 500, which the client treats the same way.
- `server.js` (authentication, connection set-up; of CORS only the method list's effect on a preflight), the seed and test-user scripts and the presentational components (including each form's `handleChange` and the loading flags) are not part of this model. The seeded student's average is checked in `StudentModel.SeededAverage`.
- Concurrency between requests, React's asynchronous state batching, `useEffect` and `localStorage` are not modelled; each reducer is applied to the state it receives.
- EmployeeApp.Fetch: a malformed JSON body is folded into the "other failure" case.
- EmployeeModel.Validate: the model matches `status` against `Active`, `On-leave` and `Terminated` exactly (`EmployeeModel.ParseStatus`). MySQL compares ENUM values under the column's collation (by default case- and accent-insensitive), so it also takes `active` and stores it as `Active`; the model refuses such a value.
- EmployeeModel.ParseStatus: the same exact match; the column collation would also read `active` or `ACTIVE` as `Active`.
- EmployeeModel.UniquePreserved: uniqueness is stated for exact equality of `employeeId`; the unique index compares under the column collation, so it also refuses an identifier that differs from a stored one only in letter case or accents.
- EmployeeRoutes.BuildEmployeeFilter: the `WHERE` equality on `department`, `position` and `status` follows the column collation, so `?department=sales` also matches `Sales`. The model uses exact equality, so such a filter matches fewer rows than the server's.
- EmployeeRoutes.CreateEmployee: the `employeeId` lookup and the unique index also follow the collation, so with `E001` stored a POST of `e001` is refused. The model compares identifiers exactly and would accept it, so the index's promise is stated only for exact equality (the same holds for `EmployeeRoutes.UpdateEmployee`).
- EmployeeApp.UpdateRequest: models the server's answer to a PATCH that reaches it. The browser refuses every PATCH at the preflight (see `EmployeeApp.CrossOrigin`), so in the running page no edit reaches this handler. The `TypeError` message is a parameter because each browser words it differently.
- EmployeeApp.UpdateRequest: when an update moves a row to a new `id`, the handler answers `null`, which the client would put into its list. The model keeps the card's row in its place instead.
- StudentRoutes.PatchIgnoresUnknownKeys: of the document's own members only `save` is modelled. A body key naming another member or internal property (`validate`, `isNew`, `$__`, ...) also breaks or changes the save, so the lemma's claim that a non-schema key has no effect does not hold for those keys.
- StudentRoutes.GetStudentAverageInRange: the schema bounds the overall grade but not subject grades. The lemma therefore assumes every subject grade lies in 0..100, and `StudentRoutes.AverageCanLeaveRange` shows that without this assumption the average can exceed 100.
- EmployeeRoutes.UpdateEmployee: a body that writes only the timestamp columns `createdAt` or `updatedAt` is treated like a body that writes no column (404), since timestamps are not modelled.

Where the code and its description differ, the model follows the code:

- the client ends the session only on 401, not on 403;
- a `rollNumber` of null is stored and takes the sparse unique index's single null entry, so a second null is refused; only a body without `rollNumber` leaves the path unset and outside the index;
- a NaN numeric bound in the student query fails Mongoose's cast and answers 500 rather than matching nothing;
- an employee update whose body writes no column runs no query and answers 404, even for a stored row;
- a student PATCH body with a `save` key replaces the document's `save` method, so the save throws and answers 400;
- the forms' two-character name minimum counts UTF-16 code units, so one character outside the Basic Multilingual Plane passes it;
- `PATCH /api/employees/:id` writes `id` like any other column;
- a positive salary is checked only by the form; the server accepts any number.

## Findings

| source | as written | input that shows it | evidently intended | confidence | as-written member | corrected member |
|---|---|---|---|---|---|---|
| studentprogress/src/App.jsx:138-140 | the card passes `employee._id` and the delete reducer filters on `_id`, but the employee table's rows carry `id` and no `_id` | any employee row the server sent, e.g. `{id: 1, ...}`: the DELETE goes to `/employees/undefined` and fails; if it succeeded, `undefined !== undefined` is false for every row and the filter would empty the list | key the card and the reducers by `id`, so exactly the deleted row leaves the list | not executed | EmployeeApp.CardDeleteNeverRemovesRow | EmployeeApp.CardDeleteRemovesOnlyThatRow |
| backend/server.js:12-17 | the CORS list names GET, POST, PUT, DELETE and OPTIONS but not PATCH, while the client's update (App.jsx:63-70) sends a PATCH with an `Authorization` header | any edit saved from a card: the browser's preflight refuses PATCH, `fetch` rejects with a `TypeError` before any handler runs, the list is kept and the browser's message (not "Failed to update employee") shows | list PATCH among the allowed methods | not executed | EmployeeApp.CardUpdateNeverChangesRow | EmployeeApp.CardUpdateReplacesOnlyThatRow |
| studentprogress/src/components/EmployeeCard.jsx:7-9 | the card passes `employee._id` to `onUpdate`, and the update reducer matches on `_id` (App.jsx:81-85), but the employee table's rows carry `id` and no `_id` | any employee row the server sent, e.g. `{id: 1, ...}`: past the preflight, the PATCH goes to `/employees/undefined` and is answered 404, so the update error shows; if it succeeded, `undefined === undefined` would hold for every row and the map would replace them all; keying by `id` alone does not save the edit while PATCH is refused | key the card and the reducer by `id` (and list PATCH), so an accepted edit replaces exactly that row | not executed | EmployeeApp.UnderscorePathNamesNoRow | EmployeeApp.CardUpdateReplacesOnlyThatRow |
| studentprogress/src/App.jsx:93-113 | the form POSTs the new employee and passes the created row to `onEmployeeAdd`, whose handler POSTs it a second time | a valid form with `employeeId` "E001": the second POST finds "E001" already stored, answers 400 and the list is left without the new employee | append the created row returned by the form's POST without posting again | not executed | EmployeeApp.SecondPostRefused | EmployeeApp.FormPostThenAppend |

=== FILE: base.dfy ===
/** Failure-compatible wrappers shared by every module of the model. */
module Base {

  /** A value that may be absent: JavaScript's `undefined`/`null` versus a present value. */
  datatype Option<+T> = None | Some(value: T) {
    function GetOr(default: T): T {
      match this
      case Some(v) => v
      case None => default
    }
  }

  /** The outcome of a handler: a value, or the error it reports. */
  datatype Result<+T, +E> = Ok(value: T) | Err(error: E)

  function Min(a: int, b: int): int { if a <= b then a else b }
  function Max(a: int, b: int): int { if a <= b then b else a }
}

=== FILE: body.dfy ===
/** Request bodies: the JSON values a create or update request may carry for
    a field, JavaScript truthiness, and how a schema path casts them. */
module Body {
  import opened Base
  import JsNumber
  import JsString
  import StudentModel

  /** A JSON field value: a string, an integer, a list of subjects, or null.
      A key missing from the body is `undefined`. */
  datatype Value =
    | Text(s: string)
    | Number(n: int)
    | SubjectList(subjects: seq<StudentModel.Subject>)
    | Null

  type RequestBody = map<string, Value>

  /** JavaScript truthiness: `""`, `0` and `null` are falsy, arrays are truthy. */
  predicate Truthy(v: Value) {
    match v
    case Text(s) => s != ""
    case Number(n) => n != 0
    case SubjectList(_) => true
    case Null => false
  }

  /** The result of casting a value to a schema path's type. */
  datatype Cast<T> = Cast(value: T) | CastError

  /** A string path: text is kept (trimmed when the path trims), a number
      becomes its decimal text, null unsets the path. */
  function CastString(v: Value, trim: bool): (r: Cast<Option<string>>)
    ensures v.Null? <==> r == Cast(None)
    ensures v.SubjectList? <==> r.CastError?
    ensures v.Text? && !trim ==> r == Cast(Some(v.s))
  {
    match v
    case Text(s) => Cast(Some(if trim then JsString.Trim(s) else s))
    case Number(n) => Cast(Some(JsNumber.DecimalString(n)))
    case SubjectList(_) => CastError
    case Null => Cast(None)
  }

  /** A number path: a number is kept, null and the empty string unset the
      path, an integer literal is read, anything else fails to cast. */
  function CastNumber(v: Value): (r: Cast<Option<int>>)
    ensures v.Number? ==> r == Cast(Some(v.n))
    ensures v.Null? ==> r == Cast(None)
    ensures v.SubjectList? ==> r.CastError?
  {
    match v
    case Number(n) => Cast(Some(n))
    case Null => Cast(None)
    case SubjectList(_) => CastError
    case Text(s) =>
      if s == "" then Cast(None)
      else match JsNumber.ParseWhole(s)
        case Some(n) => Cast(Some(n))
        case None => CastError
  }

  /** The text of any integer casts back to that integer. */
  lemma CastNumberOfDecimalText(n: int)
    ensures CastNumber(Text(JsNumber.DecimalString(n))) == Cast(Some(n))
  {
    JsNumber.ParseWholeRoundTrip(n);
  }

  /** The subjects array path: a list of subjects is kept, null is stored as
      null without casting, anything else fails to cast. */
  function CastSubjects(v: Value): (r: Cast<Option<seq<StudentModel.Subject>>>)
    ensures v.SubjectList? <==> r.Cast? && r.value.Some?
    ensures v.SubjectList? ==> r.value.value == v.subjects
    ensures v.Null? <==> r == Cast(None)
  {
    match v
    case SubjectList(subjects) => Cast(Some(subjects))
    case Null => Cast(None)
    case _ => CastError
  }
}

=== FILE: class_stats.dfy ===
/** `GET /students/stats/class/:className`: the aggregation that keeps the
    active students of one class, groups them by section and reports, per
    section, the mean, highest and lowest grade, the head count and the mean
    attendance. */
module ClassStats {
  import opened Base
  import opened StudentModel

  /** The `$match` stage. */
  predicate InClassAndActive(s: Student, className: string) {
    s.klass == Some(className) && s.status == Some(Active)
  }

  /** The running accumulators of one `$group` bucket. */
  datatype Group = Group(
    count: nat,
    gradeSum: int,
    maxGrade: int,
    minGrade: int,
    attendanceSum: int,
    attendanceCount: nat)

  /** Groups keyed by `section` (`None` is the bucket of documents without
      one). The result array's order is unspecified, so a map is returned. */
  type Groups = map<Option<string>, Group>

  function Start(s: Student): Group {
    Group(1, s.grade, s.grade, s.grade,
          if s.attendance.Some? then s.attendance.value else 0,
          if s.attendance.Some? then 1 else 0)
  }

  /** `$avg` on attendance skips documents without the path. */
  function Add(g: Group, s: Student): Group {
    Group(g.count + 1, g.gradeSum + s.grade, Max(g.maxGrade, s.grade), Min(g.minGrade, s.grade),
          g.attendanceSum + (if s.attendance.Some? then s.attendance.value else 0),
          g.attendanceCount + (if s.attendance.Some? then 1 else 0))
  }

  function Accumulate(groups: Groups, s: Student): Groups {
    if s.section in groups then groups[s.section := Add(groups[s.section], s)]
    else groups[s.section := Start(s)]
  }

  /** The grouping of a sequence of documents, fed in order. */
  function GroupBySection(ms: seq<Student>): Groups {
    if |ms| == 0 then map[]
    else Accumulate(GroupBySection(ms[..|ms| - 1]), ms[|ms| - 1])
  }

  // ----- Reference definitions, one per accumulator -------------------------

  function SectionCount(ms: seq<Student>, section: Option<string>): nat {
    if |ms| == 0 then 0
    else SectionCount(ms[..|ms| - 1], section) + (if ms[|ms| - 1].section == section then 1 else 0)
  }

  function SectionGradeSum(ms: seq<Student>, section: Option<string>): int {
    if |ms| == 0 then 0
    else SectionGradeSum(ms[..|ms| - 1], section) + (if ms[|ms| - 1].section == section then ms[|ms| - 1].grade else 0)
  }

  function SectionAttendanceSum(ms: seq<Student>, section: Option<string>): int {
    if |ms| == 0 then 0
    else SectionAttendanceSum(ms[..|ms| - 1], section)
         + (if ms[|ms| - 1].section == section && ms[|ms| - 1].attendance.Some? then ms[|ms| - 1].attendance.value else 0)
  }

  function SectionAttendanceCount(ms: seq<Student>, section: Option<string>): nat {
    if |ms| == 0 then 0
    else SectionAttendanceCount(ms[..|ms| - 1], section)
         + (if ms[|ms| - 1].section == section && ms[|ms| - 1].attendance.Some? then 1 else 0)
  }

  /** A bucket agrees with the reference definitions for its section: the
      counts and sums are those of its members, the extremes bound every
      member's grade and are attained by some member. */
  predicate GroupFaithful(ms: seq<Student>, section: Option<string>, g: Group) {
    && g.count == SectionCount(ms, section)
    && g.gradeSum == SectionGradeSum(ms, section)
    && g.attendanceSum == SectionAttendanceSum(ms, section)
    && g.attendanceCount == SectionAttendanceCount(ms, section)
    && (forall i :: 0 <= i < |ms| && ms[i].section == section ==> g.minGrade <= ms[i].grade <= g.maxGrade)
    && (exists i :: 0 <= i < |ms| && ms[i].section == section && ms[i].grade == g.maxGrade)
    && (exists i :: 0 <= i < |ms| && ms[i].section == section && ms[i].grade == g.minGrade)
  }

  /** A document of a section makes that section's count positive. */
  lemma {:induction false} MemberCounted(ms: seq<Student>, i: int)
    requires 0 <= i < |ms|
    ensures SectionCount(ms, ms[i].section) > 0
  {
    if i < |ms| - 1 {
      MemberCounted(ms[..|ms| - 1], i);
    }
  }

  /** The bucket of a section after one more document, in terms of the
      bucket before. */
  lemma AccumulateAt(groups: Groups, s: Student, sec: Option<string>)
    ensures sec in Accumulate(groups, s) <==> sec in groups || sec == s.section
    ensures sec != s.section && sec in groups ==> Accumulate(groups, s)[sec] == groups[sec]
    ensures sec == s.section && sec in groups ==> Accumulate(groups, s)[sec] == Add(groups[sec], s)
    ensures sec == s.section && sec !in groups ==> Accumulate(groups, s)[sec] == Start(s)
  {
  }

  /** Every section present among the documents has exactly one bucket, no
      bucket is empty, and every bucket is faithful. */
  lemma {:induction false} GroupBySectionFaithful(ms: seq<Student>)
    ensures forall sec :: sec in GroupBySection(ms) <==> SectionCount(ms, sec) > 0
    ensures forall sec :: sec in GroupBySection(ms) ==> GroupFaithful(ms, sec, GroupBySection(ms)[sec])
  {
    if |ms| > 0 {
      var init := ms[..|ms| - 1];
      var last := ms[|ms| - 1];
      GroupBySectionFaithful(init);
      var before := GroupBySection(init);
      var after := GroupBySection(ms);
      assert after == Accumulate(before, last);
      forall sec
        ensures sec in after <==> SectionCount(ms, sec) > 0
        ensures sec in after ==> GroupFaithful(ms, sec, after[sec])
      {
        AccumulateAt(before, last, sec);
        if sec in after {
          StepFaithful(ms, sec, before, after[sec]);
        }
      }
    }
  }

  /** One induction step of `GroupBySectionFaithful` for a single section. */
  lemma StepFaithful(ms: seq<Student>, sec: Option<string>, before: Groups, g: Group)
    requires |ms| > 0
    requires var init := ms[..|ms| - 1];
      && (sec in before <==> SectionCount(init, sec) > 0)
      && (sec in before ==> GroupFaithful(init, sec, before[sec]))
    requires sec != ms[|ms| - 1].section ==> sec in before && g == before[sec]
    requires sec == ms[|ms| - 1].section && sec in before ==> g == Add(before[sec], ms[|ms| - 1])
    requires sec == ms[|ms| - 1].section && sec !in before ==> g == Start(ms[|ms| - 1])
    ensures GroupFaithful(ms, sec, g)
  {
    var init := ms[..|ms| - 1];
    var last := ms[|ms| - 1];
    forall i | 0 <= i < |ms| && ms[i].section == sec
      ensures g.minGrade <= ms[i].grade <= g.maxGrade
    {
      if i < |ms| - 1 {
        assert init[i] == ms[i];
        if sec !in before {
          MemberCounted(init, i);
        }
      }
    }
    if sec in before {
      var h := before[sec];
      var im :| 0 <= im < |init| && init[im].section == sec && init[im].grade == h.maxGrade;
      var jm :| 0 <= jm < |init| && init[jm].section == sec && init[jm].grade == h.minGrade;
      assert ms[im] == init[im] && ms[jm] == init[jm];
      if sec == last.section {
        if last.grade > h.maxGrade {
          assert ms[|ms| - 1].grade == g.maxGrade;
        } else {
          assert ms[im].grade == g.maxGrade;
        }
        if last.grade < h.minGrade {
          assert ms[|ms| - 1].grade == g.minGrade;
        } else {
          assert ms[jm].grade == g.minGrade;
        }
      }
    } else {
      EmptySection(init, sec);
      assert ms[|ms| - 1].grade == g.maxGrade && ms[|ms| - 1].grade == g.minGrade;
    }
  }

  /** A section without members sums to zero everywhere. */
  lemma {:induction false} EmptySection(ms: seq<Student>, sec: Option<string>)
    requires SectionCount(ms, sec) == 0
    ensures SectionGradeSum(ms, sec) == 0
    ensures SectionAttendanceSum(ms, sec) == 0 && SectionAttendanceCount(ms, sec) == 0
  {
    if |ms| > 0 {
      EmptySection(ms[..|ms| - 1], sec);
    }
  }

  /** The bucket counts add up to the number of documents grouped. */
  lemma {:induction false} GroupCountsCoverAll(ms: seq<Student>)
    ensures TotalCount(GroupBySection(ms)) == |ms|
  {
    if |ms| > 0 {
      var init := ms[..|ms| - 1];
      var last := ms[|ms| - 1];
      GroupCountsCoverAll(init);
      var before := GroupBySection(init);
      if last.section in before {
        TotalCountUpdate(before, last.section, Add(before[last.section], last));
      } else {
        TotalCountUpdate(before, last.section, Start(last));
      }
    }
  }

  ghost function TotalCount(groups: Groups): nat
    decreases |groups|
  {
    if |groups| == 0 then 0
    else
      var k := PickKey(groups);
      groups[k].count + TotalCount(groups - {k})
  }

  ghost function PickKey(groups: Groups): (k: Option<string>)
    requires |groups| > 0
    ensures k in groups
  {
    assert groups.Keys != {};
    var k :| k in groups.Keys; k
  }

  /** Counting is independent of the key picked first. */
  lemma {:induction false} TotalCountWithout(groups: Groups, k: Option<string>)
    requires k in groups
    ensures TotalCount(groups) == groups[k].count + TotalCount(groups - {k})
    decreases |groups|
  {
    var p := PickKey(groups);
    if p != k {
      var rest := groups - {p};
      TotalCountWithout(rest, k);
      TotalCountWithout(groups - {k}, p);
      assert rest - {k} == (groups - {k}) - {p};
    }
  }

  /** Replacing or inserting one bucket changes the total by the count
      difference. */
  lemma TotalCountUpdate(groups: Groups, k: Option<string>, g: Group)
    ensures k in groups ==> TotalCount(groups[k := g]) == TotalCount(groups) - groups[k].count + g.count
    ensures k !in groups ==> TotalCount(groups[k := g]) == TotalCount(groups) + g.count
  {
    var updated := groups[k := g];
    TotalCountWithout(updated, k);
    assert updated - {k} == groups - {k};
    if k in groups {
      TotalCountWithout(groups, k);
    } else {
      assert groups - {k} == groups;
    }
  }

  // ----- The response row ----------------------------------------------------

  /** One output row; `averageAttendance` is null when no member has an
      attendance value. */
  datatype StatsRow = StatsRow(
    averageGrade: real,
    maxGrade: int,
    minGrade: int,
    studentCount: nat,
    averageAttendance: Option<real>)

  function RowOf(g: Group): StatsRow
    requires g.count > 0
  {
    StatsRow(g.gradeSum as real / g.count as real, g.maxGrade, g.minGrade, g.count,
             if g.attendanceCount == 0 then None
             else Some(g.attendanceSum as real / g.attendanceCount as real))
  }

  /** The active students of the class, in collection order. */
  function Matching(collection: seq<Student>, className: string): (ms: seq<Student>)
    ensures |ms| <= |collection|
    ensures forall s :: s in ms <==> s in collection && InClassAndActive(s, className)
    ensures forall s :: multiset(ms)[s] == if InClassAndActive(s, className) then multiset(collection)[s] else 0
  {
    if |collection| == 0 then []
    else
      var init := Matching(collection[..|collection| - 1], className);
      var last := collection[|collection| - 1];
      assert collection == collection[..|collection| - 1] + [last];
      assert forall s :: s in collection <==> s in collection[..|collection| - 1] || s == last;
      if InClassAndActive(last, className) then init + [last] else init
  }

  /** The stats endpoint over the collection: one row per section that has at
      least one active member of the class, each row's figures taken over
      exactly those members. */
  function ClassStatistics(collection: seq<Student>, className: string): (rows: map<Option<string>, StatsRow>)
    ensures var ms := Matching(collection, className);
      && (forall sec :: sec in rows <==> SectionCount(ms, sec) > 0)
      && (forall sec :: sec in rows ==>
            && rows[sec].studentCount == SectionCount(ms, sec)
            && rows[sec].averageGrade == SectionGradeSum(ms, sec) as real / SectionCount(ms, sec) as real
            && (rows[sec].averageAttendance.None? <==> SectionAttendanceCount(ms, sec) == 0)
            && (rows[sec].averageAttendance.Some? ==>
                  rows[sec].averageAttendance.value
                  == SectionAttendanceSum(ms, sec) as real / SectionAttendanceCount(ms, sec) as real)
            && (forall i :: 0 <= i < |ms| && ms[i].section == sec ==>
                  rows[sec].minGrade <= ms[i].grade <= rows[sec].maxGrade))
  {
    var ms := Matching(collection, className);
    GroupBySectionFaithful(ms);
    RowsOf(GroupBySection(ms))
  }

  /** One row per bucket. */
  function RowsOf(groups: Groups): map<Option<string>, StatsRow>
    requires forall sec :: sec in groups ==> groups[sec].count > 0
  {
    map sec | sec in groups :: RowOf(groups[sec])
  }

  /** No bucket is empty. */
  lemma GroupsNonEmpty(ms: seq<Student>)
    ensures forall sec :: sec in GroupBySection(ms) ==> GroupBySection(ms)[sec].count > 0
  {
    GroupBySectionFaithful(ms);
  }

  /** Some member of section `sec` among `ms` has grade `v`. */
  predicate Attained(ms: seq<Student>, sec: Option<string>, v: int) {
    exists i :: 0 <= i < |ms| && ms[i].section == sec && ms[i].grade == v
  }

  /** A row's highest and lowest grade are `$max` and `$min`: each is the
      grade of some member of the section, so together with the bounds in
      `ClassStatistics` they are the members' extremes. */
  lemma ExtremesAttained(collection: seq<Student>, className: string, sec: Option<string>)
    requires sec in ClassStatistics(collection, className)
    ensures var row := ClassStatistics(collection, className)[sec];
      && Attained(Matching(collection, className), sec, row.maxGrade)
      && Attained(Matching(collection, className), sec, row.minGrade)
  {
    var ms := Matching(collection, className);
    GroupsNonEmpty(ms);
    GroupExtremesAttained(ms, sec);
    assert ClassStatistics(collection, className)[sec] == RowOf(GroupBySection(ms)[sec]);
  }

  /** The bucket of a section has its extremes attained by members. */
  lemma GroupExtremesAttained(ms: seq<Student>, sec: Option<string>)
    requires SectionCount(ms, sec) > 0
    ensures sec in GroupBySection(ms)
    ensures Attained(ms, sec, GroupBySection(ms)[sec].maxGrade)
    ensures Attained(ms, sec, GroupBySection(ms)[sec].minGrade)
  {
    GroupBySectionFaithful(ms);
    assert GroupFaithful(ms, sec, GroupBySection(ms)[sec]);
  }

  /** The mean grade of a row lies between its lowest and highest grade. */
  lemma AverageBetweenExtremes(collection: seq<Student>, className: string, sec: Option<string>)
    requires sec in ClassStatistics(collection, className)
    ensures var row := ClassStatistics(collection, className)[sec];
      row.minGrade as real <= row.averageGrade <= row.maxGrade as real
  {
    var ms := Matching(collection, className);
    var row := ClassStatistics(collection, className)[sec];
    var c := SectionCount(ms, sec);
    var sum := SectionGradeSum(ms, sec);
    SectionGradeSumBounds(ms, sec, row.minGrade, row.maxGrade);
    MeanBetween(sum, c, row.minGrade, row.maxGrade);
  }

  /** An integer sum of `n` values within [lo, hi] has its real mean there too. */
  lemma MeanBetween(sum: int, n: int, lo: int, hi: int)
    requires n > 0 && n * lo <= sum <= n * hi
    ensures lo as real <= sum as real / n as real <= hi as real
  {
    assert (n * lo) as real == n as real * lo as real;
    assert (n * hi) as real == n as real * hi as real;
  }

  lemma {:induction false} SectionGradeSumBounds(ms: seq<Student>, sec: Option<string>, lo: int, hi: int)
    requires forall i :: 0 <= i < |ms| && ms[i].section == sec ==> lo <= ms[i].grade <= hi
    ensures SectionCount(ms, sec) * lo <= SectionGradeSum(ms, sec) <= SectionCount(ms, sec) * hi
  {
    if |ms| > 0 {
      var init := ms[..|ms| - 1];
      forall i | 0 <= i < |init| && init[i].section == sec
        ensures lo <= init[i].grade <= hi
      {
        assert init[i] == ms[i];
      }
      SectionGradeSumBounds(init, sec, lo, hi);
      var c, sum := SectionCount(init, sec), SectionGradeSum(init, sec);
      var last := ms[|ms| - 1];
      if last.section == sec {
        assert SectionCount(ms, sec) == c + 1 && SectionGradeSum(ms, sec) == sum + last.grade;
        OneMoreWithin(c, sum, last.grade, lo, hi);
      } else {
        assert SectionCount(ms, sec) == c && SectionGradeSum(ms, sec) == sum;
      }
    }
  }

  /** Adding one value within [lo, hi] to a sum of `c` such values keeps the
      sum within the bounds for `c + 1` values. */
  lemma OneMoreWithin(c: int, sum: int, g: int, lo: int, hi: int)
    requires c * lo <= sum <= c * hi && lo <= g <= hi
    ensures (c + 1) * lo <= sum + g <= (c + 1) * hi
  {
    assert (c + 1) * lo == c * lo + lo && (c + 1) * hi == c * hi + hi;
  }

  /** The head counts of all rows add up to the number of active students in
      the class. */
  lemma RowCountsCoverMatches(collection: seq<Student>, className: string)
    ensures TotalCount(GroupBySection(Matching(collection, className))) == |Matching(collection, className)|
  {
    GroupCountsCoverAll(Matching(collection, className));
  }

  /** Class 10A with two active section-A students (85 and 92, attendance 95
      and 98) and one inactive classmate yields one row: mean 88.5, highest
      92, lowest 85, two students, mean attendance 96.5. */
  lemma ExampleClass10A()
    ensures ClassStatistics([ExampleA, ExampleC, ExampleB], "10A")
            == map[Some("A") := StatsRow(88.5, 92, 85, 2, Some(96.5))]
  {
    ExampleMatching();
    ExampleGroups();
  }

  const ExampleA := Student("A", 85, Unset, Some("10A"), Some("A"), Some([]), Some(95), Some(Active))
  const ExampleB := Student("B", 92, Unset, Some("10A"), Some("A"), Some([]), Some(98), Some(Active))
  const ExampleC := Student("C", 40, Unset, Some("10A"), Some("A"), Some([]), Some(50), Some(Inactive))

  lemma ExampleMatching()
    ensures Matching([ExampleA, ExampleC, ExampleB], "10A") == [ExampleA, ExampleB]
  {
    var a, b, c := ExampleA, ExampleB, ExampleC;
    assert [a, c, b][..2] == [a, c];
    assert [a, c][..1] == [a];
    assert Matching([a], "10A") == [a];
    assert Matching([a, c], "10A") == [a];
  }

  lemma ExampleGroups()
    ensures GroupBySection([ExampleA, ExampleB]) == map[Some("A") := Group(2, 177, 92, 85, 193, 2)]
  {
    var a, b := ExampleA, ExampleB;
    assert [a, b][..1] == [a];
    assert GroupBySection([a]) == map[Some("A") := Group(1, 85, 85, 85, 95, 1)];
  }
}

=== FILE: employee_app.dfy ===
/** The employee list of `studentprogress/src/App.jsx`: the session state,
    the reducers each request applies to the list, the 401 handling, and
    how those requests meet the handlers of `EmployeeRoutes`. */
module EmployeeApp {
  import opened Base
  import Listing
  import Body
  import EmployeeModel
  import EmployeeRoutes

  /** An employee object in the client's list. `underscoreId` is its `_id`
      property and `id` its `id` property; rows the employee table sends
      carry `id` only. */
  datatype ClientRow = ClientRow(underscoreId: Option<nat>, id: Option<nat>, employee: EmployeeModel.Employee)

  /** The component state that the handlers touch; `user` is opaque. */
  datatype Session = Session(user: Option<string>, token: Option<string>, employees: seq<ClientRow>, error: Option<string>)

  /** How a request ended: an HTTP status with a parsed body, or a thrown
      error (network failure, unparsable body) with its message. */
  datatype Response<T> = Response(status: int, body: T) | NetworkError(message: string)

  /** `response.ok`. */
  predicate IsOk<T>(r: Response<T>) {
    r.Response? && 200 <= r.status <= 299
  }

  predicate IsUnauthorized<T>(r: Response<T>) {
    r.Response? && r.status == 401
  }

  const FetchFailed := "Failed to fetch employees"
  const UpdateFailed := "Failed to update employee"
  const AddFailed := "Failed to add employee"
  const DeleteFailed := "Failed to delete employee"

  /** The error a failed, non-401 request shows: the thrown message, or the
      handler's own message for a non-ok status. */
  function FailureText<T>(r: Response<T>, message: string): string
    requires !IsOk(r)
  {
    if r.NetworkError? then r.message else message
  }

  // ----- handleLogin / handleLogout ----------------------------------------------

  /** `handleLogout`: no user, no token, no employees, no error. */
  function LogOut(s: Session): (t: Session)
    ensures t.user.None? && t.token.None? && t.employees == [] && t.error.None?
  {
    Session(None, None, [], None)
  }

  /** `handleLogin`: user and token set, error cleared, list kept. */
  function LogIn(s: Session, user: string, token: string): (t: Session)
    ensures t.user == Some(user) && t.token == Some(token) && t.error.None? && t.employees == s.employees
  {
    Session(Some(user), Some(token), s.employees, None)
  }

  /** Logging out forgets everything the session held, whatever it held. */
  lemma LogOutForgetsSession(s: Session, t: Session)
    ensures LogOut(s) == LogOut(t)
  {
  }

  // ----- List reducers ---------------------------------------------------------

  /** `list.map(e => key(e) === id ? replacement : e)`. */
  function ReplaceWhere(xs: seq<ClientRow>, key: ClientRow -> Option<nat>, id: Option<nat>, replacement: ClientRow)
    : (r: seq<ClientRow>)
    ensures |r| == |xs|
    ensures forall i :: 0 <= i < |xs| ==> r[i] == if key(xs[i]) == id then replacement else xs[i]
  {
    seq(|xs|, i requires 0 <= i < |xs| => if key(xs[i]) == id then replacement else xs[i])
  }

  /** `list.filter(e => key(e) !== id)`. */
  function RemoveWhere(xs: seq<ClientRow>, key: ClientRow -> Option<nat>, id: Option<nat>): (r: seq<ClientRow>)
    ensures |r| <= |xs|
    ensures forall x :: x in r <==> x in xs && key(x) != id
    ensures forall x :: multiset(r)[x] == if key(x) != id then multiset(xs)[x] else 0
  {
    Listing.FilterCounts(xs, x => key(x) != id);
    Listing.Filter(xs, x => key(x) != id)
  }

  /** When no element carries the key, replacing changes nothing. */
  lemma ReplaceWhereNoMatch(xs: seq<ClientRow>, key: ClientRow -> Option<nat>, id: Option<nat>, replacement: ClientRow)
    requires forall i :: 0 <= i < |xs| ==> key(xs[i]) != id
    ensures ReplaceWhere(xs, key, id, replacement) == xs
  {
  }

  /** Removal keeps whatever order the survivors were in. */
  lemma RemoveWhereKeepsOrder(xs: seq<ClientRow>, key: ClientRow -> Option<nat>, id: Option<nat>,
                              before: (ClientRow, ClientRow) -> bool)
    requires Listing.Sorted(xs, before)
    ensures Listing.Sorted(RemoveWhere(xs, key, id), before)
  {
    Listing.FilterKeepsOrder(xs, x => key(x) != id, before);
  }

  /** Removal drops exactly the elements with the key: with none, the list is
      unchanged. */
  lemma {:induction false} RemoveWhereNoMatch(xs: seq<ClientRow>, key: ClientRow -> Option<nat>, id: Option<nat>)
    requires forall i :: 0 <= i < |xs| ==> key(xs[i]) != id
    ensures RemoveWhere(xs, key, id) == xs
  {
    Listing.FilterAll(xs, x => key(x) != id);
  }

  /** When every element carries the key, removal leaves nothing. */
  lemma RemoveWhereAllMatch(xs: seq<ClientRow>, key: ClientRow -> Option<nat>, id: Option<nat>)
    requires forall i :: 0 <= i < |xs| ==> key(xs[i]) == id
    ensures RemoveWhere(xs, key, id) == []
  {
    Listing.FilterNone(xs, x => key(x) != id);
  }

  function UnderscoreKey(r: ClientRow): Option<nat> { r.underscoreId }

  function IdKey(r: ClientRow): Option<nat> { r.id }

  // ----- fetchEmployees ----------------------------------------------------------

  /** `fetchEmployees`: `employees` is `data.employees` when that is an array
      (`None` otherwise). A 401 logs out; any other failure shows its error and
      empties the list. */
  function Fetch(s: Session, r: Response<Option<seq<ClientRow>>>): (t: Session)
    ensures IsUnauthorized(r) ==> t == LogOut(s)
    ensures IsOk(r) ==> t == s.(employees := if r.body.Some? then r.body.value else [], error := None)
    ensures !IsOk(r) && !IsUnauthorized(r) ==> t == s.(employees := [], error := Some(FailureText(r, FetchFailed)))
  {
    if IsUnauthorized(r) then LogOut(s)
    else if IsOk(r) then s.(employees := if r.body.Some? then r.body.value else [], error := None)
    else s.(employees := [], error := Some(FailureText(r, FetchFailed)))
  }

  // ----- handleUpdate / handleEmployeeAdd / handleDelete ---------------------------

  /** `handleUpdate(id, data)` once its PATCH has ended, with the list keyed by
      `key`: success replaces the keyed elements by the response; a 401 logs
      out; any other failure shows its error and keeps the list. */
  function Update(s: Session, key: ClientRow -> Option<nat>, id: Option<nat>, r: Response<ClientRow>): (t: Session)
    ensures IsUnauthorized(r) ==> t == LogOut(s)
    ensures IsOk(r) ==> t.error.None? && t.user == s.user && t.token == s.token
    ensures IsOk(r) ==> (|t.employees| == |s.employees| &&
      forall i :: 0 <= i < |s.employees| ==>
        (key(s.employees[i]) == id ==> t.employees[i] == r.body) &&
        (key(s.employees[i]) != id ==> t.employees[i] == s.employees[i]))
    ensures !IsOk(r) && !IsUnauthorized(r) ==> t == s.(error := Some(FailureText(r, UpdateFailed)))
  {
    if IsUnauthorized(r) then LogOut(s)
    else if IsOk(r) then s.(employees := ReplaceWhere(s.employees, key, id, r.body), error := None)
    else s.(error := Some(FailureText(r, UpdateFailed)))
  }

  /** `handleEmployeeAdd` once its POST has ended: success appends the
      response after the existing list. */
  function Add(s: Session, r: Response<ClientRow>): (t: Session)
    ensures IsUnauthorized(r) ==> t == LogOut(s)
    ensures IsOk(r) ==> t.error.None? && |t.employees| == |s.employees| + 1
                        && t.employees[..|s.employees|] == s.employees && t.employees[|s.employees|] == r.body
    ensures !IsOk(r) && !IsUnauthorized(r) ==> t == s.(error := Some(FailureText(r, AddFailed)))
  {
    if IsUnauthorized(r) then LogOut(s)
    else if IsOk(r) then
      var employees := s.employees + [r.body];
      assert employees[..|s.employees|] == s.employees;
      s.(employees := employees, error := None)
    else s.(error := Some(FailureText(r, AddFailed)))
  }

  /** `handleDelete(id)` once its DELETE has ended: success drops every
      element carrying the key and keeps the rest. */
  function Delete(s: Session, key: ClientRow -> Option<nat>, id: Option<nat>, r: Response<()>): (t: Session)
    ensures IsUnauthorized(r) ==> t == LogOut(s)
    ensures IsOk(r) ==> t.error.None? && |t.employees| <= |s.employees|
                        && forall x :: x in t.employees <==> x in s.employees && key(x) != id
    ensures !IsOk(r) && !IsUnauthorized(r) ==> t == s.(error := Some(FailureText(r, DeleteFailed)))
  {
    if IsUnauthorized(r) then LogOut(s)
    else if IsOk(r) then s.(employees := RemoveWhere(s.employees, key, id), error := None)
    else s.(error := Some(FailureText(r, DeleteFailed)))
  }

  /** Every 401 answer, to any of the four requests, ends in the same
      logged-out state. */
  lemma UnauthorizedLogsOut(s: Session, key: ClientRow -> Option<nat>, id: Option<nat>, row: ClientRow)
    ensures Fetch(s, Response(401, None)) == LogOut(s)
    ensures Update(s, key, id, Response(401, row)) == LogOut(s)
    ensures Add(s, Response(401, row)) == LogOut(s)
    ensures Delete(s, key, id, Response(401, ())) == LogOut(s)
  {
  }

  // ----- The requests against the employee handlers --------------------------------

  /** The client's view of a table row: `id` set, no `_id`. */
  function Sent(row: EmployeeRoutes.Row): ClientRow {
    ClientRow(None, Some(row.id), row.employee)
  }

  /** The status the handler's outcome is answered with. */
  function Status<T>(r: Result<T, EmployeeRoutes.Failure>): int {
    if r.Ok? then 200 else EmployeeRoutes.HttpStatus(r.error)
  }

  // ----- The browser's CORS preflight --------------------------------------------

  /** The methods the server's CORS middleware lists in its preflight
      answers (`backend/server.js`, lines 12-17). */
  const ServerMethods: set<string> := {"GET", "POST", "PUT", "DELETE", "OPTIONS"}

  /** The same list with `PATCH` added, as the update handler needs. */
  const CorrectedServerMethods: set<string> := ServerMethods + {"PATCH"}

  /** Methods a browser lets through a preflight without their being listed. */
  const SafelistedMethods: set<string> := {"GET", "HEAD", "POST"}

  /** The page's requests carry an `Authorization` header and a JSON content
      type, so the browser asks the server first and sends the request only
      when its method is safelisted or listed. */
  predicate PreflightPasses(allowed: set<string>, verb: string) {
    verb in SafelistedMethods || verb in allowed
  }

  /** A cross-origin request as the page sees it: when the preflight
      refuses the method, `fetch` rejects with a `TypeError` whose message
      the browser chooses, and the server's handler never runs. */
  function CrossOrigin<T>(allowed: set<string>, verb: string, typeError: string, answer: Response<T>): (r: Response<T>)
    ensures PreflightPasses(allowed, verb) ==> r == answer
    ensures !PreflightPasses(allowed, verb) ==> r == NetworkError(typeError) && !IsOk(r) && !IsUnauthorized(r)
  {
    if PreflightPasses(allowed, verb) then answer else NetworkError(typeError)
  }

  /** With the server's list, deletes and the list's reads and posts pass
      the preflight, and a `PATCH` never does; the corrected list lets it
      through. */
  lemma PatchOnlyMethodRefused()
    ensures forall m :: m in {"GET", "POST", "DELETE"} ==> PreflightPasses(ServerMethods, m)
    ensures !PreflightPasses(ServerMethods, "PATCH")
    ensures PreflightPasses(CorrectedServerMethods, "PATCH")
  {
    assert "PATCH" !in SafelistedMethods;
    assert "PATCH" !in ServerMethods;
  }

  /** `DELETE /employees/${id}` as the table answers it; a path built from an
      undefined id names no row. */
  function DeleteRequest(store: EmployeeModel.EmployeeStore, path: Option<nat>): (r: Response<()>)
    ensures IsOk(r) <==> path.Some? && path.value in store
  {
    if path.None? then Response(404, ())
    else Response(Status(EmployeeRoutes.DeleteEmployee(store, path.value)), ())
  }

  /** `PATCH /employees/${id}` as the table answers it; a path built from an
      undefined id names no row. The body of a failed answer is never read,
      so the card's own row fills it. */
  function UpdateRequest(store: EmployeeModel.EmployeeStore, path: Option<nat>, body: Body.RequestBody, card: ClientRow)
    : (r: Response<ClientRow>)
    ensures IsOk(r) <==> path.Some? && EmployeeRoutes.UpdateEmployee(store, path.value, body).Ok?
    ensures IsOk(r) && EmployeeRoutes.UpdateEmployee(store, path.value, body).value.response.Some? ==>
              r.body == Sent(EmployeeRoutes.Row(path.value, EmployeeRoutes.UpdateEmployee(store, path.value, body).value.response.value))
  {
    if path.None? then Response(404, card)
    else
      var u := EmployeeRoutes.UpdateEmployee(store, path.value, body);
      if u.Err? then Response(Status(u), card)
      else Response(200, if u.value.response.Some? then Sent(EmployeeRoutes.Row(path.value, u.value.response.value)) else card)
  }

  /** The JSON body a row turns back into when the client posts it. */
  function RowBody(row: ClientRow): Body.RequestBody {
    var e := row.employee;
    map["name" := Body.Text(e.name), "position" := Body.Text(e.position), "department" := Body.Text(e.department),
        "salary" := Body.Number(e.salary), "employeeId" := Body.Text(e.employeeId),
        "status" := if e.status.Some? then Body.Text(EmployeeModel.StatusName(e.status.value)) else Body.Null]
  }

  // ----- As written: the list keyed by `_id` ----------------------------------------

  /** Deleting from an employee card as written: the card passes `_id`, the
      request goes to that path, and the reducer filters on `_id`. */
  function DeleteFromCardAsWritten(s: Session, store: EmployeeModel.EmployeeStore, row: ClientRow): Session {
    Delete(s, UnderscoreKey, row.underscoreId, DeleteRequest(store, row.underscoreId))
  }

  /** A card for a row the table sent can never delete it: the request names
      no row, the row stays and the delete error shows. */
  lemma CardDeleteNeverRemovesRow(s: Session, store: EmployeeModel.EmployeeStore, row: EmployeeRoutes.Row)
    ensures DeleteFromCardAsWritten(s, store, Sent(row)) == s.(error := Some(DeleteFailed))
  {
  }

  /** And should such a DELETE succeed, the `_id` filter would drop every
      row the table sent, not just the one deleted. */
  lemma UnderscoreFilterDropsAllSentRows(s: Session, rows: seq<EmployeeRoutes.Row>, target: EmployeeRoutes.Row)
    requires s.employees == seq(|rows|, i requires 0 <= i < |rows| => Sent(rows[i]))
    ensures Delete(s, UnderscoreKey, Sent(target).underscoreId, Response(200, ())).employees == []
  {
    RemoveWhereAllMatch(s.employees, UnderscoreKey, Sent(target).underscoreId);
  }

  /** Saving an edit from an employee card as written: the card passes `_id`,
      the browser asks whether the server takes a `PATCH`, the request goes
      to that path, and the reducer matches on `_id`. */
  function UpdateFromCardAsWritten(s: Session, store: EmployeeModel.EmployeeStore, row: ClientRow,
                                   body: Body.RequestBody, typeError: string): Session {
    Update(s, UnderscoreKey, row.underscoreId,
           CrossOrigin(ServerMethods, "PATCH", typeError, UpdateRequest(store, row.underscoreId, body, row)))
  }

  /** No card can ever save an edit: the preflight refuses the `PATCH`, the
      list is kept and the browser's `TypeError` message shows, not the
      handler's own update error. */
  lemma CardUpdateNeverChangesRow(s: Session, store: EmployeeModel.EmployeeStore, row: ClientRow,
                                  body: Body.RequestBody, typeError: string)
    ensures UpdateFromCardAsWritten(s, store, row, body, typeError) == s.(error := Some(typeError))
  {
    PatchOnlyMethodRefused();
  }

  /** Keying the card by the row's `id` alone does not help while the server
      does not list `PATCH`: the edit is still lost. */
  lemma IdKeyAloneStillRefused(s: Session, store: EmployeeModel.EmployeeStore, row: EmployeeRoutes.Row,
                               body: Body.RequestBody, typeError: string)
    ensures Update(s, IdKey, Sent(row).id,
                   CrossOrigin(ServerMethods, "PATCH", typeError, UpdateRequest(store, Sent(row).id, body, Sent(row))))
            == s.(error := Some(typeError))
  {
    PatchOnlyMethodRefused();
  }

  /** Past the preflight, a card for a row the table sent still names no
      row: the `_id` path is answered 404, which shows the update error. */
  lemma UnderscorePathNamesNoRow(s: Session, store: EmployeeModel.EmployeeStore, row: EmployeeRoutes.Row,
                                 body: Body.RequestBody)
    ensures UpdateRequest(store, Sent(row).underscoreId, body, Sent(row)) == Response(404, Sent(row))
    ensures Update(s, UnderscoreKey, Sent(row).underscoreId, UpdateRequest(store, Sent(row).underscoreId, body, Sent(row)))
            == s.(error := Some(UpdateFailed))
  {
  }

  /** And should such a PATCH succeed, the `_id` match would replace every
      row the table sent by the response, not just the one edited. */
  lemma UnderscoreMatchReplacesAllSentRows(s: Session, rows: seq<EmployeeRoutes.Row>, target: EmployeeRoutes.Row,
                                           response: ClientRow)
    requires s.employees == seq(|rows|, i requires 0 <= i < |rows| => Sent(rows[i]))
    ensures var t := Update(s, UnderscoreKey, Sent(target).underscoreId, Response(200, response));
      |t.employees| == |rows| && forall i :: 0 <= i < |rows| ==> t.employees[i] == response
  {
  }

  // ----- Corrected: the list keyed by `id` ------------------------------------------

  /** Saving an edit from a card keyed by the row's `id`, against a server
      whose CORS list includes `PATCH`. */
  function UpdateFromCard(s: Session, store: EmployeeModel.EmployeeStore, row: ClientRow,
                          body: Body.RequestBody, typeError: string): Session {
    Update(s, IdKey, row.id, CrossOrigin(CorrectedServerMethods, "PATCH", typeError, UpdateRequest(store, row.id, body, row)))
  }

  /** Keyed by `id` and with `PATCH` listed, an accepted edit of a stored
      row replaces exactly the elements with that `id` by the row as the
      table now holds it, and keeps every other element in place. */
  lemma CardUpdateReplacesOnlyThatRow(s: Session, store: EmployeeModel.EmployeeStore, row: EmployeeRoutes.Row,
                                      body: Body.RequestBody, typeError: string)
    requires EmployeeRoutes.UpdateEmployee(store, row.id, body).Ok?
    requires EmployeeRoutes.UpdateEmployee(store, row.id, body).value.response.Some?
    ensures var u := EmployeeRoutes.UpdateEmployee(store, row.id, body).value;
      var t := UpdateFromCard(s, store, Sent(row), body, typeError);
      && t.error.None?
      && |t.employees| == |s.employees|
      && (forall i :: 0 <= i < |s.employees| ==>
            t.employees[i] == if s.employees[i].id == Some(row.id) then Sent(EmployeeRoutes.Row(row.id, u.response.value))
                              else s.employees[i])
  {
  }

  /** Deleting from a card keyed by the row's `id`. */
  function DeleteFromCard(s: Session, store: EmployeeModel.EmployeeStore, row: ClientRow): Session {
    Delete(s, IdKey, row.id, DeleteRequest(store, row.id))
  }

  /** Keyed by `id`, deleting a stored row removes exactly the elements with
      that `id` and keeps every other one. */
  lemma CardDeleteRemovesOnlyThatRow(s: Session, store: EmployeeModel.EmployeeStore, row: EmployeeRoutes.Row)
    requires row.id in store
    ensures var t := DeleteFromCard(s, store, Sent(row));
      && t.error.None?
      && (forall x :: x in t.employees ==> x.id != Some(row.id))
      && (forall x :: x in s.employees && x.id != Some(row.id) ==> x in t.employees)
  {
  }

  // ----- As written: the created employee posted twice --------------------------------

  /** `handleEmployeeAdd(data)` as written: the row the form's own POST just
      created is posted again, under a fresh key should it pass. */
  function AddCreatedAsWritten(s: Session, store: EmployeeModel.EmployeeStore, created: ClientRow,
                               freshKey: EmployeeModel.EmployeeKey): Session
    requires freshKey !in store
  {
    var r := EmployeeRoutes.CreateEmployee(store, RowBody(created), freshKey);
    Add(s, if r.Ok? then Response(201, Sent(r.value)) else Response(Status(r), created))
  }

  /** Once the form's POST has stored the employee, the second POST is refused
      as a duplicate: the new employee never joins the list and the add error
      shows. */
  lemma SecondPostRefused(s: Session, store: EmployeeModel.EmployeeStore, body: Body.RequestBody,
                          first: EmployeeModel.EmployeeKey, second: EmployeeModel.EmployeeKey)
    requires first !in store
    requires EmployeeRoutes.CreateEmployee(store, body, first).Ok?
    requires second != first && second !in store
    ensures var row := EmployeeRoutes.CreateEmployee(store, body, first).value;
      var stored := EmployeeRoutes.Insert(store, row);
      && EmployeeRoutes.CreateEmployee(stored, RowBody(Sent(row)), second)
         == Err(EmployeeRoutes.AlreadyExists(EmployeeRoutes.DuplicateMessage))
      && AddCreatedAsWritten(s, stored, Sent(row), second) == s.(error := Some(AddFailed))
  {
    var row := EmployeeRoutes.CreateEmployee(store, body, first).value;
    var stored := EmployeeRoutes.Insert(store, row);
    assert stored[first].employeeId == row.employee.employeeId;
  }

  // ----- Corrected: append the created row --------------------------------------------

  /** `onEmployeeAdd(data)` taking the created row as it is: it is appended
      and nothing is posted again. */
  function AddCreated(s: Session, created: ClientRow): (t: Session)
    ensures t.employees == s.employees + [created] && t.error.None?
  {
    Add(s, Response(201, created))
  }

  /** After the form's POST, the corrected flow lists the new employee once,
      after the employees already listed. */
  lemma FormPostThenAppend(s: Session, store: EmployeeModel.EmployeeStore, body: Body.RequestBody,
                           first: EmployeeModel.EmployeeKey)
    requires first !in store
    requires EmployeeRoutes.CreateEmployee(store, body, first).Ok?
    ensures var row := EmployeeRoutes.CreateEmployee(store, body, first).value;
      var t := AddCreated(s, Sent(row));
      && t.employees[..|s.employees|] == s.employees
      && t.employees[|s.employees|].id == Some(first)
      && t.employees[|s.employees|].employee == row.employee
  {
    var row := EmployeeRoutes.CreateEmployee(store, body, first).value;
    assert (s.employees + [Sent(row)])[..|s.employees|] == s.employees;
  }
}

=== FILE: employee_form.dfy ===
/** The add-employee form of `studentprogress/src/components/AddEmployeeForm.jsx`:
    its ordered validation checks and what a submission does to the form. */
module EmployeeForm {
  import opened Base
  import JsNumber
  import JsString
  import FormChecks

  /** The five controlled inputs, all text. */
  datatype FormData = FormData(
    name: string,
    position: string,
    department: string,
    salary: string,
    employeeId: string)

  datatype FormState = FormState(data: FormData, error: string)

  const InitialData := FormData("", "", "", "", "")

  const NameMessage := "Name must be at least 2 characters long"
  const PositionMessage := "Position is required"
  const DepartmentMessage := "Department is required"
  const SalaryMessage := "Salary must be a positive number"

  /** The salary is missing, not a number, or not above zero. */
  predicate SalaryRejected(salary: string, numberOf: string -> JsNumber.Number) {
    var n := numberOf(salary);
    salary == "" || n.NaN? || n.v <= 0.0
  }

  /** The checks of `validateForm`, in the order they run. */
  function EmployeeFormChecks(f: FormData, numberOf: string -> JsNumber.Number): seq<FormChecks.Check> {
    [ FormChecks.Check(JsString.Utf16Length(f.name) < 2, NameMessage),
      FormChecks.Check(f.position == "", PositionMessage),
      FormChecks.Check(f.department == "", DepartmentMessage),
      FormChecks.Check(SalaryRejected(f.salary, numberOf), SalaryMessage) ]
  }

  /** `validateForm`: `None` when the form may be posted, otherwise the error
      it shows. */
  function ValidateEmployeeForm(f: FormData, numberOf: string -> JsNumber.Number): (r: Option<string>)
    ensures r == FormChecks.FirstFailure(EmployeeFormChecks(f, numberOf))
    ensures r.None? <==>
      && JsString.Utf16Length(f.name) >= 2 && f.position != "" && f.department != ""
      && f.salary != "" && numberOf(f.salary).Num? && numberOf(f.salary).v > 0.0
  {
    var checks := EmployeeFormChecks(f, numberOf);
    if JsString.Utf16Length(f.name) < 2 then
      FormChecks.FirstFailureAt(checks, 0);
      Some(NameMessage)
    else if f.position == "" then
      FormChecks.FirstFailureAt(checks, 1);
      Some(PositionMessage)
    else if f.department == "" then
      FormChecks.FirstFailureAt(checks, 2);
      Some(DepartmentMessage)
    else if SalaryRejected(f.salary, numberOf) then
      FormChecks.FirstFailureAt(checks, 3);
      Some(SalaryMessage)
    else
      assert !checks[0].fails && !checks[1].fails && !checks[2].fails && !checks[3].fails;
      None
  }

  /** The `employeeId` input plays no part in validation. */
  lemma EmployeeIdNeverChecked(f: FormData, employeeId: string, numberOf: string -> JsNumber.Number)
    ensures ValidateEmployeeForm(f.(employeeId := employeeId), numberOf) == ValidateEmployeeForm(f, numberOf)
  {
  }

  /** What the POST sends: the form with `salary: Number(salary)`. */
  datatype Payload = Payload(name: string, position: string, department: string, salary: real, employeeId: string)

  const RefusedMessage := "Failed to add employee"
  const ThrownMessage := "Error adding employee. Please try again."

  datatype Submission = Submission(state: FormState, posted: Option<Payload>)

  /** `handleSubmit`: an invalid form shows its error and posts nothing; a
      valid one posts; success clears all five inputs; a failure keeps them
      and shows the server's message or a fallback. */
  function Submit(s: FormState, numberOf: string -> JsNumber.Number, reply: FormChecks.Reply): (r: Submission)
    ensures var v := ValidateEmployeeForm(s.data, numberOf);
      && (v.Some? ==> r == Submission(s.(error := v.value), None))
      && (v.None? ==> r.posted == Some(Payload(s.data.name, s.data.position, s.data.department,
                                               numberOf(s.data.salary).v, s.data.employeeId)))
    ensures r.posted.Some? && FormChecks.Succeeded(reply) ==> r.state == FormState(InitialData, "")
    ensures r.posted.Some? && !FormChecks.Succeeded(reply) ==>
      r.state == s.(error := FormChecks.FailureMessage(reply, RefusedMessage, ThrownMessage))
    ensures r.state.error == "" <==> r.posted.Some? && FormChecks.Succeeded(reply)
  {
    match ValidateEmployeeForm(s.data, numberOf)
    case Some(message) =>
      assert message != "" by {
        FirstFailureMessages(s.data, numberOf);
      }
      Submission(s.(error := message), None)
    case None =>
      var d := s.data;
      var payload := Payload(d.name, d.position, d.department, numberOf(d.salary).v, d.employeeId);
      if FormChecks.Succeeded(reply) then Submission(FormState(InitialData, ""), Some(payload))
      else Submission(s.(error := FormChecks.FailureMessage(reply, RefusedMessage, ThrownMessage)), Some(payload))
  }

  lemma FirstFailureMessages(f: FormData, numberOf: string -> JsNumber.Number)
    ensures FormChecks.FirstFailure(EmployeeFormChecks(f, numberOf)) != Some("")
  {
  }

  /** The cleared form cannot be posted as it is: its first check fails. */
  lemma ResetFormFailsValidation(numberOf: string -> JsNumber.Number)
    ensures ValidateEmployeeForm(InitialData, numberOf) == Some(NameMessage)
  {
  }
}

=== FILE: employee_model.dfy ===
/** The `Employee` table of `backend/models/Employee.js`: five non-null
    columns, a unique `employeeId`, and a `status` enumeration defaulting to
    `Active`; rows are keyed by the auto-increment `id`. */
module EmployeeModel {
  import opened Base
  import JsNumber
  import Body

  datatype EmployeeStatus = Active | OnLeave | Terminated

  /** The stored spelling of a status. */
  function StatusName(st: EmployeeStatus): string {
    match st
    case Active => "Active"
    case OnLeave => "On-leave"
    case Terminated => "Terminated"
  }

  /** Which status, if any, a text names (the ENUM check). */
  function ParseStatus(text: string): (r: Option<EmployeeStatus>)
    ensures r.Some? ==> StatusName(r.value) == text
    ensures r.None? ==> forall st: EmployeeStatus :: StatusName(st) != text
  {
    if text == "Active" then Some(Active)
    else if text == "On-leave" then Some(OnLeave)
    else if text == "Terminated" then Some(Terminated)
    else None
  }

  lemma ParseStatusName(st: EmployeeStatus)
    ensures ParseStatus(StatusName(st)) == Some(st)
  {
  }

  const DefaultStatus := Active

  /** A stored row without its `id`. `salary` is kept in whole units. A
      `status` column may hold NULL when a request sets it so. */
  datatype Employee = Employee(
    name: string,
    position: string,
    department: string,
    salary: int,
    employeeId: string,
    status: Option<EmployeeStatus>)

  /** Why the table refuses a row. */
  datatype Violation =
    | NotNull(column: string)
    | InvalidType(column: string)
    | NotInEnum(column: string)
    | NotUnique(column: string)

  /** A row being assembled: a column is `None` when it would be NULL, and
      `status` is still free text. */
  datatype Draft = Draft(
    name: Option<string>,
    position: Option<string>,
    department: Option<string>,
    salary: Option<int>,
    employeeId: Option<string>,
    status: Option<string>)

  function ToDraft(e: Employee): Draft {
    Draft(Some(e.name), Some(e.position), Some(e.department), Some(e.salary), Some(e.employeeId),
          if e.status.Some? then Some(StatusName(e.status.value)) else None)
  }

  /** `allowNull: false` on the five required columns, and the ENUM on
      `status`. An empty string is not NULL. */
  function Violations(d: Draft): set<Violation> {
    (if d.name.None? then {NotNull("name")} else {})
    + (if d.position.None? then {NotNull("position")} else {})
    + (if d.department.None? then {NotNull("department")} else {})
    + (if d.salary.None? then {NotNull("salary")} else {})
    + (if d.employeeId.None? then {NotNull("employeeId")} else {})
    + (if d.status.Some? && ParseStatus(d.status.value).None? then {NotInEnum("status")} else {})
  }

  /** A draft becomes a row exactly when it violates nothing, and then the
      row holds the draft's values. */
  function Validate(d: Draft): (r: Result<Employee, set<Violation>>)
    ensures r.Ok? <==> Violations(d) == {}
    ensures r.Err? ==> r.error == Violations(d)
    ensures r.Ok? ==> ToDraft(r.value) == d
  {
    if Violations(d) != {} then Err(Violations(d))
    else
      assert NotNull("name") !in Violations(d) && NotNull("position") !in Violations(d);
      assert NotNull("department") !in Violations(d) && NotNull("salary") !in Violations(d);
      assert NotNull("employeeId") !in Violations(d);
      Ok(Employee(d.name.value, d.position.value, d.department.value, d.salary.value, d.employeeId.value,
                  if d.status.Some? then ParseStatus(d.status.value) else None))
  }

  /** Every row validates back to itself. */
  lemma ValidateToDraft(e: Employee)
    ensures Validate(ToDraft(e)) == Ok(e)
  {
    if e.status.Some? {
      ParseStatusName(e.status.value);
    }
    assert Violations(ToDraft(e)) == {};
  }

  /** A STRING column: text is stored as is, a number as its decimal text,
      null as NULL; an array is refused. */
  function StringColumn(v: Body.Value): (r: Body.Cast<Option<string>>)
    ensures v.Text? ==> r == Body.Cast(Some(v.s))
    ensures v.Null? <==> r == Body.Cast(None)
    ensures v.SubjectList? <==> r.CastError?
  {
    Body.CastString(v, false)
  }

  /** The DECIMAL `salary` column: a number, or text that is a whole-number
      literal; null is NULL; anything else is refused. */
  function DecimalColumn(v: Body.Value): (r: Body.Cast<Option<int>>)
    ensures v.Number? ==> r == Body.Cast(Some(v.n))
    ensures v.Null? <==> r == Body.Cast(None)
    ensures v.Text? ==> (r.Cast? <==> JsNumber.ParseWhole(v.s).Some?)
    ensures v.SubjectList? ==> r.CastError?
  {
    match v
    case Number(n) => Body.Cast(Some(n))
    case Null => Body.Cast(None)
    case SubjectList(_) => Body.CastError
    case Text(s) =>
      match JsNumber.ParseWhole(s)
      case Some(n) => Body.Cast(Some(n))
      case None => Body.CastError
  }

  /** The auto-increment primary key. */
  type EmployeeKey = nat

  type EmployeeStore = map<EmployeeKey, Employee>

  /** The unique index on `employeeId`. */
  predicate EmployeeIdsUnique(store: EmployeeStore) {
    forall a, b :: a in store && b in store && a != b ==> store[a].employeeId != store[b].employeeId
  }

  /** Some row other than `except` holds this `employeeId`. */
  predicate EmployeeIdTaken(store: EmployeeStore, employeeId: string, except: Option<EmployeeKey>) {
    exists k :: k in store && Some(k) != except && store[k].employeeId == employeeId
  }

  /** Storing a row whose `employeeId` no other row holds keeps the index
      unique. */
  lemma UniquePreserved(store: EmployeeStore, key: EmployeeKey, e: Employee)
    requires !EmployeeIdTaken(store, e.employeeId, Some(key))
    ensures EmployeeIdsUnique(store) ==> EmployeeIdsUnique(store[key := e])
  {
  }
}

=== FILE: employee_routes.dfy ===
/** The handlers of `backend/routes/employees.js` against an abstract table
    (a map from `id` to row): the filter builder and list query, get by id,
    create with the duplicate-`employeeId` pre-check, update and delete. */
module EmployeeRoutes {
  import opened Base
  import JsNumber
  import JsString
  import Listing
  import opened EmployeeModel
  import Body

  // ----- buildFilterQuery ----------------------------------------------------

  /** `if (queryParams[key])`: present and not the empty string. */
  predicate Given(q: map<string, string>, key: string) {
    key in q && q[key] != ""
  }

  function Param(q: map<string, string>, key: string): Option<string> {
    if Given(q, key) then Some(q[key]) else None
  }

  /** The WHERE clause: `name` is a case-insensitive pattern, the rest are
      equalities. */
  datatype EmployeeFilter = EmployeeFilter(
    name: Option<string>,
    department: Option<string>,
    position: Option<string>,
    status: Option<string>)

  const FilterKeys: set<string> := {"name", "department", "position", "status"}

  /** `buildFilterQuery`: each recognised parameter with a non-empty value
      becomes its constraint. */
  function BuildEmployeeFilter(q: map<string, string>): (f: EmployeeFilter)
    ensures f.name.Some? <==> Given(q, "name")
    ensures f.department.Some? <==> Given(q, "department")
    ensures f.position.Some? <==> Given(q, "position")
    ensures f.status.Some? <==> Given(q, "status")
    ensures f.name.Some? ==> f.name.value == q["name"]
    ensures f.department.Some? ==> f.department.value == q["department"]
    ensures f.position.Some? ==> f.position.value == q["position"]
    ensures f.status.Some? ==> f.status.value == q["status"]
  {
    EmployeeFilter(Param(q, "name"), Param(q, "department"), Param(q, "position"), Param(q, "status"))
  }

  /** A row satisfies every constraint of the filter. A NULL `status` equals
      no status text. */
  predicate EmployeeMatches(f: EmployeeFilter, e: Employee) {
    && (f.name.Some? ==> JsString.ContainsIgnoringCase(e.name, f.name.value))
    && (f.department.Some? ==> e.department == f.department.value)
    && (f.position.Some? ==> e.position == f.position.value)
    && (f.status.Some? ==> e.status.Some? && StatusName(e.status.value) == f.status.value)
  }

  /** Only the recognised parameters shape the filter. */
  lemma FilterIgnoresOtherKeys(q: map<string, string>)
    ensures BuildEmployeeFilter(q) == BuildEmployeeFilter(map k | k in q && k in FilterKeys :: q[k])
  {
  }

  /** An empty value acts as if the key were absent. */
  lemma EmptyParamIsAbsent(q: map<string, string>, key: string)
    ensures BuildEmployeeFilter(q[key := ""]) == BuildEmployeeFilter(q - {key})
  {
  }

  /** With no recognised non-empty parameter every row matches. */
  lemma NoFilterMatchesAll(q: map<string, string>, e: Employee)
    requires forall k :: k in FilterKeys ==> !Given(q, k)
    ensures EmployeeMatches(BuildEmployeeFilter(q), e)
  {
    assert !Given(q, "name") && !Given(q, "department") && !Given(q, "position") && !Given(q, "status");
  }

  /** One more recognised, non-empty parameter never admits a row the smaller
      query rejected. */
  lemma AddingParamNarrows(q: map<string, string>, key: string, value: string, e: Employee)
    requires key in FilterKeys && value != "" && !Given(q, key)
    ensures EmployeeMatches(BuildEmployeeFilter(q[key := value]), e) ==> EmployeeMatches(BuildEmployeeFilter(q), e)
  {
  }

  /** Hence the matching set of a narrower query is no larger, whatever the
      table holds. */
  lemma AddingParamNeverGrowsCount(rows: seq<Row>, q: map<string, string>, key: string, value: string)
    requires key in FilterKeys && value != "" && !Given(q, key)
    ensures |Listing.Filter(rows, (r: Row) => EmployeeMatches(BuildEmployeeFilter(q[key := value]), r.employee))|
            <= |Listing.Filter(rows, (r: Row) => EmployeeMatches(BuildEmployeeFilter(q), r.employee))|
  {
    forall i | 0 <= i < |rows|
      ensures EmployeeMatches(BuildEmployeeFilter(q[key := value]), rows[i].employee)
              ==> EmployeeMatches(BuildEmployeeFilter(q), rows[i].employee)
    {
      AddingParamNarrows(q, key, value, rows[i].employee);
    }
    Listing.FilterStricter(rows, (r: Row) => EmployeeMatches(BuildEmployeeFilter(q[key := value]), r.employee),
                           (r: Row) => EmployeeMatches(BuildEmployeeFilter(q), r.employee));
  }

  // ----- GET / -----------------------------------------------------------------

  /** A row as the list and detail responses carry it. */
  datatype Row = Row(id: EmployeeKey, employee: Employee)

  const Columns: set<string> := {"id", "name", "position", "department", "salary", "employeeId", "status"}

  /** `[[sortBy, sortOrder.toUpperCase()]]`: the direction the store accepts. */
  function OrderDirection(sortOrder: string): (d: Option<Listing.Direction>)
    ensures d == Some(Listing.Ascending) <==> JsString.ToUpper(sortOrder) == "ASC"
    ensures d == Some(Listing.Descending) <==> JsString.ToUpper(sortOrder) == "DESC"
  {
    var upper := JsString.ToUpper(sortOrder);
    if upper == "ASC" then Some(Listing.Ascending)
    else if upper == "DESC" then Some(Listing.Descending)
    else None
  }

  /** Upper-casing makes the direction case-insensitive. */
  lemma OrderDirectionIgnoresCase(sortOrder: string)
    ensures OrderDirection(JsString.ToUpper(sortOrder)) == OrderDirection(sortOrder)
  {
    JsString.ToUpperNormalises(sortOrder);
  }

  function SortKey(r: Row, column: string): Listing.Key {
    var e := r.employee;
    if column == "id" then Listing.KNum(r.id)
    else if column == "name" then Listing.KText(e.name)
    else if column == "position" then Listing.KText(e.position)
    else if column == "department" then Listing.KText(e.department)
    else if column == "salary" then Listing.KNum(e.salary)
    else if column == "employeeId" then Listing.KText(e.employeeId)
    else if column == "status" then (if e.status.Some? then Listing.KText(StatusName(e.status.value)) else Listing.KAbsent)
    else Listing.KAbsent
  }

  /** Why the store refuses the ORDER clause (answered with 500). */
  datatype ListRefusal = UnknownColumn(column: string) | UnknownDirection(direction: string)

  predicate AcceptedPaging(q: map<string, string>, numberOf: string -> JsNumber.Number) {
    var req := Listing.SplitListQuery(q, numberOf);
    Listing.IsCount(req.page) && Listing.IsCount(req.limit)
  }

  /** `a` may precede `b` under the request's sort options. */
  predicate SortsBefore(req: Listing.ListRequest, a: Row, b: Row) {
    var d := OrderDirection(req.sortOrder);
    d.Some? && Listing.InOrder(SortKey(a, req.sortBy), SortKey(b, req.sortBy), d.value)
  }

  /** GET /: `ordered` is the table in the order the store's ORDER BY gives.
      The listing is refused exactly when the sort column or direction is
      unknown; otherwise the page is the `page`-th window of `limit` rows
      among those that match the filter, and the count covers every match. */
  function ListEmployees(ordered: seq<Row>, q: map<string, string>, numberOf: string -> JsNumber.Number)
    : (r: Result<Listing.Listed<Row>, ListRefusal>)
    requires AcceptedPaging(q, numberOf)
    ensures var req := Listing.SplitListQuery(q, numberOf);
      r.Err? <==> req.sortBy !in Columns || OrderDirection(req.sortOrder).None?
    ensures r.Ok? ==> var req := Listing.SplitListQuery(q, numberOf);
      var f := BuildEmployeeFilter(req.filters);
      var all := Listing.Filter(ordered, (x: Row) => EmployeeMatches(f, x.employee));
      var page, limit := req.page.v.Floor, req.limit.v.Floor;
      && r.value.items == Listing.Window(all, Listing.Skip(page, limit), limit)
      && r.value.pagination == Listing.Paginate(|all|, page, limit)
      && |r.value.items| <= req.limit.v.Floor
      && (forall x :: x in r.value.items ==> x in ordered && EmployeeMatches(f, x.employee))
      && r.value.pagination.total == |Listing.Filter(ordered, (x: Row) => EmployeeMatches(f, x.employee))|
      && r.value.pagination.page as real == req.page.v
  {
    var req := Listing.SplitListQuery(q, numberOf);
    if req.sortBy !in Columns then Err(UnknownColumn(req.sortBy))
    else if OrderDirection(req.sortOrder).None? then Err(UnknownDirection(req.sortOrder))
    else
      var f := BuildEmployeeFilter(req.filters);
      Ok(Listing.ListPage(ordered, (x: Row) => EmployeeMatches(f, x.employee), req.page.v.Floor, req.limit.v.Floor))
  }

  /** With no `sortOrder` the listing is ascending by `name`. */
  lemma DefaultOrderIsAscendingByName(q: map<string, string>, numberOf: string -> JsNumber.Number)
    requires "sortBy" !in q && "sortOrder" !in q
    ensures var req := Listing.SplitListQuery(q, numberOf);
      req.sortBy == "name" && OrderDirection(req.sortOrder) == Some(Listing.Ascending)
  {
  }

  /** If the store returns the table sorted as asked, the page is sorted the
      same way. */
  lemma ListEmployeesSorted(ordered: seq<Row>, q: map<string, string>, numberOf: string -> JsNumber.Number)
    requires AcceptedPaging(q, numberOf)
    requires Listing.Sorted(ordered, (a, b) => SortsBefore(Listing.SplitListQuery(q, numberOf), a, b))
    requires ListEmployees(ordered, q, numberOf).Ok?
    ensures Listing.Sorted(ListEmployees(ordered, q, numberOf).value.items,
                           (a, b) => SortsBefore(Listing.SplitListQuery(q, numberOf), a, b))
  {
    var req := Listing.SplitListQuery(q, numberOf);
    var f := BuildEmployeeFilter(req.filters);
    Listing.ListPageKeepsOrder(ordered, (x: Row) => EmployeeMatches(f, x.employee), req.page.v.Floor, req.limit.v.Floor,
                               (a, b) => SortsBefore(req, a, b));
  }

  // ----- Responses ------------------------------------------------------------

  /** Why a request is refused: 404, or one of the 400 answers. */
  datatype Failure =
    | NotFound(message: string)
    | AlreadyExists(message: string)
    | UndefinedWhere(column: string)
    | Rejected(violations: set<Violation>)

  function HttpStatus(f: Failure): int {
    if f.NotFound? then 404 else 400
  }

  const NotFoundMessage := "Employee not found"
  const DuplicateMessage := "Employee with this ID already exists"

  // ----- GET /:id --------------------------------------------------------------

  function GetEmployee(store: EmployeeStore, id: EmployeeKey): (r: Result<Row, Failure>)
    ensures r.Err? <==> id !in store
    ensures r.Err? ==> r.error == NotFound(NotFoundMessage)
    ensures r.Ok? ==> r.value == Row(id, store[id])
  {
    if id !in store then Err(NotFound(NotFoundMessage)) else Ok(Row(id, store[id]))
  }

  // ----- POST / ----------------------------------------------------------------

  function CastFailure<T>(c: Body.Cast<T>, column: string): set<Violation> {
    if c.CastError? then {InvalidType(column)} else {}
  }

  function CastOr<T>(c: Body.Cast<T>, fallback: T): T {
    if c.Cast? then c.value else fallback
  }

  function ReadString(body: Body.RequestBody, key: string): Body.Cast<Option<string>> {
    if key in body then StringColumn(body[key]) else Body.Cast(None)
  }

  /** `status` falls back to its default only when the body leaves it out. */
  function ReadStatus(body: Body.RequestBody): Body.Cast<Option<string>> {
    if "status" in body then StringColumn(body["status"]) else Body.Cast(Some(StatusName(DefaultStatus)))
  }

  function ReadSalary(body: Body.RequestBody): Body.Cast<Option<int>> {
    if "salary" in body then DecimalColumn(body["salary"]) else Body.Cast(None)
  }

  function CreateCastFailures(body: Body.RequestBody): set<Violation> {
    CastFailure(ReadString(body, "name"), "name") + CastFailure(ReadString(body, "position"), "position")
    + CastFailure(ReadString(body, "department"), "department") + CastFailure(ReadSalary(body), "salary")
    + CastFailure(ReadString(body, "employeeId"), "employeeId") + CastFailure(ReadStatus(body), "status")
  }

  function CreateDraft(body: Body.RequestBody): Draft {
    Draft(CastOr(ReadString(body, "name"), None), CastOr(ReadString(body, "position"), None),
          CastOr(ReadString(body, "department"), None), CastOr(ReadSalary(body), None),
          CastOr(ReadString(body, "employeeId"), None), CastOr(ReadStatus(body), None))
  }

  /** POST /: the pre-check looks the `employeeId` up (an undefined one makes
      the lookup itself fail); a taken id answers 400 without touching the
      table; otherwise the row is validated and inserted under the freshKey key
      the table assigns. */
  function CreateEmployee(store: EmployeeStore, body: Body.RequestBody, freshKey: EmployeeKey): (r: Result<Row, Failure>)
    requires freshKey !in store
    ensures r.Ok? <==> && "employeeId" in body && CreateCastFailures(body) == {} && Violations(CreateDraft(body)) == {}
                       && IdFree(store, CreateDraft(body), None)
    ensures r.Err? ==> HttpStatus(r.error) == 400
    ensures "employeeId" !in body ==> r == Err(UndefinedWhere("employeeId"))
    ensures "employeeId" in body && body["employeeId"].Text? && EmployeeIdTaken(store, body["employeeId"].s, None)
            ==> r == Err(AlreadyExists(DuplicateMessage))
    ensures r.Ok? ==> r.value.id == freshKey && !EmployeeIdTaken(store, r.value.employee.employeeId, None)
    ensures r.Ok? ==> ToDraft(r.value.employee) == CreateDraft(body)
    ensures r.Ok? && "status" !in body ==> r.value.employee.status == Some(DefaultStatus)
    ensures r.Ok? ==> forall k :: k in ["name", "position", "department", "employeeId"] && body[k].Text? ==>
              body[k].s == (if k == "name" then r.value.employee.name
                            else if k == "position" then r.value.employee.position
                            else if k == "department" then r.value.employee.department
                            else r.value.employee.employeeId)
  {
    if "employeeId" !in body then Err(UndefinedWhere("employeeId"))
    else
      var key := StringColumn(body["employeeId"]);
      if key.Cast? && key.value.Some? && EmployeeIdTaken(store, key.value.value, None) then
        Err(AlreadyExists(DuplicateMessage))
      else if CreateCastFailures(body) != {} then Err(Rejected(CreateCastFailures(body)))
      else match Validate(CreateDraft(body))
        case Err(v) => Err(Rejected(v))
        case Ok(e) =>
          assert ToDraft(e) == CreateDraft(body);
          assert "status" !in body ==> e.status == Some(DefaultStatus) by {
            ParseStatusName(DefaultStatus);
          }
          Ok(Row(freshKey, e))
  }

  /** No row other than `except` holds the draft's `employeeId`. */
  predicate IdFree(store: EmployeeStore, d: Draft, except: Option<EmployeeKey>) {
    d.employeeId.Some? ==> !EmployeeIdTaken(store, d.employeeId.value, except)
  }

  /** `body` describes row `e`: it holds every column of `e`, with null for a
      NULL `status`. Other keys may be present too. */
  predicate Describes(body: Body.RequestBody, e: Employee) {
    && "name" in body && body["name"] == Body.Text(e.name)
    && "position" in body && body["position"] == Body.Text(e.position)
    && "department" in body && body["department"] == Body.Text(e.department)
    && "salary" in body && body["salary"] == Body.Number(e.salary)
    && "employeeId" in body && body["employeeId"] == Body.Text(e.employeeId)
    && "status" in body && body["status"] == (if e.status.Some? then Body.Text(StatusName(e.status.value)) else Body.Null)
  }

  /** Every row has a body that describes it, with no other key. */
  function EmployeeBody(e: Employee): (body: Body.RequestBody)
    ensures Describes(body, e)
    ensures forall k :: k in body ==> k in Columns && k != "id"
  {
    map["name" := Body.Text(e.name), "position" := Body.Text(e.position), "department" := Body.Text(e.department),
        "salary" := Body.Number(e.salary), "employeeId" := Body.Text(e.employeeId),
        "status" := if e.status.Some? then Body.Text(StatusName(e.status.value)) else Body.Null]
  }

  /** Every column of a body describing `e` casts to the value `e` holds. */
  lemma DescribedDraft(body: Body.RequestBody, e: Employee)
    requires Describes(body, e)
    ensures CreateCastFailures(body) == {} && CreateDraft(body) == ToDraft(e)
  {
    assert ReadString(body, "name") == Body.Cast(Some(e.name));
    assert ReadString(body, "position") == Body.Cast(Some(e.position));
    assert ReadString(body, "department") == Body.Cast(Some(e.department));
    assert ReadSalary(body) == Body.Cast(Some(e.salary));
    assert ReadString(body, "employeeId") == Body.Cast(Some(e.employeeId));
    assert ReadStatus(body) == Body.Cast(ToDraft(e).status);
  }

  /** Posting a body that describes a row creates exactly that row under the
      fresh key, unless its `employeeId` is taken, which the pre-check
      refuses. */
  lemma CreateOfDescribedEmployee(store: EmployeeStore, body: Body.RequestBody, e: Employee, freshKey: EmployeeKey)
    requires freshKey !in store && Describes(body, e)
    ensures CreateEmployee(store, body, freshKey)
            == if EmployeeIdTaken(store, e.employeeId, None) then Err(AlreadyExists(DuplicateMessage))
               else Ok(Row(freshKey, e))
  {
    DescribedDraft(body, e);
    ValidateToDraft(e);
  }

  /** The table after a create: the old rows plus exactly the new one. */
  function Insert(store: EmployeeStore, row: Row): EmployeeStore {
    store[row.id := row.employee]
  }

  /** A successful create adds exactly one row, changes no existing row and
      keeps `employeeId` unique. */
  lemma CreateAddsOneRow(store: EmployeeStore, body: Body.RequestBody, freshKey: EmployeeKey)
    requires freshKey !in store
    requires CreateEmployee(store, body, freshKey).Ok?
    ensures var after := Insert(store, CreateEmployee(store, body, freshKey).value);
      && after.Keys == store.Keys + {freshKey}
      && |after| == |store| + 1
      && (forall k :: k in store ==> after[k] == store[k])
      && (EmployeeIdsUnique(store) ==> EmployeeIdsUnique(after))
  {
    InsertFresh(store, CreateEmployee(store, body, freshKey).value);
  }

  lemma InsertFresh(store: EmployeeStore, row: Row)
    requires row.id !in store && !EmployeeIdTaken(store, row.employee.employeeId, None)
    ensures var after := Insert(store, row);
      && after.Keys == store.Keys + {row.id}
      && |after| == |store| + 1
      && (forall k :: k in store ==> after[k] == store[k])
      && (EmployeeIdsUnique(store) ==> EmployeeIdsUnique(after))
  {
    UniquePreserved(store, row.id, row.employee);
  }

  /** A create whose `employeeId` is taken leaves the table as it was: no
      row is produced to insert. */
  lemma CreateDuplicateRefused(store: EmployeeStore, body: Body.RequestBody, freshKey: EmployeeKey, other: EmployeeKey)
    requires freshKey !in store && other in store
    requires "employeeId" in body && body["employeeId"] == Body.Text(store[other].employeeId)
    ensures CreateEmployee(store, body, freshKey) == Err(AlreadyExists(DuplicateMessage))
  {
  }

  // ----- PATCH /:id ------------------------------------------------------------

  /** The body keys the update writes: the table's columns; others are dropped. */
  predicate Assigned(body: Body.RequestBody, column: string) {
    column in body && column in Columns
  }

  function PatchString(body: Body.RequestBody, column: string, current: string): Body.Cast<Option<string>> {
    if Assigned(body, column) then StringColumn(body[column]) else Body.Cast(Some(current))
  }

  /** The `id` written by the update: a non-negative number, or the key the
      row already has. */
  function NewKey(body: Body.RequestBody, id: EmployeeKey): Body.Cast<EmployeeKey> {
    if !Assigned(body, "id") then Body.Cast(id)
    else if body["id"].Number? && body["id"].n >= 0 then Body.Cast(body["id"].n as nat)
    else Body.CastError
  }

  /** Validation of the written columns alone, before the table is touched;
      columns the body does not mention are not checked. */
  function PatchViolations(body: Body.RequestBody): set<Violation> {
    var placeholder := Employee("", "", "", 0, "", None);
    var d := PatchDraft(placeholder, body);
    CastFailure(NewKey(body, 0), "id") + PatchCastFailures(placeholder, body) + Violations(d)
  }

  function PatchDraft(current: Employee, body: Body.RequestBody): Draft {
    var d := ToDraft(current);
    Draft(CastOr(PatchString(body, "name", current.name), None),
          CastOr(PatchString(body, "position", current.position), None),
          CastOr(PatchString(body, "department", current.department), None),
          if Assigned(body, "salary") then CastOr(DecimalColumn(body["salary"]), None) else d.salary,
          CastOr(PatchString(body, "employeeId", current.employeeId), None),
          if Assigned(body, "status") then CastOr(StringColumn(body["status"]), None) else d.status)
  }

  function PatchCastFailures(current: Employee, body: Body.RequestBody): set<Violation> {
    CastFailure(PatchString(body, "name", current.name), "name")
    + CastFailure(PatchString(body, "position", current.position), "position")
    + CastFailure(PatchString(body, "department", current.department), "department")
    + (if Assigned(body, "salary") then CastFailure(DecimalColumn(body["salary"]), "salary") else {})
    + CastFailure(PatchString(body, "employeeId", current.employeeId), "employeeId")
    + (if Assigned(body, "status") then CastFailure(StringColumn(body["status"]), "status") else {})
  }

  /** The outcome of an update: the new table and the response body, which is
      the row re-read under the path's id (null when the row moved). */
  datatype Updated = Updated(store: EmployeeStore, response: Option<Employee>)

  /** The body writes at least one column. The update drops every other key,
      and with nothing left to write it skips the query and reports that no
      row was updated. */
  predicate WritesColumn(body: Body.RequestBody) {
    Columns * body.Keys != {}
  }

  /** The updated row passes the casts and the table's constraints, and its
      `id` and `employeeId` clash with no other row. */
  predicate UpdateAccepted(store: EmployeeStore, id: EmployeeKey, body: Body.RequestBody)
    requires id in store
  {
    var d := PatchDraft(store[id], body);
    var newKey := CastOr(NewKey(body, id), id);
    && PatchCastFailures(store[id], body) == {} && Violations(d) == {}
    && (newKey == id || newKey !in store)
    && IdFree(store, d, Some(id))
  }

  /** PATCH /:id: the written columns are validated first (400); then a body
      that writes no column, or an unknown id, answers 404; a clash on `id`
      or `employeeId` answers 400; otherwise only that row changes, and only
      in the written columns. */
  function UpdateEmployee(store: EmployeeStore, id: EmployeeKey, body: Body.RequestBody): (r: Result<Updated, Failure>)
    ensures r.Err? ==> HttpStatus(r.error) == 400 || r.error == NotFound(NotFoundMessage)
    ensures r == Err(NotFound(NotFoundMessage)) <==> PatchViolations(body) == {} && (id !in store || !WritesColumn(body))
    ensures r.Ok? <==> PatchViolations(body) == {} && id in store && WritesColumn(body) && UpdateAccepted(store, id, body)
    ensures r.Ok? ==> var newKey := CastOr(NewKey(body, id), id);
      && r.value.store.Keys == store.Keys - {id} + {newKey}
      && ToDraft(r.value.store[newKey]) == PatchDraft(store[id], body)
    ensures r.Ok? ==> id in store
    ensures r.Ok? ==> forall k :: k in store && k != id ==> k in r.value.store && r.value.store[k] == store[k]
    ensures r.Ok? && !Assigned(body, "id") ==> r.value.store.Keys == store.Keys
    ensures r.Ok? && !Assigned(body, "id") ==> r.value.response.Some? && r.value.store == store[id := r.value.response.value]
    ensures r.Ok? && EmployeeIdsUnique(store) ==> EmployeeIdsUnique(r.value.store)
  {
    if PatchViolations(body) != {} then Err(Rejected(PatchViolations(body)))
    else if id !in store || !WritesColumn(body) then Err(NotFound(NotFoundMessage))
    else WriteRow(store, id, body)
  }

  /** The update of a stored row once the query runs: refused with 400 on a
      cast failure, a constraint or a clash on `id` or `employeeId`;
      otherwise the row is replaced, under its new `id` if the body writes
      one, and no other row changes. */
  function WriteRow(store: EmployeeStore, id: EmployeeKey, body: Body.RequestBody): (r: Result<Updated, Failure>)
    requires id in store
    ensures r.Err? ==> r.error.Rejected?
    ensures r.Ok? <==> UpdateAccepted(store, id, body)
    ensures r.Ok? ==> var newKey := CastOr(NewKey(body, id), id);
      && r.value.store.Keys == store.Keys - {id} + {newKey}
      && ToDraft(r.value.store[newKey]) == PatchDraft(store[id], body)
    ensures r.Ok? ==> forall k :: k in store && k != id ==> k in r.value.store && r.value.store[k] == store[k]
    ensures r.Ok? && !Assigned(body, "id") ==> r.value.response.Some? && r.value.store == store[id := r.value.response.value]
    ensures r.Ok? && EmployeeIdsUnique(store) ==> EmployeeIdsUnique(r.value.store)
  {
    var current := store[id];
    var newKey := CastOr(NewKey(body, id), id);
    var d := PatchDraft(current, body);
    if PatchCastFailures(current, body) != {} then Err(Rejected(PatchCastFailures(current, body)))
    else match Validate(d)
      case Err(v) => Err(Rejected(v))
      case Ok(e) =>
        var rest := store - {id};
        if newKey in rest then Err(Rejected({NotUnique("id")}))
        else if EmployeeIdTaken(rest, e.employeeId, None) then Err(Rejected({NotUnique("employeeId")}))
        else
          UniquePreserved(rest, newKey, e);
          var after := rest[newKey := e];
          assert newKey == id ==> after == store[id := e];
          Ok(Updated(after, if id in after then Some(after[id]) else None))
  }

  /** A body that writes no column answers 404 even for a stored row. */
  lemma UpdateWritingNothingNotFound(store: EmployeeStore, id: EmployeeKey, body: Body.RequestBody)
    requires forall c :: c in Columns ==> c !in body
    ensures UpdateEmployee(store, id, body) == Err(NotFound(NotFoundMessage))
  {
    assert Columns * body.Keys == {};
    assert PatchDraft(Employee("", "", "", 0, "", None), body) == ToDraft(Employee("", "", "", 0, "", None));
  }

  /** Updating with a body that describes a row, and leaves `id` alone, turns
      the stored row into exactly that one, unless another row holds its
      `employeeId`. */
  lemma UpdateToDescribedEmployee(store: EmployeeStore, id: EmployeeKey, body: Body.RequestBody, e: Employee)
    requires id in store && Describes(body, e) && !Assigned(body, "id")
    ensures UpdateEmployee(store, id, body)
            == if EmployeeIdTaken(store, e.employeeId, Some(id)) then Err(Rejected({NotUnique("employeeId")}))
               else Ok(Updated(store[id := e], Some(e)))
  {
    DescribedPatch(body, e, store[id]);
    DescribedPatch(body, e, Employee("", "", "", 0, "", None));
    ValidateToDraft(e);
    assert "name" in Columns * body.Keys;
    assert EmployeeIdTaken(store - {id}, e.employeeId, None) == EmployeeIdTaken(store, e.employeeId, Some(id));
    assert (store - {id})[id := e] == store[id := e];
  }

  /** Every column of a body describing `e` overwrites the current row's. */
  lemma DescribedPatch(body: Body.RequestBody, e: Employee, current: Employee)
    requires Describes(body, e)
    ensures PatchCastFailures(current, body) == {} && PatchDraft(current, body) == ToDraft(e)
  {
    assert PatchString(body, "name", current.name) == Body.Cast(Some(e.name));
    assert PatchString(body, "position", current.position) == Body.Cast(Some(e.position));
    assert PatchString(body, "department", current.department) == Body.Cast(Some(e.department));
    assert PatchString(body, "employeeId", current.employeeId) == Body.Cast(Some(e.employeeId));
    assert StringColumn(body["status"]) == Body.Cast(ToDraft(e).status);
  }

  /** The updated row keeps every column the body does not write. */
  lemma UpdateKeepsUnwrittenColumns(store: EmployeeStore, id: EmployeeKey, body: Body.RequestBody)
    requires UpdateEmployee(store, id, body).Ok? && !Assigned(body, "id")
    ensures var before := store[id];
      var after := UpdateEmployee(store, id, body).value.response.value;
      && (!Assigned(body, "name") ==> after.name == before.name)
      && (!Assigned(body, "position") ==> after.position == before.position)
      && (!Assigned(body, "department") ==> after.department == before.department)
      && (!Assigned(body, "salary") ==> after.salary == before.salary)
      && (!Assigned(body, "employeeId") ==> after.employeeId == before.employeeId)
      && (!Assigned(body, "status") ==> after.status == before.status)
  {
    var before := store[id];
    var after := UpdateEmployee(store, id, body).value.response.value;
    assert ToDraft(after) == PatchDraft(before, body);
    if !Assigned(body, "status") {
      StatusTextInjective(after.status, before.status);
    }
  }

  function StatusText(st: Option<EmployeeStatus>): Option<string> {
    if st.Some? then Some(StatusName(st.value)) else None
  }

  lemma StatusTextInjective(a: Option<EmployeeStatus>, b: Option<EmployeeStatus>)
    ensures StatusText(a) == StatusText(b) ==> a == b
  {
  }

  /** Setting only `department` to "Engineering" changes that column alone. */
  lemma UpdateDepartmentOnly(store: EmployeeStore, id: EmployeeKey)
    requires id in store && EmployeeIdsUnique(store)
    ensures var r := UpdateEmployee(store, id, map["department" := Body.Text("Engineering")]);
      r.Ok? && r.value.store == store[id := store[id].(department := "Engineering")]
  {
    var body := map["department" := Body.Text("Engineering")];
    var e := store[id];
    var expected := e.(department := "Engineering");
    ValidateToDraft(expected);
    assert PatchDraft(e, body) == ToDraft(expected);
    assert PatchViolations(body) == {};
    assert "department" in Columns * body.Keys;
    assert !EmployeeIdTaken(store - {id}, expected.employeeId, None);
  }

  // ----- DELETE /:id -----------------------------------------------------------

  /** DELETE /:id: 404 exactly when no row has the id; otherwise that row alone
      is removed. */
  function DeleteEmployee(store: EmployeeStore, id: EmployeeKey): (r: Result<EmployeeStore, Failure>)
    ensures r.Err? <==> id !in store
    ensures r.Err? ==> r.error == NotFound(NotFoundMessage)
    ensures r.Ok? ==> r.value.Keys == store.Keys - {id}
    ensures r.Ok? ==> forall k :: k in r.value ==> r.value[k] == store[k]
  {
    if id !in store then Err(NotFound(NotFoundMessage)) else Ok(store - {id})
  }

  /** A second delete of the same id answers 404. */
  lemma DeleteTwiceNotFound(store: EmployeeStore, id: EmployeeKey)
    requires DeleteEmployee(store, id).Ok?
    ensures DeleteEmployee(DeleteEmployee(store, id).value, id) == Err(NotFound(NotFoundMessage))
  {
  }
}

=== FILE: form_checks.dfy ===
/** The shape both client forms validate in: an ordered list of checks, the
    first failing one supplying the message shown. */
module FormChecks {
  import opened Base

  /** One check: whether it fails on the form, and the message it shows. */
  datatype Check = Check(fails: bool, message: string)

  /** The message of the first failing check, if any. */
  function FirstFailure(checks: seq<Check>): (r: Option<string>)
    ensures r.None? <==> forall i :: 0 <= i < |checks| ==> !checks[i].fails
    ensures r.Some? ==> exists i :: 0 <= i < |checks| && checks[i].fails && checks[i].message == r.value
                                    && forall j :: 0 <= j < i ==> !checks[j].fails
  {
    if |checks| == 0 then None
    else if checks[0].fails then Some(checks[0].message)
    else
      var rest := FirstFailure(checks[1..]);
      assert forall i :: 1 <= i < |checks| ==> checks[i] == checks[1..][i - 1];
      if rest.Some? then
        var i :| 0 <= i < |checks[1..]| && checks[1..][i].fails && checks[1..][i].message == rest.value
                 && forall j :: 0 <= j < i ==> !checks[1..][j].fails;
        assert checks[i + 1] == checks[1..][i];
        rest
      else rest
  }

  /** The first failing check is the one whose message is shown. */
  lemma FirstFailureAt(checks: seq<Check>, i: nat)
    requires i < |checks| && checks[i].fails
    requires forall j :: 0 <= j < i ==> !checks[j].fails
    ensures FirstFailure(checks) == Some(checks[i].message)
  {
    var r := FirstFailure(checks);
    var k :| 0 <= k < |checks| && checks[k].fails && checks[k].message == r.value
             && forall j :: 0 <= j < k ==> !checks[j].fails;
    assert !(k < i) && !(i < k);
  }

  /** How a form's POST ended: a parsed JSON reply (`message` is its truthy
      `message` field, if any), or a thrown error with its message. */
  datatype Reply = Answered(ok: bool, message: Option<string>) | Thrown(thrownMessage: string)

  predicate Succeeded(reply: Reply) {
    reply.Answered? && reply.ok
  }

  /** The error a form shows after a failed POST:
      `throw new Error(data.message || refused)` caught by
      `setError(err.message || thrown)`. */
  function FailureMessage(reply: Reply, refused: string, thrown: string): (m: string)
    requires !Succeeded(reply)
    ensures refused != "" && thrown != "" ==> m != ""
    ensures reply.Answered? && reply.message.Some? && reply.message.value != "" ==> m == reply.message.value
    ensures reply.Answered? && (reply.message.None? || reply.message.value == "") && refused != "" ==> m == refused
    ensures reply.Thrown? ==> m == (if reply.thrownMessage != "" then reply.thrownMessage else thrown)
  {
    match reply
    case Answered(_, message) =>
      var raised := if message.Some? && message.value != "" then message.value else refused;
      if raised != "" then raised else thrown
    case Thrown(message) => if message != "" then message else thrown
  }
}

=== FILE: grade_input.dfy ===
/** The grade input of `studentprogress/src/StudentCard.jsx`: the text typed
    into it becomes a grade change only when `parseInt` reads a whole number
    from 0 to 100. */
module GradeInput {
  import opened Base
  import JsNumber
  import JsString
  import StudentModel

  /** `handleInputChange`: the `(student.id, grade)` pair passed to
      `onGradeChange`, or `None` when the handler passes nothing on. */
  function GradeChange<Id>(studentId: Id, input: string): (r: Option<(Id, int)>)
    ensures r.Some? <==> JsNumber.ParseInt(input).Some? && StudentModel.MinGrade <= JsNumber.ParseInt(input).value <= StudentModel.MaxGrade
    ensures r.Some? ==> r.value.0 == studentId && r.value.1 == JsNumber.ParseInt(input).value
  {
    match JsNumber.ParseInt(input)
    case Some(grade) => if StudentModel.MinGrade <= grade <= StudentModel.MaxGrade then Some((studentId, grade)) else None
    case None => None
  }

  /** Every grade the handler passes on is one the student schema accepts:
      writing it into a valid student keeps the student valid. */
  lemma GradeChangeKeepsStudentValid(studentId: string, s: StudentModel.Student, input: string)
    requires StudentModel.ValidStudent(s)
    requires GradeChange(studentId, input).Some?
    ensures StudentModel.ValidStudent(s.(grade := GradeChange(studentId, input).value.1))
  {
  }

  /** Typing the decimal text of a grade passes that grade on exactly when it
      lies in 0..100. */
  lemma GradeChangeOfDecimal<Id>(studentId: Id, grade: int)
    ensures GradeChange(studentId, JsNumber.DecimalString(grade)) ==
      if StudentModel.MinGrade <= grade <= StudentModel.MaxGrade then Some((studentId, grade)) else None
  {
    JsNumber.ParseIntRoundTrip(grade);
  }

  /** Text with no leading digit is ignored. */
  lemma LettersIgnored(studentId: int)
    ensures GradeChange(studentId, "abc") == None
  {
    JsString.TrimStartOfNonSpace("abc");
    assert JsNumber.DigitPrefix("abc") == "";
  }

  /** Text that starts with digits passes on the value of those digits,
      whatever follows them, when it is at most 100. */
  lemma DigitPrefixPassed(studentId: int, digits: string, rest: string)
    requires |digits| >= 1 && JsNumber.AllDigits(digits)
    requires rest == [] || !JsNumber.IsDigit(rest[0])
    ensures GradeChange(studentId, digits + rest) ==
      if JsNumber.DigitsValue(digits) <= StudentModel.MaxGrade then Some((studentId, JsNumber.DigitsValue(digits) as int))
      else None
  {
    var g: int := JsNumber.DigitsValue(digits);
    JsNumber.ParseIntOfLiteral(digits, rest);
    GradeChangeOfParsed(studentId, digits + rest, g);
  }

  /** Text `parseInt` reads as `g` passes `g` on exactly when it lies in
      0..100. */
  lemma GradeChangeOfParsed(studentId: int, input: string, g: int)
    requires JsNumber.ParseInt(input) == Some(g)
    ensures GradeChange(studentId, input) ==
      if StudentModel.MinGrade <= g <= StudentModel.MaxGrade then Some((studentId, g)) else None
  {
  }
}

=== FILE: js_number.dfy ===
/** JavaScript number behaviour the model depends on: NaN-aware values,
    `Math.round` of an integer mean, `Math.ceil` of an integer quotient,
    `parseInt(_, 10)` and the decimal text of an integer. */
module JsNumber {
  import opened Base
  import JsString

  /** A JavaScript number as the model sees it: NaN or a finite value. The
      conversion `Number(text)` is left abstract; callers receive it as a
      function parameter of type `string -> Number`. */
  datatype Number = NaN | Num(v: real)

  /** `x >= bound` on JavaScript numbers: any comparison with NaN is false. */
  predicate AtLeast(x: Number, bound: Number) {
    x.Num? && bound.Num? && x.v >= bound.v
  }

  /** `x <= bound` on JavaScript numbers. */
  predicate AtMost(x: Number, bound: Number) {
    x.Num? && bound.Num? && x.v <= bound.v
  }

  /** `Math.round(sum / n)` for integers and n > 0: the integer nearest the
      mean, halves rounded up. */
  function RoundedMean(sum: int, n: int): (r: int)
    requires n > 0
    ensures 2 * n * r - n <= 2 * sum < 2 * n * r + n
  {
    var q := (2 * sum + n) / (2 * n);
    assert 2 * n * q <= 2 * sum + n < 2 * n * q + 2 * n by {
      DivBounds(2 * sum + n, 2 * n);
    }
    q
  }

  lemma DivBounds(a: int, b: int)
    requires b > 0
    ensures b * (a / b) <= a < b * (a / b) + b
  {
  }

  /** A rounded mean lies within any bounds the summed values lie within. */
  lemma {:induction false} RoundedMeanWithin(sum: int, n: int, lo: int, hi: int)
    requires n > 0
    requires n * lo <= sum <= n * hi
    ensures lo <= RoundedMean(sum, n) <= hi
  {
    var r := RoundedMean(sum, n);
    if r < lo {
      MulMono(n, r + 1, lo);
      assert false;
    }
    if r > hi {
      MulMono(n, hi + 1, r);
      assert false;
    }
  }

  lemma MulMono(n: int, a: int, b: int)
    requires n > 0 && a <= b
    ensures n * a <= n * b
  {
  }

  /** `Math.ceil(total / limit)` for a non-zero integer divisor. */
  function CeilDiv(total: nat, limit: int): (c: int)
    requires limit != 0
    ensures limit > 0 ==> (c - 1) * limit < total <= c * limit
    ensures limit < 0 ==> c * limit <= total < (c - 1) * limit
  {
    if limit > 0 then
      DivBounds(total + limit - 1, limit);
      (total + limit - 1) / limit
    else
      DivBounds(total, -limit);
      -(total / -limit)
  }

  predicate IsDigit(c: char) { '0' <= c <= '9' }

  predicate AllDigits(s: string) {
    forall i :: 0 <= i < |s| ==> IsDigit(s[i])
  }

  function DigitValue(c: char): nat
    requires IsDigit(c)
  {
    c as int - '0' as int
  }

  function DigitChar(d: nat): (c: char)
    requires d < 10
    ensures IsDigit(c) && DigitValue(c) == d
  {
    ('0' as int + d) as char
  }

  /** The value of a string of decimal digits. */
  function DigitsValue(s: string): nat
    requires AllDigits(s)
  {
    if |s| == 0 then 0 else DigitsValue(s[..|s| - 1]) * 10 + DigitValue(s[|s| - 1])
  }

  /** The longest prefix of `s` made of decimal digits. */
  function DigitPrefix(s: string): (d: string)
    ensures |d| <= |s| && d == s[..|d|] && AllDigits(d)
    ensures |d| == |s| || !IsDigit(s[|d|])
  {
    if |s| > 0 && IsDigit(s[0]) then [s[0]] + DigitPrefix(s[1..]) else []
  }

  /** The decimal text of a natural number, without leading zeros. */
  function NatString(n: nat): (s: string)
    ensures |s| >= 1 && AllDigits(s)
    ensures DigitsValue(s) == n
  {
    var last := DigitChar(n % 10);
    if n < 10 then [last]
    else
      var init := NatString(n / 10);
      assert (init + [last])[..|init|] == init;
      init + [last]
  }

  /** `String(n)` for an integer `n`. */
  function DecimalString(n: int): string {
    if n < 0 then "-" + NatString(-n) else NatString(n)
  }

  /** `parseInt(s, 10)`: skip leading white space, read an optional sign and
      then the longest run of decimal digits; no digit at all gives NaN (None). */
  function ParseInt(s: string): Option<int> {
    ReadSigned(JsString.TrimStart(s))
  }

  /** An optional sign, then the digits. */
  function ReadSigned(t: string): Option<int> {
    if |t| > 0 && t[0] == '-' then
      match ReadDigits(t[1..])
      case Some(v) => Some(-v)
      case None => None
    else if |t| > 0 && t[0] == '+' then ReadDigits(t[1..])
    else ReadDigits(t)
  }

  /** The value of the longest run of digits `body` starts with, if any. */
  function ReadDigits(body: string): Option<int> {
    var digits := DigitPrefix(body);
    if |digits| == 0 then None else Some(DigitsValue(digits))
  }

  /** `parseInt` reads the digits a text starts with and stops at the first
      character that is not a digit. */
  lemma ParseIntOfLiteral(d: string, rest: string)
    requires |d| >= 1 && AllDigits(d)
    requires rest == [] || !IsDigit(rest[0])
    ensures ParseInt(d + rest) == Some(DigitsValue(d) as int)
  {
    var u := d + rest;
    ReadDigitsOfLiteral(d, rest);
    assert u[0] == d[0];
    ParseIntOfDigitRun(u, DigitsValue(d));
  }

  /** A string of digits, alone: its value, through `ReadDigits`. */
  lemma ReadDigitsOfDigits(d: string)
    requires |d| >= 1 && AllDigits(d)
    ensures ReadDigits(d) == Some(DigitsValue(d) as int)
  {
    ReadDigitsOfLiteral(d, []);
    assert d + [] == d;
  }

  lemma ReadDigitsOfLiteral(d: string, rest: string)
    requires |d| >= 1 && AllDigits(d)
    requires rest == [] || !IsDigit(rest[0])
    ensures ReadDigits(d + rest) == Some(DigitsValue(d) as int)
  {
    DigitPrefixOfDigitsThen(d, rest);
  }

  /** Text starting with a digit: `parseInt` reads its digit run. */
  lemma ParseIntOfDigitRun(u: string, v: int)
    requires |u| > 0 && IsDigit(u[0])
    requires ReadDigits(u) == Some(v)
    ensures ParseInt(u) == Some(v)
  {
    JsString.TrimStartOfNonSpace(u);
  }

  /** A minus sign followed by a digit run: `parseInt` reads its negation. */
  lemma ParseIntOfNegatedRun(s: string, v: int)
    requires |s| > 1 && s[0] == '-' && IsDigit(s[1])
    requires ReadDigits(s[1..]) == Some(v)
    ensures ParseInt(s) == Some(-v)
  {
    JsString.TrimStartOfNonSpace(s);
  }

  /** `parseInt` reads back the decimal text of every integer. */
  lemma ParseIntRoundTrip(n: int)
    ensures ParseInt(DecimalString(n)) == Some(n)
  {
    var m: nat := if n < 0 then -n else n;
    var d := NatString(m);
    var s := DecimalString(n);
    ReadDigitsOfDigits(d);
    if n < 0 {
      assert s[1..] == d;
      ParseIntOfNegatedRun(s, m);
    } else {
      ParseIntOfDigitRun(d, m);
    }
  }

  /** The digits of `d` followed by text that does not start with a digit:
      the digit prefix is `d`. */
  lemma {:induction false} DigitPrefixOfDigitsThen(d: string, rest: string)
    requires AllDigits(d)
    requires rest == [] || !IsDigit(rest[0])
    ensures DigitPrefix(d + rest) == d
  {
    if |d| > 0 {
      assert (d + rest)[1..] == d[1..] + rest;
      DigitPrefixOfDigitsThen(d[1..], rest);
      assert d == [d[0]] + d[1..];
    } else {
      assert d + rest == rest;
    }
  }

  /** Text that is exactly an optional minus sign followed by decimal digits:
      the integer literals the model lets a schema cast to a number. */
  function ParseWhole(s: string): (r: Option<int>)
    ensures r.Some? ==> ParseInt(s) == r
  {
    var negative := |s| > 0 && s[0] == '-';
    var digits := if negative then s[1..] else s;
    if |digits| == 0 || !AllDigits(digits) then None
    else
      var value: int := DigitsValue(digits);
      ReadDigitsOfDigits(digits);
      if negative then
        ParseIntOfNegatedRun(s, value);
        Some(-value)
      else
        ParseIntOfDigitRun(digits, value);
        Some(value)
  }

  /** The decimal text of every integer is a whole-number literal for it. */
  lemma ParseWholeRoundTrip(n: int)
    ensures ParseWhole(DecimalString(n)) == Some(n)
  {
    var m: nat := if n < 0 then -n else n;
    var d := NatString(m);
    var s := DecimalString(n);
    if n < 0 {
      assert s[1..] == d;
      ParseWholeOfNegated(s);
    } else {
      ParseWholeOfDigits(d);
    }
  }

  lemma ParseWholeOfDigits(d: string)
    requires |d| >= 1 && AllDigits(d)
    ensures ParseWhole(d) == Some(DigitsValue(d) as int)
  {
  }

  lemma ParseWholeOfNegated(s: string)
    requires |s| >= 2 && s[0] == '-' && AllDigits(s[1..])
    ensures ParseWhole(s) == Some(-(DigitsValue(s[1..]) as int))
  {
  }
}

=== FILE: js_string.dfy ===
/** The JavaScript string operations the forms and filters use: trim, split on a
    separator, ASCII case mapping and substring search. A `string` here is a
    sequence of Unicode scalar values, while a JavaScript string is a sequence
    of UTF-16 code units; `Utf16Length` gives the JavaScript `length`. */
module JsString {

  /** JavaScript's `length`: the number of UTF-16 code units, two for a
      character outside the Basic Multilingual Plane (a surrogate pair). */
  function Utf16Length(s: string): (n: nat)
    ensures |s| <= n <= 2 * |s|
    ensures (forall i :: 0 <= i < |s| ==> s[i] as int <= 0xFFFF) ==> n == |s|
  {
    if |s| == 0 then 0
    else (if s[0] as int > 0xFFFF then 2 else 1) + Utf16Length(s[1..])
  }

  /** A single character outside the Basic Multilingual Plane already has
      length 2. */
  lemma AstralCharHasLengthTwo()
    ensures |"\U{1F600}"| == 1 && Utf16Length("\U{1F600}") == 2
  {
  }

  /** The white space and line terminators that `String.prototype.trim` and
      `parseInt` skip (the ASCII ones plus the common Unicode ones). */
  predicate IsSpace(c: char) {
    c == ' ' || c == '\t' || c == '\n' || c == '\r' || c == '\U{000B}' || c == '\U{000C}'
    || c == '\U{00A0}' || c == '\U{2028}' || c == '\U{2029}' || c == '\U{FEFF}'
  }

  predicate IsBlank(s: string) {
    forall i :: 0 <= i < |s| ==> IsSpace(s[i])
  }

  /** `s` with its leading white space removed. */
  function TrimStart(s: string): (r: string)
    ensures |r| <= |s| && r == s[|s| - |r|..]
    ensures IsBlank(s[..|s| - |r|])
    ensures r == [] || !IsSpace(r[0])
    decreases |s|
  {
    if |s| > 0 && IsSpace(s[0]) then
      var tail := s[1..];
      var r := TrimStart(tail);
      var cut := |s| - |r|;
      assert tail[cut - 1..] == s[cut..];
      forall i | 0 <= i < cut
        ensures IsSpace(s[..cut][i])
      {
        if i > 0 {
          assert s[..cut][i] == tail[..cut - 1][i - 1];
        }
      }
      r
    else s
  }

  /** Text that does not start with white space has nothing to trim at its
      start. */
  lemma TrimStartOfNonSpace(s: string)
    requires |s| > 0 && !IsSpace(s[0])
    ensures TrimStart(s) == s
  {
  }

  /** `s` with its trailing white space removed. */
  function TrimEnd(s: string): (r: string)
    ensures |r| <= |s| && r == s[..|r|]
    ensures IsBlank(s[|r|..])
    ensures r == [] || !IsSpace(r[|r| - 1])
    decreases |s|
  {
    if |s| > 0 && IsSpace(s[|s| - 1]) then
      var init := s[..|s| - 1];
      var r := TrimEnd(init);
      assert init[..|r|] == s[..|r|];
      assert s[|r|..] == init[|r|..] + [s[|s| - 1]];
      r
    else s
  }

  /** `String.prototype.trim`: the infix of `s` left once the white space at
      both ends is gone. */
  function Trim(s: string): (r: string)
    ensures |r| <= |s|
    ensures IsTrimmed(r)
  {
    TrimEnd(TrimStart(s))
  }

  /** What trimming removes is white space at both ends, and only that. */
  lemma TrimIsInfix(s: string)
    ensures var r := Trim(s);
      exists i :: 0 <= i <= |s| - |r| && s[i..i + |r|] == r && IsBlank(s[..i]) && IsBlank(s[i + |r|..])
  {
    var t := TrimStart(s);
    var r := TrimEnd(t);
    var i := |s| - |t|;
    assert s[i..i + |r|] == r;
    assert s[i + |r|..] == t[|r|..];
  }

  /** Trimming leaves nothing exactly when the string is all white space. */
  lemma TrimEmptyIffBlank(s: string)
    ensures Trim(s) == [] <==> IsBlank(s)
  {
    var t := TrimStart(s);
    var off := |s| - |t|;
    if IsBlank(s) {
      assert t == [];
    } else {
      var k :| 0 <= k < |s| && !IsSpace(s[k]);
      assert off <= k;
      assert t[k - off] == s[k];
      assert !IsBlank(t);
      assert t[0..] == t;
    }
  }

  /** `String.prototype.split` with a one-character separator: the pieces
      between consecutive separators, empty pieces included. */
  function Split(s: string, sep: char): (parts: seq<string>)
    ensures |parts| >= 1
    ensures forall i :: 0 <= i < |parts| ==> sep !in parts[i]
    decreases |s|
  {
    if |s| == 0 then [""]
    else
      var rest := Split(s[1..], sep);
      if s[0] == sep then [""] + rest
      else [[s[0]] + rest[0]] + rest[1..]
  }

  /** `Array.prototype.join` with a one-character separator. */
  function Join(parts: seq<string>, sep: char): string
    requires |parts| >= 1
  {
    if |parts| == 1 then parts[0] else parts[0] + [sep] + Join(parts[1..], sep)
  }

  /** Splitting loses nothing: joining the pieces back gives the input. */
  lemma {:induction false} JoinSplit(s: string, sep: char)
    ensures Join(Split(s, sep), sep) == s
    decreases |s|
  {
    if |s| > 0 {
      var rest := Split(s[1..], sep);
      JoinSplit(s[1..], sep);
      var parts := Split(s, sep);
      if s[0] == sep {
        assert parts[1..] == rest;
      } else {
        assert parts[1..] == rest[1..];
        if |rest| > 1 {
          assert rest[1..] == rest[1..];
          assert Join(rest, sep) == rest[0] + [sep] + Join(rest[1..], sep);
        }
      }
    }
  }

  /** Pieces of a separator-free prefix: it glues onto the first piece. */
  lemma {:induction false} SplitAppend(a: string, t: string, sep: char)
    requires sep !in a
    ensures Split(a + t, sep) == [a + Split(t, sep)[0]] + Split(t, sep)[1..]
    decreases |a|
  {
    if |a| == 0 {
      var parts := Split(t, sep);
      assert a + t == t && a + parts[0] == parts[0];
      assert parts == [parts[0]] + parts[1..];
    } else {
      SplitAppend(a[1..], t, sep);
      assert (a + t)[1..] == a[1..] + t;
      assert [a[0]] + (a[1..] + Split(t, sep)[0]) == a + Split(t, sep)[0];
    }
  }

  /** Joining separator-free pieces and splitting again gives the pieces back. */
  lemma {:induction false} SplitJoin(parts: seq<string>, sep: char)
    requires |parts| >= 1
    requires forall i :: 0 <= i < |parts| ==> sep !in parts[i]
    ensures Split(Join(parts, sep), sep) == parts
    decreases |parts|
  {
    if |parts| == 1 {
      SplitAppend(parts[0], "", sep);
      assert parts[0] + "" == parts[0];
    } else {
      SplitJoin(parts[1..], sep);
      var t := [sep] + Join(parts[1..], sep);
      assert Join(parts, sep) == parts[0] + t;
      SplitAppend(parts[0], t, sep);
      assert t[0] == sep && t[1..] == Join(parts[1..], sep);
      assert Split(t, sep) == [""] + parts[1..];
      assert parts[0] + "" == parts[0];
      assert parts == [parts[0]] + parts[1..];
    }
  }

  /** No white space at either end. */
  predicate IsTrimmed(s: string) {
    s == [] || (!IsSpace(s[0]) && !IsSpace(s[|s| - 1]))
  }

  /** A trimmed string is its own trim. */
  lemma TrimOfTrimmed(s: string)
    requires IsTrimmed(s)
    ensures Trim(s) == s
  {
  }

  /** Trimming is idempotent. */
  lemma TrimIdempotent(s: string)
    ensures IsTrimmed(Trim(s))
    ensures Trim(Trim(s)) == Trim(s)
  {
    TrimOfTrimmed(Trim(s));
  }

  /** The trim of `s` is a slice of `s`. */
  lemma TrimIsSlice(s: string) returns (start: nat)
    ensures start + |Trim(s)| <= |s| && Trim(s) == s[start..start + |Trim(s)|]
  {
    var t := TrimStart(s);
    var r := TrimEnd(t);
    start := |s| - |t|;
    PrefixOfSuffix(s, t, r);
  }

  /** A prefix of a suffix of `s` is a slice of `s`. */
  lemma PrefixOfSuffix(s: string, t: string, r: string)
    requires |t| <= |s| && t == s[|s| - |t|..]
    requires |r| <= |t| && r == t[..|r|]
    ensures r == s[|s| - |t|..|s| - |t| + |r|]
  {
  }

  /** Trimming removes characters, never adds one. */
  lemma TrimKeepsAbsent(s: string, c: char)
    ensures c !in s ==> c !in Trim(s)
  {
    var start := TrimIsSlice(s);
    var r := Trim(s);
    forall k | 0 <= k < |r|
      ensures r[k] in s
    {
      assert r[k] == s[start + k];
    }
  }

  function UpperChar(c: char): char {
    if 'a' <= c <= 'z' then (c as int - 32) as char else c
  }

  function LowerChar(c: char): char {
    if 'A' <= c <= 'Z' then (c as int + 32) as char else c
  }

  /** `String.prototype.toUpperCase`, on the ASCII letters. */
  function ToUpper(s: string): (r: string)
    ensures |r| == |s|
    ensures forall i :: 0 <= i < |s| ==> r[i] == UpperChar(s[i])
  {
    seq(|s|, i requires 0 <= i < |s| => UpperChar(s[i]))
  }

  /** `String.prototype.toLowerCase`, on the ASCII letters. */
  function ToLower(s: string): (r: string)
    ensures |r| == |s|
    ensures forall i :: 0 <= i < |s| ==> r[i] == LowerChar(s[i])
  {
    seq(|s|, i requires 0 <= i < |s| => LowerChar(s[i]))
  }

  /** Upper-casing leaves no lower-case ASCII letter and is idempotent. */
  lemma ToUpperNormalises(s: string)
    ensures forall i :: 0 <= i < |s| ==> !('a' <= ToUpper(s)[i] <= 'z')
    ensures ToUpper(ToUpper(s)) == ToUpper(s)
  {
  }

  /** `needle` occurs in `hay` at some position. */
  predicate Contains(hay: string, needle: string) {
    exists i :: 0 <= i <= |hay| - |needle| && OccursAt(hay, needle, i)
  }

  predicate OccursAt(hay: string, needle: string, i: int) {
    0 <= i <= |hay| - |needle| && hay[i..i + |needle|] == needle
  }

  /** Case-insensitive occurrence: the literal reading of a `$regex` pattern
      with the `i` option. */
  predicate ContainsIgnoringCase(hay: string, needle: string) {
    Contains(ToLower(hay), ToLower(needle))
  }
}

=== FILE: listing.dfy ===
/** The list-query executor shared by both resources: count every matching
    record, then return one page of them in the requested order, with the
    pagination metadata the response carries. The store's own sort is not
    modelled: the executor receives the collection already in the order the
    store produced, and the ordering lemmas say what that order must be. */
module Listing {
  import opened Base
  import JsNumber

  // ----- The list request -------------------------------------------------

  /** `const { page = 1, limit = 10, sortBy = 'name', sortOrder = 'asc',
      ...filterParams } = req.query`, with `page` and `limit` already passed
      through `Number`. */
  datatype ListRequest = ListRequest(
    page: JsNumber.Number,
    limit: JsNumber.Number,
    sortBy: string,
    sortOrder: string,
    filters: map<string, string>)

  const PagingKeys: set<string> := {"page", "limit", "sortBy", "sortOrder"}

  const DefaultPage := 1
  const DefaultLimit := 10
  const DefaultSortBy := "name"
  const DefaultSortOrder := "asc"

  /** Split the query parameters into the paging and sorting options and the
      parameters left for the filter builder. A default applies only when
      the key is absent; an empty value is passed on as given. */
  function SplitListQuery(q: map<string, string>, numberOf: string -> JsNumber.Number): (r: ListRequest)
    ensures forall k :: k in r.filters <==> k in q && k !in PagingKeys
    ensures forall k :: k in r.filters ==> r.filters[k] == q[k]
    ensures "page" !in q ==> r.page == JsNumber.Num(DefaultPage as real)
    ensures "limit" !in q ==> r.limit == JsNumber.Num(DefaultLimit as real)
    ensures "page" in q ==> r.page == numberOf(q["page"])
    ensures "limit" in q ==> r.limit == numberOf(q["limit"])
    ensures r.sortBy == (if "sortBy" in q then q["sortBy"] else DefaultSortBy)
    ensures r.sortOrder == (if "sortOrder" in q then q["sortOrder"] else DefaultSortOrder)
  {
    ListRequest(
      if "page" in q then numberOf(q["page"]) else JsNumber.Num(DefaultPage as real),
      if "limit" in q then numberOf(q["limit"]) else JsNumber.Num(DefaultLimit as real),
      if "sortBy" in q then q["sortBy"] else DefaultSortBy,
      if "sortOrder" in q then q["sortOrder"] else DefaultSortOrder,
      map k | k in q && k !in PagingKeys :: q[k])
  }

  /** A page or limit the model's executor accepts: a whole number >= 1. */
  predicate IsCount(n: JsNumber.Number) {
    n.Num? && n.v == n.v.Floor as real && n.v >= 1.0
  }

  // ----- Pagination metadata -------------------------------------------------

  /** `Math.ceil(total / limit)` as JavaScript computes it for any integer
      limit: a whole number, `Infinity` (limit 0, total > 0) or `NaN` (0 / 0). */
  datatype PageCount = Pages(n: int) | Infinity | NotANumber

  function TotalPages(total: nat, limit: int): (r: PageCount)
    ensures limit > 0 ==> r.Pages? && r.n >= 0 && (r.n - 1) * limit < total <= r.n * limit
    ensures limit < 0 ==> r.Pages? && r.n <= 0
    ensures limit == 0 ==> (r == Infinity <==> total > 0) && (r == NotANumber <==> total == 0)
  {
    if limit != 0 then
      var c := JsNumber.CeilDiv(total, limit);
      CeilSign(total, limit, c);
      Pages(c)
    else if total > 0 then Infinity
    else NotANumber
  }

  lemma CeilSign(total: nat, limit: int, c: int)
    requires limit > 0 ==> (c - 1) * limit < total <= c * limit
    requires limit < 0 ==> c * limit <= total < (c - 1) * limit
    ensures limit > 0 ==> c >= 0
    ensures limit < 0 ==> c <= 0
  {
    if limit > 0 && c < 0 {
      JsNumber.MulMono(limit, c, -1);
    }
    if limit < 0 && c > 0 {
      JsNumber.MulMono(-limit, 0, c - 1);
    }
  }

  /** With `c` pages of `limit`, page `page` is not the last exactly when
      records remain after it. */
  lemma BeforeLastPage(total: nat, page: int, limit: int, c: int)
    requires limit > 0 && (c - 1) * limit < total <= c * limit
    ensures page < c <==> page * limit < total
  {
    if page < c {
      JsNumber.MulMono(limit, page, c - 1);
    } else {
      JsNumber.MulMono(limit, c, page);
    }
  }

  /** `page < totalPages` between a number and a `PageCount`. */
  predicate PageBefore(page: int, count: PageCount) {
    match count
    case Pages(n) => page < n
    case Infinity => true
    case NotANumber => false
  }

  /** The `pagination` object of a list response. */
  datatype Pagination = Pagination(total: nat, page: int, totalPages: PageCount, hasNext: bool, hasPrev: bool)

  /** The pagination metadata for `total` matches, viewed `limit` at a time
      from page `page`; `page` is echoed as a number. For a positive limit,
      `hasNext` holds exactly when records remain after this page. */
  function Paginate(total: nat, page: int, limit: int): (p: Pagination)
    ensures p.total == total && p.page == page
    ensures p.totalPages == TotalPages(total, limit)
    ensures p.hasPrev <==> page > 1
    ensures limit > 0 ==> (p.hasNext <==> page * limit < total)
    ensures limit == 0 ==> (p.hasNext <==> total > 0)
  {
    var count := TotalPages(total, limit);
    if limit > 0 then
      BeforeLastPage(total, page, limit, count.n);
      Pagination(total, page, count, PageBefore(page, count), page > 1)
    else
      Pagination(total, page, count, PageBefore(page, count), page > 1)
  }

  /** The number of records skipped before page `page`. */
  function Skip(page: int, limit: int): (s: int)
    ensures page >= 1 && limit >= 1 ==> 0 <= s && s + limit == page * limit
  {
    if page >= 1 && limit >= 1 then
      JsNumber.MulMono(limit, 0, page - 1);
      (page - 1) * limit
    else
      (page - 1) * limit
  }

  // ----- Filtering and the page window ---------------------------------------

  /** The records of `xs` that satisfy `p`, in their original order. */
  function Filter<T(!new)>(xs: seq<T>, p: T -> bool): (r: seq<T>)
    ensures |r| <= |xs|
    ensures forall x :: x in r <==> x in xs && p(x)
  {
    if |xs| == 0 then []
    else (if p(xs[0]) then [xs[0]] else []) + Filter(xs[1..], p)
  }

  /** Each satisfying record is kept as often as `xs` holds it, and no other
      record at all. */
  lemma {:induction false} FilterCounts<T(!new)>(xs: seq<T>, p: T -> bool)
    ensures forall x :: multiset(Filter(xs, p))[x] == if p(x) then multiset(xs)[x] else 0
  {
    if |xs| > 0 {
      FilterCounts(xs[1..], p);
      assert xs == [xs[0]] + xs[1..];
    }
  }

  /** A predicate every record meets keeps them all. */
  lemma {:induction false} FilterAll<T(!new)>(xs: seq<T>, p: T -> bool)
    requires forall i :: 0 <= i < |xs| ==> p(xs[i])
    ensures Filter(xs, p) == xs
  {
    if |xs| > 0 {
      var tail := xs[1..];
      assert forall i :: 0 <= i < |tail| ==> p(tail[i]) by {
        forall i | 0 <= i < |tail|
          ensures p(tail[i])
        {
          assert tail[i] == xs[i + 1];
        }
      }
      FilterAll(tail, p);
      assert p(xs[0]);
      assert xs == [xs[0]] + tail;
    }
  }

  /** A predicate no record meets keeps none. */
  lemma {:induction false} FilterNone<T(!new)>(xs: seq<T>, p: T -> bool)
    requires forall i :: 0 <= i < |xs| ==> !p(xs[i])
    ensures Filter(xs, p) == []
  {
    if |xs| > 0 {
      var tail := xs[1..];
      assert forall i :: 0 <= i < |tail| ==> !p(tail[i]) by {
        forall i | 0 <= i < |tail|
          ensures !p(tail[i])
        {
          assert tail[i] == xs[i + 1];
        }
      }
      FilterNone(tail, p);
      assert !p(xs[0]);
    }
  }

  /** A predicate at least as strict selects no more records. */
  lemma {:induction false} FilterStricter<T(!new)>(xs: seq<T>, p: T -> bool, q: T -> bool)
    requires forall i :: 0 <= i < |xs| && p(xs[i]) ==> q(xs[i])
    ensures |Filter(xs, p)| <= |Filter(xs, q)|
  {
    if |xs| > 0 {
      FilterStricter(xs[1..], p, q);
    }
  }

  /** At most `limit` records of `xs`, starting after the first `skip`. */
  function Window<T>(xs: seq<T>, skip: nat, limit: nat): (w: seq<T>)
    ensures |w| <= limit
    ensures |w| == if skip >= |xs| then 0 else Min(limit, |xs| - skip)
    ensures forall i :: 0 <= i < |w| ==> w[i] == xs[skip + i]
  {
    if skip >= |xs| then [] else xs[skip..skip + Min(limit, |xs| - skip)]
  }

  /** The `page`-th window of `limit` records. */
  function PageOf<T>(xs: seq<T>, page: int, limit: int): seq<T>
    requires page >= 1 && limit >= 1
  {
    Window(xs, Skip(page, limit), limit)
  }

  /** Every record lies on exactly the page its position puts it on. */
  lemma RecordOnItsPage<T>(xs: seq<T>, i: int, limit: int)
    requires 0 <= i < |xs| && limit >= 1
    ensures i % limit < |PageOf(xs, i / limit + 1, limit)|
    ensures PageOf(xs, i / limit + 1, limit)[i % limit] == xs[i]
  {
    var q, r := i / limit, i % limit;
    assert i == q * limit + r by {
      JsNumber.DivBounds(i, limit);
    }
    assert Skip(q + 1, limit) == q * limit;
    assert q * limit + r < |xs|;
  }

  /** `hasNext` says exactly that the following page is not empty. */
  lemma HasNextIffNextPageNonEmpty<T>(xs: seq<T>, page: int, limit: int)
    requires page >= 1 && limit >= 1
    ensures Paginate(|xs|, page, limit).hasNext <==> |PageOf(xs, page + 1, limit)| > 0
  {
    assert Skip(page + 1, limit) == page * limit;
  }

  /** Two adjacent windows together form the window that spans both. */
  lemma AdjacentWindows<T>(xs: seq<T>, skip: nat, a: nat, b: nat)
    ensures Window(xs, skip, a) + Window(xs, skip + a, b) == Window(xs, skip, a + b)
  {
  }

  // ----- Ordering ------------------------------------------------------------

  /** Every earlier record stands before every later one. */
  predicate Sorted<T>(xs: seq<T>, before: (T, T) -> bool) {
    forall i, j :: 0 <= i < j < |xs| ==> before(xs[i], xs[j])
  }

  lemma {:induction false} FilterKeepsOrder<T(!new)>(xs: seq<T>, p: T -> bool, before: (T, T) -> bool)
    requires Sorted(xs, before)
    ensures Sorted(Filter(xs, p), before)
  {
    if |xs| > 0 {
      var tail := xs[1..];
      assert Sorted(tail, before) by {
        forall i, j | 0 <= i < j < |tail|
          ensures before(tail[i], tail[j])
        {
          assert tail[i] == xs[i + 1] && tail[j] == xs[j + 1];
        }
      }
      FilterKeepsOrder(tail, p, before);
      var rest := Filter(tail, p);
      forall y | y in rest
        ensures before(xs[0], y)
      {
        var k :| 0 <= k < |tail| && tail[k] == y;
        assert xs[k + 1] == y;
      }
    }
  }

  /** A sort value of one field, in the order a document store compares
      mixed types: missing values first, then numbers, then strings. */
  datatype Key = KAbsent | KNum(n: int) | KText(s: string)

  /** Lexicographic order on strings by code point (Unicode scalar value). */
  predicate TextLe(a: string, b: string)
    decreases |a|
  {
    |a| == 0 || (|b| > 0 && (a[0] < b[0] || (a[0] == b[0] && TextLe(a[1..], b[1..]))))
  }

  predicate KeyLe(a: Key, b: Key) {
    match (a, b)
    case (KAbsent, _) => true
    case (KNum(x), KNum(y)) => x <= y
    case (KNum(_), KText(_)) => true
    case (KText(x), KText(y)) => TextLe(x, y)
    case _ => false
  }

  datatype Direction = Ascending | Descending

  /** `a` may come before `b` in a listing sorted in direction `d`. */
  predicate InOrder(a: Key, b: Key, d: Direction) {
    if d == Ascending then KeyLe(a, b) else KeyLe(b, a)
  }

  /** Lexicographic order is total, so any two keys can be put in order. */
  lemma {:induction false} TextLeTotal(a: string, b: string)
    ensures TextLe(a, b) || TextLe(b, a)
    decreases |a|
  {
    if |a| > 0 && |b| > 0 && a[0] == b[0] {
      TextLeTotal(a[1..], b[1..]);
    }
  }

  lemma {:induction false} TextLeTransitive(a: string, b: string, c: string)
    requires TextLe(a, b) && TextLe(b, c)
    ensures TextLe(a, c)
    decreases |a|
  {
    if |a| > 0 && a[0] == b[0] && b[0] == c[0] {
      TextLeTransitive(a[1..], b[1..], c[1..]);
    }
  }

  lemma KeyOrderIsTotalPreorder(a: Key, b: Key, c: Key)
    ensures KeyLe(a, b) || KeyLe(b, a)
    ensures KeyLe(a, b) && KeyLe(b, c) ==> KeyLe(a, c)
  {
    if a.KText? && b.KText? {
      TextLeTotal(a.s, b.s);
    }
    if a.KText? && b.KText? && c.KText? && KeyLe(a, b) && KeyLe(b, c) {
      TextLeTransitive(a.s, b.s, c.s);
    }
  }

  // ----- The executor --------------------------------------------------------

  /** One page of a list response. */
  datatype Listed<T> = Listed(items: seq<T>, pagination: Pagination)

  /** Count the records of `ordered` that match, then return the window of
      page `page`; the total is taken over all matches, not the window. */
  function ListPage<T(!new)>(ordered: seq<T>, matches: T -> bool, page: int, limit: int): (r: Listed<T>)
    requires page >= 1 && limit >= 1
    ensures var all := Filter(ordered, matches);
      && r.pagination == Paginate(|all|, page, limit)
      && |r.items| <= limit
      && (|r.items| == 0 || Skip(page, limit) + |r.items| <= |all|)
      && (forall x :: x in r.items ==> x in ordered && matches(x))
      && (forall i :: 0 <= i < |r.items| ==> r.items[i] == all[Skip(page, limit) + i])
      && r.items == Window(all, Skip(page, limit), limit)
  {
    var all := Filter(ordered, matches);
    var items := PageOf(all, page, limit);
    var skip := Skip(page, limit);
    assert forall i :: 0 <= i < |items| ==> items[i] == all[skip + i];
    assert forall x :: x in items ==> x in ordered && matches(x) by {
      forall x | x in items
        ensures x in ordered && matches(x)
      {
        var i :| 0 <= i < |items| && items[i] == x;
        assert x == all[skip + i];
        assert x in all;
      }
    }
    Listed(items, Paginate(|all|, page, limit))
  }

  /** A page cut from a store-ordered collection is itself in that order. */
  lemma ListPageKeepsOrder<T(!new)>(ordered: seq<T>, matches: T -> bool, page: int, limit: int, before: (T, T) -> bool)
    requires page >= 1 && limit >= 1
    requires Sorted(ordered, before)
    ensures Sorted(ListPage(ordered, matches, page, limit).items, before)
  {
    FilterKeepsOrder(ordered, matches, before);
    var all := Filter(ordered, matches);
    var items := ListPage(ordered, matches, page, limit).items;
    forall i, j | 0 <= i < j < |items|
      ensures before(items[i], items[j])
    {
      assert items[i] == all[Skip(page, limit) + i];
      assert items[j] == all[Skip(page, limit) + j];
    }
  }
}

=== FILE: student_form.dfy ===
/** The add-student form of `studentprogress/src/components/AddStudentForm.jsx`:
    editing the subject list, the ordered validation checks, and what a
    submission does to the form. */
module StudentForm {
  import opened Base
  import JsNumber
  import JsString
  import FormChecks

  /** A subject row of the form; its grade is whatever `Number(input)` gave. */
  datatype FormSubject = FormSubject(name: string, grade: JsNumber.Number)

  /** The controlled inputs; `grade` is still the text typed. */
  datatype FormData = FormData(
    name: string,
    rollNumber: string,
    klass: string,
    section: string,
    subjects: seq<FormSubject>,
    grade: string)

  datatype FormState = FormState(data: FormData, subjectInput: string, error: string)

  const InitialData := FormData("", "", "", "", [], "")
  const InitialState := FormState(InitialData, "", "")

  // ----- handleSubjectAdd ------------------------------------------------------

  /** `.map(s => s.trim()).filter(s => s)`: the trimmed pieces that are not
      empty, in order. */
  function NonEmptyTrimmed(pieces: seq<string>): (names: seq<string>)
    ensures |names| <= |pieces|
    ensures forall i :: 0 <= i < |names| ==> CleanName(names[i])
  {
    if |pieces| == 0 then []
    else
      var t := JsString.Trim(pieces[0]);
      var rest := NonEmptyTrimmed(pieces[1..]);
      if t == [] then rest
      else
        CleanCons(t, rest);
        [t] + rest
  }

  /** The names are exactly the non-empty trims of the pieces. */
  lemma {:induction false} NonEmptyTrimmedMembers(pieces: seq<string>, n: string)
    ensures n in NonEmptyTrimmed(pieces) <==> n != [] && exists j :: 0 <= j < |pieces| && JsString.Trim(pieces[j]) == n
  {
    if |pieces| > 0 {
      NonEmptyTrimmedMembers(pieces[1..], n);
      if exists j :: 0 <= j < |pieces| && JsString.Trim(pieces[j]) == n {
        var j :| 0 <= j < |pieces| && JsString.Trim(pieces[j]) == n;
        if j > 0 {
          assert pieces[1..][j - 1] == pieces[j];
        }
      }
      if exists j :: 0 <= j < |pieces[1..]| && JsString.Trim(pieces[1..][j]) == n {
        var j :| 0 <= j < |pieces[1..]| && JsString.Trim(pieces[1..][j]) == n;
        assert pieces[j + 1] == pieces[1..][j];
      }
    }
  }

  /** One more piece adds its trimmed text at the end, unless that is empty:
      together with the empty case this fixes the result as one name per
      non-empty trimmed piece, in the pieces' order. */
  lemma {:induction false} NonEmptyTrimmedSnoc(pieces: seq<string>, piece: string)
    ensures var t := JsString.Trim(piece);
      NonEmptyTrimmed(pieces + [piece]) == NonEmptyTrimmed(pieces) + (if t == [] then [] else [t])
  {
    if |pieces| > 0 {
      assert (pieces + [piece])[1..] == pieces[1..] + [piece];
      NonEmptyTrimmedSnoc(pieces[1..], piece);
    }
  }

  /** A subject name as the form stores it: non-empty, without white space
      at either end. */
  predicate CleanName(name: string) {
    name != [] && JsString.IsTrimmed(name)
  }

  lemma CleanCons(t: string, rest: seq<string>)
    requires CleanName(t)
    requires forall i :: 0 <= i < |rest| ==> CleanName(rest[i])
    ensures forall i :: 0 <= i < |[t] + rest| ==> CleanName(([t] + rest)[i])
  {
    forall i | 0 <= i < |[t] + rest|
      ensures CleanName(([t] + rest)[i])
    {
      if i > 0 {
        assert ([t] + rest)[i] == rest[i - 1];
      }
    }
  }

  predicate NoComma(names: seq<string>) {
    forall i :: 0 <= i < |names| ==> ',' !in names[i]
  }

  /** Pieces without a comma give names without a comma. */
  lemma {:induction false} NonEmptyTrimmedNoComma(pieces: seq<string>)
    requires NoComma(pieces)
    ensures NoComma(NonEmptyTrimmed(pieces))
  {
    if |pieces| > 0 {
      assert NoComma(pieces[1..]) by {
        forall i | 0 <= i < |pieces[1..]|
          ensures ',' !in pieces[1..][i]
        {
          assert pieces[1..][i] == pieces[i + 1];
        }
      }
      NonEmptyTrimmedNoComma(pieces[1..]);
      JsString.TrimKeepsAbsent(pieces[0], ',');
    }
  }

  /** Names that are already trimmed and non-empty pass through unchanged. */
  lemma {:induction false} NonEmptyTrimmedOfClean(names: seq<string>)
    requires forall i :: 0 <= i < |names| ==> CleanName(names[i])
    ensures NonEmptyTrimmed(names) == names
  {
    if |names| > 0 {
      var rest := names[1..];
      forall i | 0 <= i < |rest|
        ensures CleanName(rest[i])
      {
        assert rest[i] == names[i + 1];
      }
      NonEmptyTrimmedOfClean(rest);
      assert CleanName(names[0]);
      JsString.TrimOfTrimmed(names[0]);
      assert NonEmptyTrimmed(names) == [names[0]] + NonEmptyTrimmed(rest);
      assert names == [names[0]] + rest;
    }
  }

  /** New subjects start with grade 0. */
  function NewSubjects(names: seq<string>): (r: seq<FormSubject>)
    ensures |r| == |names|
    ensures forall i :: 0 <= i < |r| ==> r[i] == FormSubject(names[i], JsNumber.Num(0.0))
  {
    seq(|names|, i requires 0 <= i < |names| => FormSubject(names[i], JsNumber.Num(0.0)))
  }

  /** `handleSubjectAdd`: blank input changes nothing; otherwise each
      comma-separated name is appended, in order, after the existing
      subjects, and the input is cleared. */
  function AddSubjects(s: FormState): (r: FormState)
    ensures JsString.Trim(s.subjectInput) == [] ==> r == s
    ensures JsString.Trim(s.subjectInput) != [] ==>
      r.data.subjects == s.data.subjects + NewSubjects(NonEmptyTrimmed(JsString.Split(s.subjectInput, ',')))
    ensures JsString.Trim(s.subjectInput) != [] ==>
      && r.subjectInput == [] && r.error == s.error
      && r.data == s.data.(subjects := r.data.subjects)
      && |s.data.subjects| <= |r.data.subjects|
      && r.data.subjects[..|s.data.subjects|] == s.data.subjects
      && forall i :: |s.data.subjects| <= i < |r.data.subjects| ==>
           var added := r.data.subjects[i];
           && added.grade == JsNumber.Num(0.0)
           && CleanName(added.name) && ',' !in added.name
  {
    if JsString.Trim(s.subjectInput) == [] then s
    else
      var pieces := JsString.Split(s.subjectInput, ',');
      var names := NonEmptyTrimmed(pieces);
      NonEmptyTrimmedNoComma(pieces);
      var subjects := s.data.subjects + NewSubjects(names);
      assert subjects[..|s.data.subjects|] == s.data.subjects;
      FormState(s.data.(subjects := subjects), [], s.error)
  }

  /** Typing clean names separated by commas adds exactly those names. */
  lemma AddSubjectsOfJoinedNames(s: FormState, names: seq<string>)
    requires |names| >= 1
    requires forall i :: 0 <= i < |names| ==> CleanName(names[i])
    requires NoComma(names)
    requires s.subjectInput == JsString.Join(names, ',')
    ensures AddSubjects(s).data.subjects == s.data.subjects + NewSubjects(names)
  {
    var text := s.subjectInput;
    assert CleanName(names[0]);
    assert text[0] == names[0][0] by {
      if |names| > 1 {
        assert text == names[0] + [','] + JsString.Join(names[1..], ',');
      }
    }
    JsString.TrimEmptyIffBlank(text);
    assert !JsString.IsBlank(text);
    JsString.SplitJoin(names, ',');
    NonEmptyTrimmedOfClean(names);
  }

  // ----- handleSubjectRemove ---------------------------------------------------

  /** `subjects.filter((_, i) => i !== index)`. */
  function RemoveSubject(subjects: seq<FormSubject>, index: int): (r: seq<FormSubject>)
    ensures 0 <= index < |subjects| ==> r == subjects[..index] + subjects[index + 1..]
    ensures !(0 <= index < |subjects|) ==> r == subjects
  {
    if |subjects| == 0 then []
    else
      var rest := RemoveSubject(subjects[1..], index - 1);
      assert subjects == [subjects[0]] + subjects[1..];
      if index == 0 then rest else [subjects[0]] + rest
  }

  // ----- handleSubjectGradeChange ----------------------------------------------

  /** `subjects.map((s, i) => i === index ? {...s, grade: Number(grade)} : s)`,
      with the coerced number as the argument. */
  function ChangeSubjectGrade(subjects: seq<FormSubject>, index: int, grade: JsNumber.Number): (r: seq<FormSubject>)
    ensures |r| == |subjects|
    ensures forall i :: 0 <= i < |r| ==> r[i].name == subjects[i].name
    ensures forall i :: 0 <= i < |r| && i != index ==> r[i] == subjects[i]
    ensures 0 <= index < |r| ==> r[index].grade == grade
  {
    seq(|subjects|, i requires 0 <= i < |subjects| =>
      if i == index then subjects[i].(grade := grade) else subjects[i])
  }

  /** Setting a grade back to what it was undoes a change. */
  lemma ChangeSubjectGradeUndo(subjects: seq<FormSubject>, index: int, grade: JsNumber.Number)
    requires 0 <= index < |subjects|
    ensures ChangeSubjectGrade(ChangeSubjectGrade(subjects, index, grade), index, subjects[index].grade) == subjects
  {
  }

  // ----- validateForm ----------------------------------------------------------

  const NameMessage := "Name must be at least 2 characters long"
  const RollNumberMessage := "Roll number is required"
  const ClassMessage := "Class is required"
  const SectionMessage := "Section is required"
  const GradeMessage := "Overall grade must be between 0 and 100"
  const SubjectsMessage := "At least one subject is required"

  /** The overall grade is missing, not a number, or outside [0, 100]. */
  predicate GradeRejected(grade: string, numberOf: string -> JsNumber.Number) {
    var n := numberOf(grade);
    grade == "" || n.NaN? || n.v < 0.0 || n.v > 100.0
  }

  /** The checks of `validateForm`, in the order they run. */
  function StudentFormChecks(f: FormData, numberOf: string -> JsNumber.Number): seq<FormChecks.Check> {
    [ FormChecks.Check(JsString.Utf16Length(f.name) < 2, NameMessage),
      FormChecks.Check(f.rollNumber == "", RollNumberMessage),
      FormChecks.Check(f.klass == "", ClassMessage),
      FormChecks.Check(f.section == "", SectionMessage),
      FormChecks.Check(GradeRejected(f.grade, numberOf), GradeMessage),
      FormChecks.Check(|f.subjects| == 0, SubjectsMessage) ]
  }

  /** `validateForm`: `None` when the form may be posted, otherwise the error
      it shows. */
  function ValidateStudentForm(f: FormData, numberOf: string -> JsNumber.Number): (r: Option<string>)
    ensures r == FormChecks.FirstFailure(StudentFormChecks(f, numberOf))
    ensures r.None? <==>
      && JsString.Utf16Length(f.name) >= 2 && f.rollNumber != "" && f.klass != "" && f.section != ""
      && numberOf(f.grade).Num? && 0.0 <= numberOf(f.grade).v <= 100.0 && f.grade != ""
      && |f.subjects| >= 1
  {
    var checks := StudentFormChecks(f, numberOf);
    if JsString.Utf16Length(f.name) < 2 then
      FormChecks.FirstFailureAt(checks, 0);
      Some(NameMessage)
    else if f.rollNumber == "" then
      FormChecks.FirstFailureAt(checks, 1);
      Some(RollNumberMessage)
    else if f.klass == "" then
      FormChecks.FirstFailureAt(checks, 2);
      Some(ClassMessage)
    else if f.section == "" then
      FormChecks.FirstFailureAt(checks, 3);
      Some(SectionMessage)
    else if GradeRejected(f.grade, numberOf) then
      FormChecks.FirstFailureAt(checks, 4);
      Some(GradeMessage)
    else if |f.subjects| == 0 then
      FormChecks.FirstFailureAt(checks, 5);
      Some(SubjectsMessage)
    else
      assert !checks[0].fails && !checks[1].fails && !checks[2].fails;
      assert !checks[3].fails && !checks[4].fails && !checks[5].fails;
      None
  }

  // ----- handleSubmit ------------------------------------------------------------

  /** What the POST sends: the form with `grade: Number(grade)`. */
  datatype Payload = Payload(
    name: string,
    rollNumber: string,
    klass: string,
    section: string,
    subjects: seq<FormSubject>,
    grade: real)

  const RefusedMessage := "Failed to add student"
  const ThrownMessage := "Error adding student. Please try again."

  /** The form after a submission and the payload it posted, if any. */
  datatype Submission = Submission(state: FormState, posted: Option<Payload>)

  /** `handleSubmit`: an invalid form shows its error and posts nothing; a
      valid one posts; a successful reply resets the form; a refusal shows
      the server's message or a fallback; a thrown error shows its message or
      a fallback. */
  function Submit(s: FormState, numberOf: string -> JsNumber.Number, reply: FormChecks.Reply): (r: Submission)
    ensures var v := ValidateStudentForm(s.data, numberOf);
      && (v.Some? ==> r == Submission(s.(error := v.value), None))
      && (v.None? ==> r.posted == Some(Payload(s.data.name, s.data.rollNumber, s.data.klass, s.data.section,
                                               s.data.subjects, numberOf(s.data.grade).v)))
    ensures r.posted.Some? && FormChecks.Succeeded(reply) ==> r.state == InitialState
    ensures r.posted.Some? && !FormChecks.Succeeded(reply) ==>
      r.state == s.(error := FormChecks.FailureMessage(reply, RefusedMessage, ThrownMessage))
    ensures r.state.error == "" <==> r.posted.Some? && FormChecks.Succeeded(reply)
  {
    match ValidateStudentForm(s.data, numberOf)
    case Some(message) =>
      assert message != "" by {
        FirstFailureMessages(s.data, numberOf);
      }
      Submission(s.(error := message), None)
    case None =>
      var d := s.data;
      var payload := Payload(d.name, d.rollNumber, d.klass, d.section, d.subjects, numberOf(d.grade).v);
      if FormChecks.Succeeded(reply) then Submission(InitialState, Some(payload))
      else Submission(s.(error := FormChecks.FailureMessage(reply, RefusedMessage, ThrownMessage)), Some(payload))
  }

  /** No validation message is empty, so a shown error is always visible. */
  lemma FirstFailureMessages(f: FormData, numberOf: string -> JsNumber.Number)
    ensures FormChecks.FirstFailure(StudentFormChecks(f, numberOf)) != Some("")
  {
  }

  /** The form a successful submission leaves behind cannot be posted again
      as it is: its first check fails. */
  lemma ResetFormFailsValidation(numberOf: string -> JsNumber.Number)
    ensures ValidateStudentForm(InitialData, numberOf) == Some(NameMessage)
  {
  }
}

=== FILE: student_model.dfy ===
/** The student document of `backend/models/Student.js`: its paths, ranges,
    enumeration and defaults, validation of a document before it is saved,
    the sparse-unique `rollNumber`, and `calculateAverageGrade`. */
module StudentModel {
  import opened Base
  import JsNumber

  const MinGrade := 0
  const MaxGrade := 100
  const MinAttendance := 0
  const MaxAttendance := 100
  const DefaultAttendance := 100

  datatype StudentStatus = Active | Inactive | Graduated

  /** The stored spelling of a status. */
  function StatusName(st: StudentStatus): string {
    match st
    case Active => "active"
    case Inactive => "inactive"
    case Graduated => "graduated"
  }

  /** The enumeration check: which status, if any, a string names. */
  function ParseStatus(text: string): (r: Option<StudentStatus>)
    ensures r.Some? ==> StatusName(r.value) == text
    ensures r.None? ==> forall st: StudentStatus :: StatusName(st) != text
  {
    if text == "active" then Some(Active)
    else if text == "inactive" then Some(Inactive)
    else if text == "graduated" then Some(Graduated)
    else None
  }

  lemma ParseStatusName(st: StudentStatus)
    ensures ParseStatus(StatusName(st)) == Some(st)
  {
  }

  /** The `rollNumber` path, which has three states: unset (the document has
      no such field), explicitly null, or a text. The sparse unique index
      leaves out only unset documents; null is indexed like a value. */
  datatype RollNumber = Unset | NullRoll | Roll(text: string)

  /** The sparse index holds an entry for this roll number. */
  predicate Indexed(r: RollNumber) {
    !r.Unset?
  }

  /** A subject entry's `grade`. The entry schema requires neither of its
      keys, so an entry may lack a grade or hold null. */
  datatype SubjectGrade = NoGrade | NullGrade | Grade(n: int)

  /** One entry of a student's ordered `subjects` list. */
  datatype Subject = Subject(name: string, grade: SubjectGrade)

  /** A saved student document; its identity is the key it is stored under.
      `subjects` is `None` when an update assigned null to the array path,
      which Mongoose stores without casting. */
  datatype Student = Student(
    name: string,
    grade: int,
    rollNumber: RollNumber,
    klass: Option<string>,
    section: Option<string>,
    subjects: Option<seq<Subject>>,
    attendance: Option<int>,
    status: Option<StudentStatus>)

  /** A document as the handlers assemble it before validation: any path may
      be unset, and `status` is still free text. */
  datatype Draft = Draft(
    name: Option<string>,
    grade: Option<int>,
    rollNumber: RollNumber,
    klass: Option<string>,
    section: Option<string>,
    subjects: Option<seq<Subject>>,
    attendance: Option<int>,
    status: Option<string>)

  /** Why a save is refused; `path` names the schema path. */
  datatype Violation =
    | Required(path: string)
    | BelowMin(path: string)
    | AboveMax(path: string)
    | NotInEnum(path: string)
    | CastFailed(path: string)
    | DuplicateKey(path: string)

  /** The schema's constraints on a saved document. The default fills an
      undefined `status` and the enumeration refuses null, so every saved
      document has a status. */
  predicate ValidStudent(s: Student) {
    && s.name != ""
    && MinGrade <= s.grade <= MaxGrade
    && (s.attendance.Some? ==> MinAttendance <= s.attendance.value <= MaxAttendance)
    && s.status.Some?
  }

  /** The draft a saved document corresponds to. */
  function ToDraft(s: Student): Draft {
    Draft(Some(s.name), Some(s.grade), s.rollNumber, s.klass, s.section, s.subjects, s.attendance,
          if s.status.Some? then Some(StatusName(s.status.value)) else None)
  }

  /** Every schema violation of a draft: required `name` (an empty string
      counts as missing) and `grade`, the [0, 100] ranges of `grade` and
      `attendance`, and the `status` enumeration, whose validator passes only
      an undefined value or one of the listed spellings, so it refuses null. */
  function Violations(d: Draft): set<Violation> {
    (if d.name.None? || d.name.value == "" then {Required("name")} else {})
    + (if d.grade.None? then {Required("grade")}
       else if d.grade.value < MinGrade then {BelowMin("grade")}
       else if d.grade.value > MaxGrade then {AboveMax("grade")}
       else {})
    + (if d.attendance.None? then {}
       else if d.attendance.value < MinAttendance then {BelowMin("attendance")}
       else if d.attendance.value > MaxAttendance then {AboveMax("attendance")}
       else {})
    + (if d.status.None? || ParseStatus(d.status.value).None? then {NotInEnum("status")} else {})
  }

  /** Validation before save: a draft passes exactly when it has no
      violation, and then the saved document carries the draft's values. */
  function Validate(d: Draft): (r: Result<Student, set<Violation>>)
    ensures r.Ok? <==> Violations(d) == {}
    ensures r.Err? ==> r.error == Violations(d)
    ensures r.Ok? ==> ValidStudent(r.value) && ToDraft(r.value) == d
  {
    if Violations(d) != {} then Err(Violations(d))
    else
      assert Required("name") !in Violations(d);
      assert Required("grade") !in Violations(d);
      assert NotInEnum("status") !in Violations(d);
      Ok(Student(d.name.value, d.grade.value, d.rollNumber, d.klass, d.section, d.subjects, d.attendance,
                 ParseStatus(d.status.value)))
  }

  /** A valid saved document passes validation again unchanged. */
  lemma ValidateToDraft(s: Student)
    requires ValidStudent(s)
    ensures Validate(ToDraft(s)) == Ok(s)
  {
    ParseStatusName(s.status.value);
    assert Violations(ToDraft(s)) == {};
  }

  // ----- calculateAverageGrade -----------------------------------------------

  /** What `acc + subject.grade` adds: null adds 0, and a missing grade
      (`undefined`) makes the sum NaN, written `None`. */
  function GradeTerm(g: SubjectGrade): (r: Option<int>)
    ensures r.None? <==> g.NoGrade?
    ensures g.Grade? ==> r == Some(g.n)
    ensures g.NullGrade? ==> r == Some(0)
  {
    match g
    case NoGrade => None
    case NullGrade => Some(0)
    case Grade(n) => Some(n)
  }

  /** `subjects.reduce((acc, subject) => acc + subject.grade, 0)`: NaN
      (`None`) exactly when some entry lacks its grade. */
  function SumGrades(subjects: seq<Subject>): (r: Option<int>)
    ensures r.None? <==> exists i :: 0 <= i < |subjects| && subjects[i].grade.NoGrade?
  {
    if |subjects| == 0 then Some(0)
    else
      var init := subjects[..|subjects| - 1];
      var sum := SumGrades(init);
      var term := GradeTerm(subjects[|subjects| - 1].grade);
      assert forall i :: 0 <= i < |init| ==> init[i] == subjects[i];
      if sum.Some? && term.Some? then Some(sum.value + term.value) else None
  }

  /** The subjects a document lists; a null path lists none. */
  function SubjectsOf(s: Student): seq<Subject> {
    if s.subjects.Some? then s.subjects.value else []
  }

  /** `calculateAverageGrade`: with null or no subjects, the overall grade;
      NaN (`None`, sent as null) when some entry lacks its grade; otherwise
      the mean of the entries' grades rounded half up, as `Math.round`
      rounds. */
  function AverageGrade(s: Student): (r: Option<int>)
    ensures s.subjects.None? ==> r == Some(s.grade)
    ensures |SubjectsOf(s)| == 0 ==> r == Some(s.grade)
    ensures r.None? <==> exists i :: 0 <= i < |SubjectsOf(s)| && SubjectsOf(s)[i].grade.NoGrade?
    ensures r.Some? && |SubjectsOf(s)| > 0 ==>
      var n := |SubjectsOf(s)|;
      SumGrades(SubjectsOf(s)).Some? &&
      2 * n * r.value - n <= 2 * SumGrades(SubjectsOf(s)).value < 2 * n * r.value + n
  {
    var subjects := SubjectsOf(s);
    if |subjects| == 0 then Some(s.grade)
    else
      var sum := SumGrades(subjects);
      if sum.None? then None else Some(JsNumber.RoundedMean(sum.value, |subjects|))
  }

  /** Every entry has a grade term within [lo, hi]. */
  predicate GradesWithin(subjects: seq<Subject>, lo: int, hi: int) {
    forall i :: 0 <= i < |subjects| ==>
      GradeTerm(subjects[i].grade).Some? && lo <= GradeTerm(subjects[i].grade).value <= hi
  }

  /** Grades all within [lo, hi] sum to between n * lo and n * hi. */
  lemma {:induction false} SumGradesBounds(subjects: seq<Subject>, lo: int, hi: int)
    requires GradesWithin(subjects, lo, hi)
    ensures SumGrades(subjects).Some?
    ensures |subjects| * lo <= SumGrades(subjects).value <= |subjects| * hi
  {
    if |subjects| > 0 {
      var init := subjects[..|subjects| - 1];
      assert forall i :: 0 <= i < |init| ==> init[i] == subjects[i];
      SumGradesBounds(init, lo, hi);
      assert |subjects| * lo == |init| * lo + lo && |subjects| * hi == |init| * hi + hi;
    }
  }

  /** The average lies between the lowest and the highest subject grade. */
  lemma AverageWithinSubjectGrades(s: Student, lo: int, hi: int)
    requires |SubjectsOf(s)| > 0
    requires GradesWithin(SubjectsOf(s), lo, hi)
    ensures AverageGrade(s).Some? && lo <= AverageGrade(s).value <= hi
  {
    SumGradesBounds(SubjectsOf(s), lo, hi);
    JsNumber.RoundedMeanWithin(SumGrades(SubjectsOf(s)).value, |SubjectsOf(s)|, lo, hi);
  }

  /** The first seeded student: subject grades 90, 85 and 80 average to 85. */
  lemma SeededAverage()
    ensures AverageGrade(Student("John Doe", 85, Roll("2023001"), Some("10A"), Some("A"),
      Some([Subject("Math", Grade(90)), Subject("Science", Grade(85)), Subject("English", Grade(80))]),
      Some(95), Some(Active))) == Some(85)
  {
    var subjects := [Subject("Math", Grade(90)), Subject("Science", Grade(85)), Subject("English", Grade(80))];
    var two := subjects[..2];
    assert two[..1] == [Subject("Math", Grade(90))];
    assert SumGrades(two[..1]) == Some(90);
    assert SumGrades(two) == Some(175);
    assert SumGrades(subjects) == Some(255);
  }

  /** The gaps the entry schema leaves: a null grade counts as 0, so grades
      90 and null average to 45, and an entry without a grade makes the
      average NaN whatever the other entries hold. */
  lemma SubjectGradeGaps(s: Student)
    ensures AverageGrade(s.(subjects := Some([Subject("Math", Grade(90)), Subject("Art", NullGrade)]))) == Some(45)
    ensures AverageGrade(s.(subjects := Some([Subject("Math", Grade(90)), Subject("Art", NoGrade)]))).None?
  {
    var withNull := [Subject("Math", Grade(90)), Subject("Art", NullGrade)];
    assert withNull[..1] == [Subject("Math", Grade(90))];
    assert SumGrades(withNull) == Some(90);
    var withMissing := [Subject("Math", Grade(90)), Subject("Art", NoGrade)];
    assert withMissing[1].grade.NoGrade?;
  }

  // ----- Store-level invariants ---------------------------------------------

  /** A document's `_id`; opaque to the model. */
  type StudentId = string

  type StudentStore = map<StudentId, Student>

  /** The sparse unique index on `rollNumber`: no two indexed documents share
      an entry, so at most one document holds each text and at most one holds
      null; unset documents never conflict. */
  predicate RollNumbersUnique(store: StudentStore) {
    forall a, b :: a in store && b in store && a != b && Indexed(store[a].rollNumber) ==>
      store[a].rollNumber != store[b].rollNumber
  }

  /** Some document other than `except` already holds the index entry `roll`. */
  predicate RollNumberTaken(store: StudentStore, roll: RollNumber, except: Option<StudentId>) {
    Indexed(roll) && exists id :: id in store && Some(id) != except && store[id].rollNumber == roll
  }

  predicate StoreValid(store: StudentStore) {
    && (forall id :: id in store ==> ValidStudent(store[id]))
    && RollNumbersUnique(store)
  }

  /** Storing a valid document under `id` keeps the store valid, provided no
      other document holds its roll number. */
  lemma StorePreserved(store: StudentStore, id: StudentId, s: Student)
    requires ValidStudent(s) && !RollNumberTaken(store, s.rollNumber, Some(id))
    ensures StoreValid(store) ==> StoreValid(store[id := s])
  {
  }
}

=== FILE: student_routes.dfy ===
/** The handlers of `backend/routes/students.js` against an abstract store (a
    map from `_id` to document): the filter builder and list query, get by
    id with the computed average, create with defaults, partial update and
    delete. */
module StudentRoutes {
  import opened Base
  import JsNumber
  import JsString
  import Listing
  import opened StudentModel
  import Body

  // ----- buildFilterQuery ----------------------------------------------------

  /** `if (queryParams[key])`: present and not the empty string. */
  predicate Given(q: map<string, string>, key: string) {
    key in q && q[key] != ""
  }

  /** The value of a given parameter. */
  function Param(q: map<string, string>, key: string): Option<string> {
    if Given(q, key) then Some(q[key]) else None
  }

  /** `query.grade`: `$gte` and/or `$lte`, each a coerced number. */
  datatype GradeRange = GradeRange(gte: Option<JsNumber.Number>, lte: Option<JsNumber.Number>)

  /** The filter object, one optional constraint per recognised parameter;
      `name` is a case-insensitive pattern. */
  datatype StudentFilter = StudentFilter(
    name: Option<string>,
    grade: Option<GradeRange>,
    klass: Option<string>,
    section: Option<string>,
    status: Option<string>,
    minAttendance: Option<JsNumber.Number>)

  const FilterKeys: set<string> := {"name", "minGrade", "maxGrade", "class", "section", "status", "minAttendance"}

  /** `buildFilterQuery`: each recognised parameter with a non-empty value
      adds its constraint; `minGrade`/`maxGrade` share one grade range. */
  function BuildStudentFilter(q: map<string, string>, numberOf: string -> JsNumber.Number): (f: StudentFilter)
    ensures f.name == Param(q, "name")
    ensures f.klass == Param(q, "class") && f.section == Param(q, "section") && f.status == Param(q, "status")
    ensures f.grade.Some? <==> Given(q, "minGrade") || Given(q, "maxGrade")
    ensures f.grade.Some? ==> (f.grade.value.gte.Some? <==> Given(q, "minGrade"))
    ensures f.grade.Some? ==> (f.grade.value.lte.Some? <==> Given(q, "maxGrade"))
    ensures f.grade.Some? && Given(q, "minGrade") ==> f.grade.value.gte.value == numberOf(q["minGrade"])
    ensures f.grade.Some? && Given(q, "maxGrade") ==> f.grade.value.lte.value == numberOf(q["maxGrade"])
    ensures f.minAttendance.Some? <==> Given(q, "minAttendance")
    ensures f.minAttendance.Some? ==> f.minAttendance.value == numberOf(q["minAttendance"])
  {
    StudentFilter(
      Param(q, "name"),
      if Given(q, "minGrade") || Given(q, "maxGrade") then
        Some(GradeRange(
          if Given(q, "minGrade") then Some(numberOf(q["minGrade"])) else None,
          if Given(q, "maxGrade") then Some(numberOf(q["maxGrade"])) else None))
      else None,
      Param(q, "class"),
      Param(q, "section"),
      Param(q, "status"),
      if Given(q, "minAttendance") then Some(numberOf(q["minAttendance"])) else None)
  }

  predicate InGradeRange(grade: int, range: GradeRange) {
    && (range.gte.Some? ==> JsNumber.AtLeast(JsNumber.Num(grade as real), range.gte.value))
    && (range.lte.Some? ==> JsNumber.AtMost(JsNumber.Num(grade as real), range.lte.value))
  }

  function TrimmedOption(t: Option<string>): (r: Option<string>)
    ensures r.Some? <==> t.Some?
    ensures r.Some? ==> r.value == JsString.Trim(t.value)
  {
    if t.Some? then Some(JsString.Trim(t.value)) else None
  }

  /** The filter as the store runs it: Mongoose casts it through the schema,
      whose `trim` setters trim the values for `name` (inside `$regex` too),
      `class` and `section`; `status` has no setter and is kept as given. */
  function CastFilter(f: StudentFilter): (c: StudentFilter)
    ensures c.grade == f.grade && c.status == f.status && c.minAttendance == f.minAttendance
    ensures c.name == TrimmedOption(f.name) && c.klass == TrimmedOption(f.klass) && c.section == TrimmedOption(f.section)
  {
    f.(name := TrimmedOption(f.name), klass := TrimmedOption(f.klass), section := TrimmedOption(f.section))
  }

  /** A document satisfies the filter the query builds, once cast. */
  predicate StudentMatches(f: StudentFilter, s: Student) {
    CastMatches(CastFilter(f), s)
  }

  /** A document satisfies every constraint of a cast filter (a
      conjunction). A comparison with a path the document lacks fails. */
  predicate CastMatches(f: StudentFilter, s: Student) {
    && (f.name.Some? ==> JsString.ContainsIgnoringCase(s.name, f.name.value))
    && (f.grade.Some? ==> InGradeRange(s.grade, f.grade.value))
    && (f.klass.Some? ==> s.klass == f.klass)
    && (f.section.Some? ==> s.section == f.section)
    && (f.status.Some? ==> s.status.Some? && StatusName(s.status.value) == f.status.value)
    && (f.minAttendance.Some? ==>
          s.attendance.Some? && JsNumber.AtLeast(JsNumber.Num(s.attendance.value as real), f.minAttendance.value))
  }

  /** Only the recognised parameters shape the filter. */
  lemma FilterIgnoresOtherKeys(q: map<string, string>, numberOf: string -> JsNumber.Number)
    ensures BuildStudentFilter(q, numberOf) == BuildStudentFilter(map k | k in q && k in FilterKeys :: q[k], numberOf)
  {
  }

  /** An empty value adds nothing: it acts as if the key were absent. */
  lemma EmptyParamIsAbsent(q: map<string, string>, key: string, numberOf: string -> JsNumber.Number)
    ensures BuildStudentFilter(q[key := ""], numberOf) == BuildStudentFilter(q - {key}, numberOf)
  {
  }

  predicate NoFilterGiven(q: map<string, string>) {
    !Given(q, "name") && !Given(q, "minGrade") && !Given(q, "maxGrade") && !Given(q, "class")
    && !Given(q, "section") && !Given(q, "status") && !Given(q, "minAttendance")
  }

  /** With no recognised parameter every document matches. */
  lemma NoFilterMatchesAll(q: map<string, string>, numberOf: string -> JsNumber.Number, s: Student)
    requires NoFilterGiven(q)
    ensures StudentMatches(BuildStudentFilter(q, numberOf), s)
  {
  }

  /** Adding one more recognised, non-empty parameter never admits a document
      the smaller query rejected. */
  lemma AddingParamNarrows(q: map<string, string>, key: string, value: string,
                           numberOf: string -> JsNumber.Number, s: Student)
    requires key in FilterKeys && value != "" && !Given(q, key)
    ensures StudentMatches(BuildStudentFilter(q[key := value], numberOf), s) ==>
            StudentMatches(BuildStudentFilter(q, numberOf), s)
  {
    ExtraParamNarrows(q, key, value, numberOf);
    NarrowerMatchesFewer(BuildStudentFilter(q[key := value], numberOf), BuildStudentFilter(q, numberOf), s);
  }

  /** Every constraint of `g` is also a constraint of `f`. */
  predicate Narrower(f: StudentFilter, g: StudentFilter) {
    && (g.name.Some? ==> g.name == f.name)
    && (g.klass.Some? ==> g.klass == f.klass)
    && (g.section.Some? ==> g.section == f.section)
    && (g.status.Some? ==> g.status == f.status)
    && (g.minAttendance.Some? ==> g.minAttendance == f.minAttendance)
    && (g.grade.Some? ==>
          && f.grade.Some?
          && (g.grade.value.gte.Some? ==> g.grade.value.gte == f.grade.value.gte)
          && (g.grade.value.lte.Some? ==> g.grade.value.lte == f.grade.value.lte))
  }

  lemma NarrowerMatchesFewer(f: StudentFilter, g: StudentFilter, s: Student)
    requires Narrower(f, g)
    ensures StudentMatches(f, s) ==> StudentMatches(g, s)
  {
  }

  lemma ExtraParamNarrows(q: map<string, string>, key: string, value: string, numberOf: string -> JsNumber.Number)
    requires key in FilterKeys && value != "" && !Given(q, key)
    ensures Narrower(BuildStudentFilter(q[key := value], numberOf), BuildStudentFilter(q, numberOf))
  {
    OtherParamsKept(q, key, value);
  }

  /** Setting one key leaves every other parameter as it was. */
  lemma OtherParamsKept(q: map<string, string>, key: string, value: string)
    ensures forall k :: k != key ==> Param(q[key := value], k) == Param(q, k) && (Given(q[key := value], k) <==> Given(q, k))
  {
  }

  /** White space around a `name`, `class` or `section` value changes
      nothing: the padded value selects exactly the documents its trimmed
      form selects. */
  lemma PaddedValueMatchesTrimmed(f: StudentFilter, v: string, s: Student)
    ensures StudentMatches(f.(name := Some(v)), s) <==> StudentMatches(f.(name := Some(JsString.Trim(v))), s)
    ensures StudentMatches(f.(klass := Some(v)), s) <==> StudentMatches(f.(klass := Some(JsString.Trim(v))), s)
    ensures StudentMatches(f.(section := Some(v)), s) <==> StudentMatches(f.(section := Some(JsString.Trim(v))), s)
  {
    JsString.TrimIdempotent(v);
  }

  /** Filtering on a status name selects exactly the documents with that status. */
  lemma StatusFilterSelectsStatus(st: StudentStatus, numberOf: string -> JsNumber.Number, s: Student)
    ensures StudentMatches(BuildStudentFilter(map["status" := StatusName(st)], numberOf), s)
            <==> s.status == Some(st)
  {
    var f := BuildStudentFilter(map["status" := StatusName(st)], numberOf);
    assert f == StudentFilter(None, None, None, None, Some(StatusName(st)), None);
    assert CastFilter(f) == f;
    if s.status.Some? && StatusName(s.status.value) == StatusName(st) {
      ParseStatusName(st);
      ParseStatusName(s.status.value);
    }
  }

  // ----- GET / -----------------------------------------------------------------

  /** `sortOrder === 'desc' ? -1 : 1`. */
  function SortSign(sortOrder: string): (sign: int)
    ensures sign == -1 || sign == 1
    ensures sign == -1 <==> sortOrder == "desc"
  {
    if sortOrder == "desc" then -1 else 1
  }

  function SortDirection(sortOrder: string): Listing.Direction {
    if SortSign(sortOrder) == -1 then Listing.Descending else Listing.Ascending
  }

  /** The value a document sorts by on a given path. */
  function SortKey(s: Student, path: string): Listing.Key {
    if path == "name" then Listing.KText(s.name)
    else if path == "grade" then Listing.KNum(s.grade)
    else if path == "rollNumber" then (if s.rollNumber.Roll? then Listing.KText(s.rollNumber.text) else Listing.KAbsent)
    else if path == "class" then OptionalText(s.klass)
    else if path == "section" then OptionalText(s.section)
    else if path == "attendance" then (if s.attendance.Some? then Listing.KNum(s.attendance.value) else Listing.KAbsent)
    else if path == "status" then (if s.status.Some? then Listing.KText(StatusName(s.status.value)) else Listing.KAbsent)
    else Listing.KAbsent
  }

  function OptionalText(t: Option<string>): Listing.Key {
    if t.Some? then Listing.KText(t.value) else Listing.KAbsent
  }

  /** `a` may precede `b` under the request's sort options. */
  predicate SortsBefore(req: Listing.ListRequest, a: Student, b: Student) {
    Listing.InOrder(SortKey(a, req.sortBy), SortKey(b, req.sortBy), SortDirection(req.sortOrder))
  }

  predicate AcceptedPaging(q: map<string, string>, numberOf: string -> JsNumber.Number) {
    var req := Listing.SplitListQuery(q, numberOf);
    Listing.IsCount(req.page) && Listing.IsCount(req.limit)
  }

  /** Why the store refuses the query (answered with 500): a numeric bound
      that is NaN fails the cast to the path's type. */
  datatype ListRefusal = CastToNumberFailed(path: string)

  /** The `grade` bounds survive the cast to a number. */
  predicate GradeBoundsAreNumbers(f: StudentFilter) {
    f.grade.Some? ==> f.grade.value.gte != Some(JsNumber.NaN) && f.grade.value.lte != Some(JsNumber.NaN)
  }

  /** Every numeric bound of the filter survives the cast to a number. */
  predicate BoundsAreNumbers(f: StudentFilter) {
    GradeBoundsAreNumbers(f) && f.minAttendance != Some(JsNumber.NaN)
  }

  /** GET /: `ordered` is the collection in the order the store's sort gives.
      A NaN bound refuses the query, `grade` being cast before `attendance`.
      Otherwise the page is the `page`-th window of `limit` documents among
      those that match the filter built from the non-paging parameters, and
      the total counts every match. */
  function ListStudents(ordered: seq<Student>, q: map<string, string>, numberOf: string -> JsNumber.Number)
    : (r: Result<Listing.Listed<Student>, ListRefusal>)
    requires AcceptedPaging(q, numberOf)
    ensures var req := Listing.SplitListQuery(q, numberOf);
      var f := BuildStudentFilter(req.filters, numberOf);
      && (r.Err? <==> !BoundsAreNumbers(f))
      && (r == Err(CastToNumberFailed("grade")) <==> !GradeBoundsAreNumbers(f))
      && (r == Err(CastToNumberFailed("attendance")) <==> GradeBoundsAreNumbers(f) && f.minAttendance == Some(JsNumber.NaN))
    ensures r.Ok? ==> var req := Listing.SplitListQuery(q, numberOf);
      var f := BuildStudentFilter(req.filters, numberOf);
      var all := Listing.Filter(ordered, s => StudentMatches(f, s));
      var page, limit := req.page.v.Floor, req.limit.v.Floor;
      && r.value.items == Listing.Window(all, Listing.Skip(page, limit), limit)
      && r.value.pagination == Listing.Paginate(|all|, page, limit)
      && |r.value.items| <= limit
      && (forall s :: s in r.value.items ==> s in ordered && StudentMatches(f, s))
      && r.value.pagination.page as real == req.page.v
  {
    var req := Listing.SplitListQuery(q, numberOf);
    var f := BuildStudentFilter(req.filters, numberOf);
    if !GradeBoundsAreNumbers(f) then Err(CastToNumberFailed("grade"))
    else if !BoundsAreNumbers(f) then Err(CastToNumberFailed("attendance"))
    else Ok(Listing.ListPage(ordered, s => StudentMatches(f, s), req.page.v.Floor, req.limit.v.Floor))
  }

  /** If the store returns the collection sorted as asked, the page is sorted
      the same way. */
  lemma ListStudentsSorted(ordered: seq<Student>, q: map<string, string>, numberOf: string -> JsNumber.Number)
    requires AcceptedPaging(q, numberOf)
    requires Listing.Sorted(ordered, (a, b) => SortsBefore(Listing.SplitListQuery(q, numberOf), a, b))
    requires ListStudents(ordered, q, numberOf).Ok?
    ensures Listing.Sorted(ListStudents(ordered, q, numberOf).value.items,
                           (a, b) => SortsBefore(Listing.SplitListQuery(q, numberOf), a, b))
  {
    var req := Listing.SplitListQuery(q, numberOf);
    var f := BuildStudentFilter(req.filters, numberOf);
    Listing.ListPageKeepsOrder(ordered, s => StudentMatches(f, s), req.page.v.Floor, req.limit.v.Floor,
                               (a, b) => SortsBefore(req, a, b));
  }

  // ----- Responses ------------------------------------------------------------

  /** A refused request: 404 with a message, 400 with the violations, or 400
      because the body overwrote the document's own `save` method, so that
      calling it throws. */
  datatype Failure = NotFound(message: string) | Rejected(violations: set<Violation>) | SaveOverwritten

  function HttpStatus(f: Failure): int {
    if f.NotFound? then 404 else 400
  }

  const NotFoundMessage := "Student not found"

  /** A successful write: the new store and the saved document. */
  datatype Saved = Saved(store: StudentStore, student: Student)

  // ----- GET /:id --------------------------------------------------------------

  /** The document with its `averageGrade`; `None` is NaN, which the JSON
      response carries as null. */
  datatype StudentView = StudentView(student: Student, averageGrade: Option<int>)

  function GetStudent(store: StudentStore, id: StudentId): (r: Result<StudentView, Failure>)
    ensures r.Err? <==> id !in store
    ensures r.Err? ==> r.error == NotFound(NotFoundMessage)
    ensures r.Ok? ==> r.value.student == store[id] && r.value.averageGrade == AverageGrade(store[id])
  {
    if id !in store then Err(NotFound(NotFoundMessage))
    else Ok(StudentView(store[id], AverageGrade(store[id])))
  }

  /** In a valid store whose subject grades are percentages, the computed
      average is a percentage too, unless an entry lacks its grade, which
      makes it NaN. */
  lemma GetStudentAverageInRange(store: StudentStore, id: StudentId)
    requires StoreValid(store) && id in store
    requires forall i :: 0 <= i < |SubjectsOf(store[id])| && SubjectsOf(store[id])[i].grade.Grade? ==>
               0 <= SubjectsOf(store[id])[i].grade.n <= 100
    ensures GetStudent(store, id).Ok?
    ensures var average := GetStudent(store, id).value.averageGrade;
      && (average.None? <==> exists i :: 0 <= i < |SubjectsOf(store[id])| && SubjectsOf(store[id])[i].grade.NoGrade?)
      && (average.Some? ==> 0 <= average.value <= 100)
  {
    var subjects := SubjectsOf(store[id]);
    if |subjects| > 0 && AverageGrade(store[id]).Some? {
      forall i | 0 <= i < |subjects|
        ensures GradeTerm(subjects[i].grade).Some? && 0 <= GradeTerm(subjects[i].grade).value <= 100
      {
        assert !subjects[i].grade.NoGrade?;
      }
      AverageWithinSubjectGrades(store[id], 0, 100);
    }
  }

  /** The bound on the subject grades is needed: the schema bounds the
      overall grade but not a subject's, so a valid store can report an
      average of 150. */
  lemma AverageCanLeaveRange()
    ensures var s := Student("A", 50, Unset, None, None, Some([Subject("Math", Grade(150))]), None, Some(Active));
      && StoreValid(map["a" := s])
      && GetStudent(map["a" := s], "a") == Ok(StudentView(s, Some(150)))
  {
    var s := Student("A", 50, Unset, None, None, Some([Subject("Math", Grade(150))]), None, Some(Active));
    assert SumGrades(SubjectsOf(s)) == Some(150) by {
      assert SubjectsOf(s)[..0] == [];
    }
  }

  // ----- Saving a draft -------------------------------------------------------

  function CastFailure<T>(c: Body.Cast<T>, path: string): set<Violation> {
    if c.CastError? then {CastFailed(path)} else {}
  }

  function CastOr<T>(c: Body.Cast<T>, fallback: T): T {
    if c.Cast? then c.value else fallback
  }

  /** `student.save()` under `id`: cast failures and schema violations refuse
      with 400, as does a roll number another document already holds. */
  function Save(store: StudentStore, id: StudentId, d: Draft, castFailures: set<Violation>): (r: Result<Saved, Failure>)
    ensures r.Err? ==> r.error.Rejected?
    ensures r.Ok? <==> castFailures == {} && Violations(d) == {} && !RollNumberTaken(store, d.rollNumber, Some(id))
    ensures r.Ok? ==> r.value.store == store[id := r.value.student] && ToDraft(r.value.student) == d
    ensures r.Ok? ==> ValidStudent(r.value.student)
    ensures r.Ok? && StoreValid(store) ==> StoreValid(r.value.store)
  {
    if castFailures != {} then Err(Rejected(castFailures))
    else match Validate(d)
      case Err(v) => Err(Rejected(v))
      case Ok(s) =>
        if RollNumberTaken(store, s.rollNumber, Some(id)) then Err(Rejected({DuplicateKey("rollNumber")}))
        else
          StorePreserved(store, id, s);
          Ok(Saved(store[id := s], s))
  }

  // ----- POST / ----------------------------------------------------------------

  function ReadString(body: Body.RequestBody, key: string, trim: bool): Body.Cast<Option<string>> {
    if key in body then Body.CastString(body[key], trim) else Body.Cast(None)
  }

  /** A body value assigned to `rollNumber`: null stores null, anything a
      string path accepts stores that text. */
  function RollValue(v: Body.Value): (r: Body.Cast<RollNumber>)
    ensures v.Null? <==> r == Body.Cast(NullRoll)
    ensures v.Text? ==> r == Body.Cast(Roll(v.s))
    ensures r.CastError? <==> v.SubjectList?
  {
    match Body.CastString(v, false)
    case Cast(Some(t)) => Body.Cast(Roll(t))
    case Cast(None) => Body.Cast(NullRoll)
    case CastError => Body.CastError
  }

  /** `rollNumber` of `new Student({...})`: a body without the key leaves the
      path unset. */
  function ReadRollNumber(body: Body.RequestBody): Body.Cast<RollNumber> {
    if "rollNumber" in body then RollValue(body["rollNumber"]) else Body.Cast(Unset)
  }

  function ReadNumber(body: Body.RequestBody, key: string): Body.Cast<Option<int>> {
    if key in body then Body.CastNumber(body[key]) else Body.Cast(None)
  }

  predicate TruthyIn(body: Body.RequestBody, key: string) {
    key in body && Body.Truthy(body[key])
  }

  /** The casts of `new Student({...})`: `subjects || []`, `status || 'active'`,
      and the default attendance when the body has none. */
  datatype NewFields = NewFields(
    name: Body.Cast<Option<string>>,
    grade: Body.Cast<Option<int>>,
    rollNumber: Body.Cast<RollNumber>,
    klass: Body.Cast<Option<string>>,
    section: Body.Cast<Option<string>>,
    subjects: Body.Cast<Option<seq<Subject>>>,
    attendance: Body.Cast<Option<int>>,
    status: Body.Cast<Option<string>>)

  function NewStudentFields(body: Body.RequestBody): NewFields {
    NewFields(
      ReadString(body, "name", true),
      ReadNumber(body, "grade"),
      ReadRollNumber(body),
      ReadString(body, "class", true),
      ReadString(body, "section", true),
      if TruthyIn(body, "subjects") then Body.CastSubjects(body["subjects"]) else Body.Cast(Some([])),
      if "attendance" in body then Body.CastNumber(body["attendance"]) else Body.Cast(Some(DefaultAttendance)),
      if TruthyIn(body, "status") then Body.CastString(body["status"], false) else Body.Cast(Some(StatusName(Active))))
  }

  function FieldsDraft(c: NewFields): Draft {
    Draft(CastOr(c.name, None), CastOr(c.grade, None), CastOr(c.rollNumber, Unset), CastOr(c.klass, None),
          CastOr(c.section, None), CastOr(c.subjects, Some([])), CastOr(c.attendance, None), CastOr(c.status, None))
  }

  function FieldsCastFailures(c: NewFields): set<Violation> {
    CastFailure(c.name, "name") + CastFailure(c.grade, "grade") + CastFailure(c.rollNumber, "rollNumber")
    + CastFailure(c.klass, "class") + CastFailure(c.section, "section") + CastFailure(c.subjects, "subjects")
    + CastFailure(c.attendance, "attendance") + CastFailure(c.status, "status")
  }

  /** POST /: build the document from the body and save it under the fresh
      id the store assigns. It is saved exactly when every cast succeeds, the
      schema holds and no other document holds its roll number's index
      entry, and then it is the document the body describes. */
  function CreateStudent(store: StudentStore, body: Body.RequestBody, newId: StudentId): (r: Result<Saved, Failure>)
    requires newId !in store
    ensures var fields := NewStudentFields(body);
      r.Ok? <==> && FieldsCastFailures(fields) == {} && Violations(FieldsDraft(fields)) == {}
                 && !RollNumberTaken(store, FieldsDraft(fields).rollNumber, None)
    ensures r.Ok? ==> ToDraft(r.value.student) == FieldsDraft(NewStudentFields(body))
    ensures r.Err? ==> HttpStatus(r.error) == 400
    ensures r.Ok? ==> r.value.store == store[newId := r.value.student] && |r.value.store| == |store| + 1
    ensures r.Ok? ==> ValidStudent(r.value.student)
    ensures r.Ok? && StoreValid(store) ==> StoreValid(r.value.store)
    ensures "name" !in body || "grade" !in body ==> r.Err?
    ensures r.Ok? && !TruthyIn(body, "subjects") ==> r.value.student.subjects == Some([])
    ensures r.Ok? && !TruthyIn(body, "status") ==> r.value.student.status == Some(Active)
    ensures r.Ok? && "attendance" !in body ==> r.value.student.attendance == Some(DefaultAttendance)
    ensures r.Ok? && "grade" in body && body["grade"].Number? ==> r.value.student.grade == body["grade"].n
    ensures r.Ok? && "rollNumber" in body && body["rollNumber"].Text? ==>
              r.value.student.rollNumber == Roll(body["rollNumber"].s)
    ensures r.Ok? && "rollNumber" in body && body["rollNumber"].Null? ==> r.value.student.rollNumber == NullRoll
    ensures r.Ok? && "rollNumber" !in body ==> r.value.student.rollNumber == Unset
    ensures r.Ok? && "subjects" in body && body["subjects"].SubjectList? ==>
              r.value.student.subjects == Some(body["subjects"].subjects)
  {
    var fields := NewStudentFields(body);
    var r := Save(store, newId, FieldsDraft(fields), FieldsCastFailures(fields));
    if r.Ok? then
      assert ToDraft(r.value.student) == FieldsDraft(fields);
      assert r.value.student.status.Some? ==> ParseStatus(StatusName(r.value.student.status.value)).Some?;
      ParseStatusName(Active);
      r
    else r
  }

  /** A create whose roll number some document already holds is refused and
      the store is left as it was. */
  lemma CreateDuplicateRollNumber(store: StudentStore, body: Body.RequestBody, newId: StudentId, other: StudentId)
    requires newId !in store && other in store
    requires "rollNumber" in body && body["rollNumber"].Text?
    requires store[other].rollNumber == Roll(body["rollNumber"].s)
    ensures CreateStudent(store, body, newId).Err?
  {
  }

  /** The sparse index covers null: while one document holds a null roll
      number, a second create with an explicit null is refused. */
  lemma CreateSecondNullRollNumber(store: StudentStore, body: Body.RequestBody, newId: StudentId, other: StudentId)
    requires newId !in store && other in store
    requires "rollNumber" in body && body["rollNumber"] == Body.Null
    requires store[other].rollNumber == NullRoll
    ensures CreateStudent(store, body, newId).Err?
  {
  }

  /** A body without `rollNumber` never clashes on the index. */
  lemma CreateWithoutRollNumberNeverClashes(store: StudentStore, body: Body.RequestBody, newId: StudentId)
    requires newId !in store && "rollNumber" !in body
    ensures var fields := NewStudentFields(body);
      CreateStudent(store, body, newId).Ok? <==> FieldsCastFailures(fields) == {} && Violations(FieldsDraft(fields)) == {}
  {
  }

  /** `body` describes document `t`: it holds every path of `t`, null for an
      absent optional path, and a `rollNumber` key exactly when that path is
      set. Other keys may be present too. */
  predicate Describes(body: Body.RequestBody, t: Student) {
    && "name" in body && body["name"] == Body.Text(t.name)
    && "grade" in body && body["grade"] == Body.Number(t.grade)
    && "class" in body && body["class"] == OptionalValue(t.klass)
    && "section" in body && body["section"] == OptionalValue(t.section)
    && "subjects" in body && body["subjects"] == SubjectsValue(t.subjects)
    && "attendance" in body && body["attendance"] == (if t.attendance.Some? then Body.Number(t.attendance.value) else Body.Null)
    && "status" in body && body["status"] == (if t.status.Some? then Body.Text(StatusName(t.status.value)) else Body.Null)
    && ("rollNumber" in body <==> !t.rollNumber.Unset?)
    && (t.rollNumber.NullRoll? ==> body["rollNumber"] == Body.Null)
    && (t.rollNumber.Roll? ==> body["rollNumber"] == Body.Text(t.rollNumber.text))
  }

  function OptionalValue(t: Option<string>): Body.Value {
    if t.Some? then Body.Text(t.value) else Body.Null
  }

  function SubjectsValue(subjects: Option<seq<Subject>>): Body.Value {
    if subjects.Some? then Body.SubjectList(subjects.value) else Body.Null
  }

  /** Every document has a body that describes it, with no other key. */
  function StudentBody(t: Student): (body: Body.RequestBody)
    ensures Describes(body, t)
    ensures forall k :: k in body ==> k in SchemaPaths
  {
    var fields := map[
      "name" := Body.Text(t.name),
      "grade" := Body.Number(t.grade),
      "class" := OptionalValue(t.klass),
      "section" := OptionalValue(t.section),
      "subjects" := SubjectsValue(t.subjects),
      "attendance" := if t.attendance.Some? then Body.Number(t.attendance.value) else Body.Null,
      "status" := if t.status.Some? then Body.Text(StatusName(t.status.value)) else Body.Null];
    match t.rollNumber
    case Unset => fields
    case NullRoll => fields["rollNumber" := Body.Null]
    case Roll(text) => fields["rollNumber" := Body.Text(text)]
  }

  /** The trimmed string paths hold trimmed text. */
  predicate TrimmedPaths(t: Student) {
    && JsString.IsTrimmed(t.name)
    && (t.klass.Some? ==> JsString.IsTrimmed(t.klass.value))
    && (t.section.Some? ==> JsString.IsTrimmed(t.section.value))
  }

  /** The document a create builds from a body describing `t`: `t` itself,
      except that null `subjects` and `status` fall back to their defaults. */
  function Created(t: Student): Student {
    t.(subjects := if t.subjects.None? then Some([]) else t.subjects,
       status := if t.status.None? then Some(Active) else t.status)
  }

  /** Posting a body that describes a valid document creates exactly that
      document (with the default status when its status is null), unless
      another document holds its roll number's index entry. */
  lemma CreateOfDescribedStudent(store: StudentStore, body: Body.RequestBody, t: Student, newId: StudentId)
    requires newId !in store
    requires Describes(body, t) && ValidStudent(Created(t)) && TrimmedPaths(t)
    ensures CreateStudent(store, body, newId)
            == if RollNumberTaken(store, t.rollNumber, None) then Err(Rejected({DuplicateKey("rollNumber")}))
               else Ok(Saved(store[newId := Created(t)], Created(t)))
  {
    var c := Created(t);
    var fields := NewStudentFields(body);
    FieldsOfDescribedStudent(body, t);
    assert FieldsCastFailures(fields) == {};
    assert FieldsDraft(fields) == ToDraft(c);
    ValidateToDraft(c);
    assert RollNumberTaken(store, c.rollNumber, Some(newId)) == RollNumberTaken(store, t.rollNumber, None);
  }

  /** Every path of a body describing `t` casts back to the value `t` holds. */
  lemma FieldsOfDescribedStudent(body: Body.RequestBody, t: Student)
    requires Describes(body, t) && TrimmedPaths(t)
    ensures NewStudentFields(body)
            == NewFields(Body.Cast(Some(t.name)), Body.Cast(Some(t.grade)), Body.Cast(t.rollNumber),
                         Body.Cast(t.klass), Body.Cast(t.section), Body.Cast(Created(t).subjects), Body.Cast(t.attendance),
                         Body.Cast(Some(StatusName(Created(t).status.value))))
  {
    var f := NewStudentFields(body);
    ReadTrimmed(body, "name", Some(t.name));
    ReadTrimmed(body, "class", t.klass);
    ReadTrimmed(body, "section", t.section);
    assert f.name == Body.Cast(Some(t.name));
    assert f.klass == Body.Cast(t.klass);
    assert f.section == Body.Cast(t.section);
    UntrimmedFieldsOfDescribed(body, t);
    StatusRead(body, t.status);
  }

  /** The paths of a body describing `t` that no setter touches cast back
      to `t`'s values, with the create's defaults for `subjects`. */
  lemma UntrimmedFieldsOfDescribed(body: Body.RequestBody, t: Student)
    requires Describes(body, t)
    ensures var f := NewStudentFields(body);
      && f.grade == Body.Cast(Some(t.grade))
      && f.rollNumber == Body.Cast(t.rollNumber)
      && f.subjects == Body.Cast(Created(t).subjects)
      && f.attendance == Body.Cast(t.attendance)
  {
  }

  /** `status || 'active'` of a stored status, or of null. */
  lemma StatusRead(body: Body.RequestBody, st: Option<StudentStatus>)
    requires "status" in body && body["status"] == (if st.Some? then Body.Text(StatusName(st.value)) else Body.Null)
    ensures (if TruthyIn(body, "status") then Body.CastString(body["status"], false) else Body.Cast(Some(StatusName(Active))))
            == Body.Cast(Some(StatusName(if st.Some? then st.value else Active)))
  {
    if st.Some? {
      var name := StatusName(st.value);
      assert |name| > 0;
      assert Body.Truthy(body["status"]);
    }
  }

  /** A trimmed text, or null, reads back unchanged from a trimming path. */
  lemma ReadTrimmed(body: Body.RequestBody, key: string, t: Option<string>)
    requires key in body && body[key] == OptionalValue(t)
    requires t.Some? ==> JsString.IsTrimmed(t.value)
    ensures ReadString(body, key, true) == Body.Cast(t)
  {
    if t.Some? {
      JsString.TrimOfTrimmed(t.value);
    }
  }

  // ----- PATCH /:id ------------------------------------------------------------

  const SchemaPaths: set<string> := {"name", "grade", "rollNumber", "class", "section", "subjects", "attendance", "status"}

  /** `key !== '_id' && key !== '__v'`: the body keys the handler assigns. */
  predicate Assigned(body: Body.RequestBody, key: string) {
    key in body && key != "_id" && key != "__v"
  }

  function PatchString(body: Body.RequestBody, key: string, trim: bool, current: Option<string>): Body.Cast<Option<string>> {
    if Assigned(body, key) then Body.CastString(body[key], trim) else Body.Cast(current)
  }

  function PatchNumber(body: Body.RequestBody, key: string, current: Option<int>): Body.Cast<Option<int>> {
    if Assigned(body, key) then Body.CastNumber(body[key]) else Body.Cast(current)
  }

  /** Assign each body key to the loaded document; keys outside the schema
      are dropped by the schema's strict mode. */
  function PatchFields(current: Student, body: Body.RequestBody): NewFields {
    var d := ToDraft(current);
    NewFields(
      PatchString(body, "name", true, d.name),
      PatchNumber(body, "grade", d.grade),
      if Assigned(body, "rollNumber") then RollValue(body["rollNumber"]) else Body.Cast(d.rollNumber),
      PatchString(body, "class", true, d.klass),
      PatchString(body, "section", true, d.section),
      if Assigned(body, "subjects") then Body.CastSubjects(body["subjects"]) else Body.Cast(d.subjects),
      PatchNumber(body, "attendance", d.attendance),
      PatchString(body, "status", false, d.status))
  }

  /** PATCH /:id: 404 when the id is unknown; a `save` key replaces the
      document's method and the save then throws (400); otherwise every
      assigned body key overwrites its path, the result is saved exactly when
      the casts, the schema and the roll-number index allow it, and nothing
      else about the document or any other document changes. */
  function PatchStudent(store: StudentStore, id: StudentId, body: Body.RequestBody): (r: Result<Saved, Failure>)
    ensures id !in store ==> r == Err(NotFound(NotFoundMessage))
    ensures id in store && r.Err? ==> HttpStatus(r.error) == 400
    ensures id in store && "save" in body ==> r == Err(SaveOverwritten)
    ensures r.Ok? <==> id in store && "save" !in body && PatchAccepted(store, id, body)
    ensures r.Ok? ==> ToDraft(r.value.student) == FieldsDraft(PatchFields(store[id], body))
    ensures r.Ok? ==> id in store && r.value.store == store[id := r.value.student]
    ensures r.Ok? ==> r.value.store.Keys == store.Keys
    ensures r.Ok? ==> ValidStudent(r.value.student)
    ensures r.Ok? && StoreValid(store) ==> StoreValid(r.value.store)
    ensures r.Ok? ==> var before := store[id]; var after := r.value.student;
      && ("grade" !in body ==> after.grade == before.grade)
      && ("rollNumber" !in body ==> after.rollNumber == before.rollNumber)
      && ("class" !in body ==> after.klass == before.klass)
      && ("section" !in body ==> after.section == before.section)
      && ("subjects" !in body ==> after.subjects == before.subjects)
      && ("attendance" !in body ==> after.attendance == before.attendance)
      && ("status" !in body ==> after.status == before.status)
      && ("name" !in body ==> after.name == before.name)
    ensures r.Ok? && "grade" in body && body["grade"].Number? ==> r.value.student.grade == body["grade"].n
    ensures r.Ok? && "subjects" in body && body["subjects"].SubjectList? ==>
              r.value.student.subjects == Some(body["subjects"].subjects)
    ensures r.Ok? && "subjects" in body && body["subjects"].Null? ==> r.value.student.subjects.None?
    ensures "status" in body && body["status"].Null? ==> r.Err?
  {
    if id !in store then Err(NotFound(NotFoundMessage))
    else if Assigned(body, "save") then Err(SaveOverwritten)
    else
      var before := store[id];
      var fields := PatchFields(before, body);
      var r := Save(store, id, FieldsDraft(fields), FieldsCastFailures(fields));
      if r.Ok? then
        var after := r.value.student;
        assert ToDraft(after) == FieldsDraft(fields);
        StatusTextInjective(after.status, before.status);
        r
      else r
  }

  /** The patched document passes the casts, the schema and the roll-number
      index. */
  predicate PatchAccepted(store: StudentStore, id: StudentId, body: Body.RequestBody)
    requires id in store
  {
    var fields := PatchFields(store[id], body);
    && FieldsCastFailures(fields) == {} && Violations(FieldsDraft(fields)) == {}
    && !RollNumberTaken(store, FieldsDraft(fields).rollNumber, Some(id))
  }

  /** The document a patch with a body describing `t` leaves behind: `t`,
      except that a body without `rollNumber` keeps the stored one, since
      JSON has no way to unset a path. */
  function Patched(t: Student, before: Student): Student {
    if t.rollNumber.Unset? then t.(rollNumber := before.rollNumber) else t
  }

  /** Patching with a body that describes a valid document turns the stored
      document into exactly that one (keeping its roll number when the body
      has none), unless another document holds the roll number's index entry. */
  lemma PatchToDescribedStudent(store: StudentStore, id: StudentId, body: Body.RequestBody, t: Student)
    requires id in store && "save" !in body
    requires Describes(body, t) && ValidStudent(t) && TrimmedPaths(t)
    ensures var after := Patched(t, store[id]);
      PatchStudent(store, id, body)
      == if RollNumberTaken(store, after.rollNumber, Some(id)) then Err(Rejected({DuplicateKey("rollNumber")}))
         else Ok(Saved(store[id := after], after))
  {
    var after := Patched(t, store[id]);
    FieldsOfPatch(body, t, store[id]);
    assert FieldsDraft(PatchFields(store[id], body)) == ToDraft(after);
    ValidateToDraft(after);
  }

  /** Every assigned path of a body describing `t` casts to the value `t`
      holds; an unassigned `rollNumber` keeps the stored one. */
  lemma FieldsOfPatch(body: Body.RequestBody, t: Student, before: Student)
    requires Describes(body, t) && TrimmedPaths(t)
    ensures PatchFields(before, body)
            == NewFields(Body.Cast(Some(t.name)), Body.Cast(Some(t.grade)), Body.Cast(Patched(t, before).rollNumber),
                         Body.Cast(t.klass), Body.Cast(t.section), Body.Cast(t.subjects), Body.Cast(t.attendance),
                         Body.Cast(ToDraft(t).status))
  {
    var f := PatchFields(before, body);
    ReadTrimmed(body, "name", Some(t.name));
    ReadTrimmed(body, "class", t.klass);
    ReadTrimmed(body, "section", t.section);
    assert f.name == Body.Cast(Some(t.name));
    assert f.grade == Body.Cast(Some(t.grade));
    assert f.rollNumber == Body.Cast(Patched(t, before).rollNumber);
    assert f.klass == Body.Cast(t.klass);
    assert f.section == Body.Cast(t.section);
    assert f.subjects == Body.Cast(t.subjects);
    assert f.attendance == Body.Cast(t.attendance);
    assert f.status == Body.Cast(ToDraft(t).status);
  }

  /** Two statuses with the same stored text are the same status. */
  lemma StatusTextInjective(a: Option<StudentStatus>, b: Option<StudentStatus>)
    ensures ToDraftStatus(a) == ToDraftStatus(b) ==> a == b
  {
  }

  function ToDraftStatus(st: Option<StudentStatus>): Option<string> {
    if st.Some? then Some(StatusName(st.value)) else None
  }

  /** `_id` and `__v` in the body have no effect at all. */
  lemma PatchIgnoresIdAndVersion(store: StudentStore, id: StudentId, body: Body.RequestBody)
    ensures PatchStudent(store, id, body) == PatchStudent(store, id, body - {"_id", "__v"})
  {
    var trimmed := body - {"_id", "__v"};
    forall k | k in SchemaPaths
      ensures Assigned(body, k) == Assigned(trimmed, k)
      ensures Assigned(body, k) ==> body[k] == trimmed[k]
    {
    }
    if id in store {
      assert PatchFields(store[id], body) == PatchFields(store[id], trimmed);
    }
  }

  /** A key outside the schema, other than `save`, has no effect either. */
  lemma PatchIgnoresUnknownKeys(store: StudentStore, id: StudentId, body: Body.RequestBody, key: string)
    requires key !in SchemaPaths && key != "save"
    ensures PatchStudent(store, id, body) == PatchStudent(store, id, body - {key})
  {
    if id in store {
      assert PatchFields(store[id], body) == PatchFields(store[id], body - {key});
    }
  }

  /** Assigning null to `subjects` is saved: the document then lists no
      subjects and its average falls back to its overall grade. */
  lemma PatchNullSubjects(store: StudentStore, id: StudentId)
    requires StoreValid(store) && id in store
    ensures var after := store[id].(subjects := None);
      && PatchStudent(store, id, map["subjects" := Body.Null]) == Ok(Saved(store[id := after], after))
      && GetStudent(store[id := after], id) == Ok(StudentView(after, Some(after.grade)))
  {
    var before := store[id];
    var after := before.(subjects := None);
    var body := map["subjects" := Body.Null];
    assert FieldsDraft(PatchFields(before, body)) == ToDraft(after);
    ValidateToDraft(after);
  }

  /** Assigning null to `status` is refused: the enumeration's validator
      does not pass null, so the save answers 400 and the store keeps the
      document. */
  lemma PatchNullStatusRefused(store: StudentStore, id: StudentId)
    requires StoreValid(store) && id in store
    ensures PatchStudent(store, id, map["status" := Body.Null]) == Err(Rejected({NotInEnum("status")}))
  {
    var before := store[id];
    var body := map["status" := Body.Null];
    var fields := PatchFields(before, body);
    assert FieldsCastFailures(fields) == {};
    var d := FieldsDraft(fields);
    assert d == ToDraft(before).(status := None);
    assert Violations(d) == {NotInEnum("status")};
  }

  /** An empty body saves the document unchanged in a valid store. */
  lemma EmptyPatchChangesNothing(store: StudentStore, id: StudentId)
    requires StoreValid(store) && id in store
    ensures PatchStudent(store, id, map[]) == Ok(Saved(store, store[id]))
  {
    var s := store[id];
    ValidateToDraft(s);
    assert FieldsDraft(PatchFields(s, map[])) == ToDraft(s);
    assert store[id := s] == store;
  }

  // ----- DELETE /:id -----------------------------------------------------------

  /** DELETE /:id: 404 when the id is unknown; otherwise exactly that document
      is removed. */
  function DeleteStudent(store: StudentStore, id: StudentId): (r: Result<StudentStore, Failure>)
    ensures r.Err? <==> id !in store
    ensures r.Err? ==> r.error == NotFound(NotFoundMessage)
    ensures r.Ok? ==> r.value.Keys == store.Keys - {id}
    ensures r.Ok? ==> forall k :: k in r.value ==> r.value[k] == store[k]
    ensures r.Ok? && StoreValid(store) ==> StoreValid(r.value)
  {
    if id !in store then Err(NotFound(NotFoundMessage)) else Ok(store - {id})
  }

  /** Deleting the same id twice reports not-found the second time. */
  lemma DeleteTwiceNotFound(store: StudentStore, id: StudentId)
    requires DeleteStudent(store, id).Ok?
    ensures DeleteStudent(DeleteStudent(store, id).value, id) == Err(NotFound(NotFoundMessage))
  {
  }
}
